=== FILE: README.md ===
# Plan explanation with alternative plans, modelled in Dafny

The system explains a PostgreSQL query plan in prose. It reads the chosen
plan (the QEP, or QP in the code) from `EXPLAIN (FORMAT JSON)` and builds a
binary tree of numbered nodes. It lists the join and scan kinds the tree
uses. For each kind it switches the matching planner setting off and asks for
another plan, an alternative plan (AQP). It pairs the joins and the scans of
each alternative with those of the chosen plan. The kind and cost of the
partner are recorded on the chosen plan's node. Finally every node gets an
annotation. A template chosen by its "Node Type" explains the node, a
sentence gives the extra cost of the first two alternatives, and the text is
filed under the clauses of the SQL query that the node implements.

This project models that core as pure functions over immutable data and
proves what the code guarantees:

- `wrappers.dfy`: `Option`, `Result` and `ReadAll`. A Python exception is a
  `Failure`, and a loop that may raise is `ReadAll`.
- `text.dfy`: the Python string operations the code relies on. These are
  substring test, split, strip, `[1:-1]` and string ordering.
- `fields.dfy`: a node's JSON fields and the exceptions. `Get`, `GetStr` and
  `GetNum` are the dict subscript, plain or used as text or as a number.
- `seqs.dfy`: ordered filtering and its algebra.
- `annotation.dfy`: the `annotation.py` templates, `NodeAnnotation` and
  `MapAnnotation`.
- `plan_tree.dfy`: `Node`, `Tree`, `build_tree`, `get_operations_list` and
  `get_networkx_info`.
- `planner.dfy`: `get_multiple_aqp`. The six planner settings are a state,
  and the database is an oracle from settings to a plan.
- `alignment.dfy`: `join_mapper` and `scan_mapper`. Each has a functional
  definition and a loop-by-loop method proved equal to it.
- `attach.dfy`: `add_alt_attributes`, `node_mapper` and `generate_altnodes`.

Every pandas table row enters its table as a one-row frame, so every row
carries the index label 0. The model keeps the three consequences:

- Putting two tables side by side pairs rows by position.
- "Drop the offending rows' index" drops every row as soon as one row offends.
- A boolean `.loc` selection is an ordinary filter.

## Model

| member | source | states |
|---|---|---|
| Wrappers.ReadAll | preprocessing.py:629-632 | A loop whose steps may raise either raises, exactly when some step raises, or yields one result per element, in order. |
| Text.SplitOn | annotation.py:463 | Splitting at a character gives one more piece than there are occurrences, and no piece contains the character. The first piece is the text before the first occurrence. |
| Text.SplitOnJoin | annotation.py:463 | Joining the pieces of a split with the separator gives back the text. |
| Text.StripLeft | annotation.py:464 | Stripping on the left removes only whitespace and leaves a suffix that does not start with whitespace. |
| Text.StripRight | annotation.py:464 | Stripping on the right removes only whitespace and leaves a prefix that does not end with whitespace. |
| Text.Inner | annotation.py:464 | `[1:-1]` loses exactly the first and the last character: putting them back around the result restores any text of two or more characters. Shorter texts give the empty text. |
| Text.ContainsAt | annotation.py:429 | The substring test holds whenever the substring occurs at some position. |
| Text.ContainsOccurs | annotation.py:429 | Conversely, when the substring test holds, the substring occurs at some position. |
| Text.ContainsIff | annotation.py:429 | Python's `sub in s` on two texts holds exactly when `sub` occurs at some position of `s`. |
| Text.LexLeTotal | preprocessing.py:728-729 | Any two relation names are comparable in the sort order. |
| Text.LexLeTransitive | preprocessing.py:728-729 | The sort order on relation names is transitive. |
| Fields.TypedReads | preprocessing.py:656-658 | Reading a field as text or as a number yields exactly the payload the plain subscript finds. A missing key raises the same KeyError, a value of the other kind raises a TypeError, and no field reads both as text and as a number. |
| Fields.InIff | annotation.py:429 | Python's `in` holds on text exactly when the substring occurs at some position, and on a list exactly when some element equals it. On a number it raises a TypeError. |
| Seqs.Filter | preprocessing.py:738 | A selection keeps only rows that satisfy the test, taken from the table, and never more rows than the table has. |
| Seqs.FilterCount | preprocessing.py:738 | A selection keeps every row that satisfies the test, as often as it occurs, and no other row. |
| Seqs.FilterConcat | preprocessing.py:758 | Selecting from two stacked tables is stacking the two selections. |
| Seqs.FilterMultiset | preprocessing.py:759 | Reordering a table does not change which rows a selection keeps. |
| Annotation.TemplateDispatch | annotation.py:395-416 | A kind gets a specific template only under the name it is registered for, and every registered template is reached. Every other kind gets the default template. |
| Annotation.OptionalText | annotation.py:144-151 | An optional clause field raises a TypeError exactly when it is present but not text. Otherwise it contributes at most its one clause, and that clause exactly when the field is present. |
| Annotation.AggregateParts | annotation.py:6-56 | The aggregate template takes three strategies and rejects all others. A sorted aggregation mentions grouping and filtering exactly when those fields exist. A sorted aggregation succeeds exactly when "Group Key" is absent or iterable and "Filter" is absent or text. A hashed aggregation succeeds exactly when "Group Key" is present and iterable. A plain aggregation always succeeds. |
| Annotation.MergeJoinPartsAsWritten | annotation.py:209-231 | As written, the merge-join template succeeds exactly when "Merge Cond" is absent or text, mentions the merge condition exactly when it exists, and never adds the semi-join clause. |
| Annotation.MergeJoinParts | annotation.py:209-231 | The corrected template succeeds under the same condition. It adds the semi-join clause exactly when "Join Type" is "Semi", and the merge condition exactly when "Merge Cond" exists. |
| Annotation.SemiMergeJoinCounterexample | annotation.py:226 | For a semi merge join, the written test omits the clause that the corrected test adds. |
| Annotation.SeqScanParts | annotation.py:280-303 | The relation is mentioned when named, and the alias only when it differs from the relation name. An alias without a relation name raises. |
| Annotation.SortParts | annotation.py:316-349 | A text sort key selects descending, then increasing, then the plain key. A list key fails with a TypeError exactly when an element is "DESC" or "INC", and otherwise sorts by the key. A number key and a missing key raise. |
| Annotation.SetOpParts | annotation.py:234-255 | A set operation gets exactly one clause: differences exactly for "Except" and "Except All", similarities for every other command. A missing "Command" raises a KeyError. |
| Annotation.Render | annotation.py:68-387 | Every template tags the result with itself. For the scan, group and hash-join templates it states which fields make it raise and which clauses it adds. The aggregate, merge-join, set-operation, sequential-scan and sort templates succeed exactly when their clause builder does, with its clauses. The fixed-text templates always succeed with no clause. The merge-join template uses the corrected semi-join test (see "## Findings"). |
| Annotation.AltSentenceFor | annotation.py:431-434 | One alternative gives its kind and cost minus the node's cost. Two or more give the first two. None gives no sentence. |
| Annotation.NodeAnnotation | annotation.py:418-435 | The annotation carries the node's kind and exactly the rendering of the template registered for it, and it raises with the rendering's error when that fails. Only scans, joins and loops get the alternative sentence. It succeeds whenever the kind is text and the rendering and any needed sentence succeed. A node without a text kind raises. |
| Annotation.OnlyFirstTwoAlternativesMatter | annotation.py:431-434 | Alternatives beyond the second never change a node's annotation. |
| Annotation.JoinCondMatches | annotation.py:464 | A join condition matches a field when the field holds the stripped left side and the inner right side. A missing field never matches, and a number field raises. |
| Annotation.JoinItemMatches | annotation.py:464-484 | A nested-loop node takes every item it gets to, and an item is rejected only by a node that has "Node Type" and is not a nested loop. |
| Annotation.JoinItemMatchesIff | annotation.py:464-484 | An item is the node's join exactly when its condition matches "Join Filter", "Merge Cond" or "Hash Cond", or the node is a nested loop. The test raises exactly when a condition test it reaches raises, or when no condition matches and "Node Type" is missing. |
| Annotation.JoinSection | annotation.py:462-484 | The join section exists once any item is tried. It holds the node's annotation under the first matching item only, or nothing when no item matches. The loop raises exactly when an item it reaches, with every earlier item not matching, has a test that raises, or when that item matches and the annotation cannot be formatted. |
| Annotation.FilterStep | annotation.py:517-562 | One item of the filter loop sets or removes only that item's entry, as the filter decides; a filter that is an empty list changes nothing, and a number filter raises. |
| Annotation.FilterSection | annotation.py:517-562 | After the filter loop, an item has an entry exactly when all its tokens occur in the filter text, or in the last element of a list filter. A number filter raises. |
| Annotation.GroupSection | annotation.py:564-577 | The group section holds exactly the group-by items found in the node's "Group Key", each with the node's annotation. The loop raises exactly when a number key meets some item, or when some item matches and the annotation cannot be formatted. |
| Annotation.JoinEntries | annotation.py:461-509 | Join sections are made only for a node with "Join Type" and a non-empty clause list. |
| Annotation.FromEntry | annotation.py:512-515 | A scan is filed under its "Relation Name", and a scan without one raises. |
| Annotation.MapAnnotation | annotation.py:439-579 | Which of the five sections exist and what each holds is stated in terms of the node's fields and the query clauses. Every entry is the node's annotation. The mapping succeeds exactly when five conditions hold. For a join node, neither join loop raises. "Node Type" is present and not a number. A scan has a text "Relation Name" and a formattable annotation. The filter loop, when it runs, meets a non-number filter and a formattable annotation. The group loop does not raise. |
| PlanTree.Build | preprocessing.py:502-526 | Building succeeds exactly when no reached "Plans" list is empty. The tree mirrors the plan at every level: each node has its operator's fields, no child without "Plans", its left child built from `Plans[0]` and a right child from `Plans[1]` exactly when there is one. Nodes are numbered consecutively in preorder, without alternatives. |
| PlanTree.BuiltFromUnique | preprocessing.py:502-526 | Those properties determine the result: any tree and counter that satisfy them are exactly what building returns. |
| PlanTree.ShapeUnique | preprocessing.py:511-524 | Two trees that mirror the same plan, are numbered in preorder from the same start and carry no alternatives are equal. |
| PlanTree.BuildIgnoresExtraChildren | preprocessing.py:522-524 | Operators beyond the second child never affect the tree. |
| PlanTree.InventoryFrom | preprocessing.py:564-571 | The walk succeeds exactly when every node has a text kind. It extends the list without duplicates by exactly the operation kinds the nodes use. |
| PlanTree.Inventory | preprocessing.py:560-572 | The inventory has no duplicates and lists a kind exactly when some join or scan node has it. It fails exactly when a node lacks a text kind. |
| PlanTree.NewTree | preprocessing.py:485-497 | A tree is made exactly when the plan is well shaped and every operator has a text kind. Its root is exactly the tree building returns, mirroring the plan at every level with the operators' fields in preorder. It is numbered from 0, unannotated, and its inventory is exact. |
| PlanTree.NetworkxInfo | preprocessing.py:529-543 | There is one tuple per node in preorder and one edge per non-root node, from its parent. It fails exactly when a node lacks "Total Cost" or "Node Type". |
| Planner.SwitchOff | preprocessing.py:590-602 | One kind switches off exactly its table setting; a kind outside the table changes nothing. |
| Planner.SwitchedOffExactly | preprocessing.py:589-603 | After several kinds, a setting is on exactly when it was on before and no kind so far maps to it. |
| Planner.SwitchingOnlyClears | preprocessing.py:589-603 | No setting is switched back on inside the loop: later requests run with at most the settings of earlier ones. |
| Planner.UnlistedKindChangesNothing | preprocessing.py:590-604 | A kind outside the table leaves the settings as they were, and its plan is still requested. |
| Planner.GetMultipleAqp | preprocessing.py:575-616 | It returns one plan per kind, each requested under the cumulative settings. All six settings are back on after success. A failed request leaves the settings it ran with. |
| Alignment.ReadSide | preprocessing.py:656-658 | A row side is read exactly when the node has a text kind and a numeric cost. |
| Alignment.ScanKey | preprocessing.py:700-703 | A bitmap index scan's relation is the part of its index name before its single `_`. Other scans use "Relation Name". It raises otherwise. |
| Alignment.DropAllIfAnyMeaning | preprocessing.py:675 | Dropping by the shared index label keeps the table whole or empties it. No offending row survives, and rows are lost only because some row offends. |
| Alignment.JoinRows | preprocessing.py:673-675 | The join rows are either all pairs or none, none exactly when some pair has equal kinds, and never two equal kinds. |
| Alignment.JoinMap | preprocessing.py:638-678 | Join mapping succeeds exactly when the joins read and the AQP has at least as many. It pairs the k-th QP join with the k-th AQP join. |
| Alignment.JoinMapRows | preprocessing.py:653-675 | The join table is empty or pairs every QP join with its positional AQP partner. It is empty exactly when some pair has equal kinds. |
| Alignment.JoinMapper | preprocessing.py:638-678 | The two-pointer loop computes exactly the join table of `Alignment.JoinMap`, and fails exactly when that definition fails. |
| Alignment.JoinReadFails | preprocessing.py:655-659 | An unreadable QP join makes the join mapping fail. |
| Alignment.JoinsRunOut | preprocessing.py:661-663 | Running out of AQP joins while a QP join waits makes the mapping fail. |
| Alignment.JoinAltReadFails | preprocessing.py:664-669 | An unreadable AQP join that a QP join waits for makes the mapping fail. |
| Alignment.Insert | preprocessing.py:728-729 | Inserting into a sorted table keeps it sorted and adds exactly the new row. |
| Alignment.SortBySource | preprocessing.py:728-729 | The sort by relation is sorted and a permutation of the table. |
| Alignment.ScanRows | preprocessing.py:728-738 | Every scan row pairs a QP scan with an AQP scan of another kind that costs at least as much. There are at most as many rows as QP scans. |
| Alignment.ScanRowsPairSorted | preprocessing.py:728-738 | Pairing is positional between the two sorted tables. A single cheaper partner empties the table; otherwise only equal-kind rows go. |
| Alignment.ScanMap | preprocessing.py:682-741 | Scan mapping succeeds exactly when every QP kind and scan reads and enough AQP scans precede the first unreadable kind. The table is built from those reads. |
| Alignment.ScanMapRows | preprocessing.py:682-741 | Every scan row has two kinds and the partner is never cheaper. There are at most as many rows as QP scans, and no more QP scans than AQP scans. |
| Alignment.ScanMapPartners | preprocessing.py:699-727 | Each row pairs a QP scan with one of the first AQP scans, as many as the QP has. |
| Alignment.AvailableScans | preprocessing.py:712-713 | The AQP scans reachable before an unreadable kind are the first scans of the list. |
| Alignment.ScanMapper | preprocessing.py:682-741 | The two-pointer loop with sort, pairing, drop and selection computes exactly the scan table of `Alignment.ScanMap`, and fails exactly when that definition fails. |
| Alignment.NextJoin | preprocessing.py:664-665 | The inner loop stops at the next AQP join without passing any other join. When it raises by running off the end, no join remains. |
| Alignment.NextScan | preprocessing.py:712-714 | The inner loop reaches the next AQP scan, or fails exactly when no scan remains before the first node without a text kind. |
| Alignment.ScanReadFails | preprocessing.py:699-708 | An unreadable QP scan makes the scan mapping fail. |
| Alignment.AltScansExhausted | preprocessing.py:712-713 | No AQP scan left for a waiting QP scan makes the mapping fail. |
| Alignment.AltScanReadFails | preprocessing.py:716-724 | An unreadable AQP scan that a QP scan waits for makes the mapping fail. |
| Attach.Matches | preprocessing.py:782 | The selection for a node number holds every row of the table with that number, as often as the table holds it, and no other row. |
| Attach.AttachAt | preprocessing.py:781-794 | A node gains at most one alternative, only when exactly one row maps it and its kind is new. The cost comes with it from that row and nothing else changes. |
| Attach.AttachIdempotent | preprocessing.py:785-787 | Attaching the same table twice is attaching it once. |
| Attach.AttachIgnoresRowOrder | preprocessing.py:758-760 | Only which rows the table holds matters, not their order, so the sort by QP index cannot change the outcome. |
| Attach.AttachSound | preprocessing.py:781-787 | Attaching keeps a node's alternatives distinct and in step with their costs, and never its own kind. |
| Attach.AddAltAttributes | preprocessing.py:771-801 | The pass succeeds exactly when every node's annotation succeeds. In preorder, each node gets its alternatives attached and the annotation made from them, and the annotations come out in preorder. |
| Attach.MappedRows | preprocessing.py:756-758 | The combined table holds exactly the join rows and the scan rows. Each row's QP side is a node of the chosen plan and its kinds differ. |
| Attach.NodeMapper | preprocessing.py:746-766 | `node_mapper` succeeds exactly when both mappings and all annotations succeed. It keeps the inventory and clauses and only appends annotations. |
| Attach.NodeMapperRevisits | preprocessing.py:765 | After `node_mapper`, every node is the old node with this plan's row attached, and the new annotations are appended in preorder. |
| Attach.NodeMapperSound | preprocessing.py:746-766 | One alternative plan adds at most one sound alternative per node and keeps the numbering. It appends one annotation per node. |
| Attach.MapAll | preprocessing.py:633-634 | The loop returns exactly `node_mapper` applied to each alternative tree in turn, raising at the first failure. On success the nodes keep their numbers and fields and each has at most one new sound alternative per tree. The inventory and clauses are unchanged, and one annotation per node per tree has been appended. |
| Attach.MapOne | preprocessing.py:634 | One turn of the loop is exactly one `node_mapper` call, and on success it grows the tree by one plan. |
| Attach.AltTrees | preprocessing.py:628-632 | One tree is built per plan, in order, and the first plan that cannot be built raises. |
| Attach.GenerateAltNodes | preprocessing.py:618-634 | When every plan request succeeds, the result is the returned plans built into trees, then `node_mapper` with each in turn, and every setting is back on. On a planner failure the pass raises, leaving the settings as in the failing request. On success each node has gained at most one sound alternative per inventoried kind. |
| Attach.FreshTreeReady | preprocessing.py:466-475 | A new tree's nodes are numbered from 0 and have no alternatives, so they meet the pass's requirements. |

## Behaviour of the code worth knowing

The model keeps each of these behaviours of the code:

- `build_tree` never reads "Node Type". A node without it is caught only by the inventory, which raises (`PlanTree.NewTree`).
- A third or later child is silently ignored (`PlanTree.BuildIgnoresExtraChildren`).
- Switched-off settings accumulate over the loop of `get_multiple_aqp` (`Planner.SwitchedOffExactly`). All six are switched back on only after the last request, so a failing request leaves its settings behind. A planner failure makes the whole pass raise (`Attach.GenerateAltNodes`).
- A kind outside the setting table still gets a plan request, with unchanged settings (`Planner.UnlistedKindChangesNothing`).
- Join and scan counts need not be equal:
  - Extra AQP joins or scans are ignored.
  - Too few of them raise (`Alignment.JoinsRunOut`, `Alignment.AltScansExhausted`).
  - The scans paired are the first AQP scans in preorder, sorted afterwards.
- One join pair with equal kinds empties the whole join table (`Alignment.JoinRows`).
- One scan partner cheaper than its QP scan empties the whole scan table. Only the equal-kind test removes single rows (`Alignment.ScanRowsPairSorted`).
- A scan's identity is special-cased for bitmap index scans, whose index name must contain exactly one `_`. Index-only scans are not special-cased.
- The settings table names "Bitmap Scan", which is not a PostgreSQL node kind. PostgreSQL reports "Bitmap Heap Scan" and "Bitmap Index Scan", so the bitmap setting is never switched off. The model keeps the table as written.

## Left out

- Annotation.Render: the merge-join template, and so every annotation built from it, follows the corrected semi-join test of `Annotation.MergeJoinParts`. The code as written never adds the semi-join sentence; `Annotation.MergeJoinPartsAsWritten` models that and `Annotation.SemiMergeJoinCounterexample` exhibits a semi merge join on which the two differ.
- Parsing SQL into clauses is left out. `SqlQuery` is an input: `Annotation.Clauses` holds the clause lists.
- The database connection and the `EXPLAIN` requests are left out. The planner is a parameter, `Planner.Explain`, from settings to an optional plan.
- interface.py, the graph drawing, the browser code, `print` and `display_tree` are not part of this model.
- The prose wording, the `::text` removal and the two-decimal formatting of cost deltas are left out. A template yields the clauses it chose, and a cost delta is an exact real number.
- Rebuilding the inventory from a Python set is left out. That step gives an unspecified order, and the model keeps first-seen order. Every property of the inventory is about membership and duplicates.
- Field types are not checked value by value. Every field the code uses as text must be text, and every field used as a number must be a number; otherwise the model raises. Python accepts a few other shapes in some places, such as a list "Node Type" in a membership test, or a non-numeric join cost that is only printed.
- Alignment.SortBySource is modelled as a stable sort. pandas' default sort for more than 16 rows is not stable, so scans of the same relation could pair differently there.
- Alignment.JoinMapper: putting a shorter AQP join table beside a longer QP table depends on the pandas version. It is modelled as a failure (`Misaligned`). It can only happen when an AQP join is the last node in preorder.
- The sort of the combined table by QP index is not modelled. `Attach.AttachIgnoresRowOrder` shows the order of rows cannot change any node.
- Partial state after an exception is left out, except for the planner settings. Alternatives and annotations already attached when a later step raises are not modelled; a failure returns no tree.
- Annotation.JoinSection, Annotation.FilterSection and Annotation.GroupSection do not state the order of entries in a section. Python dicts keep insertion order, but a Dafny map has no order.

## Findings

| source | as written | input that shows it | evidently intended | confidence | as-written member | corrected member |
|---|---|---|---|---|---|---|
| annotation.py:226 | The test compares the literal text "Join Type" with "Semi", so it is always false. | A "Merge Join" node whose "Join Type" is "Semi" | Test the node's own "Join Type" field for "Semi", and then add the clause that only left-relation rows are returned | high; not executed | Annotation.MergeJoinPartsAsWritten (shown by Annotation.SemiMergeJoinCounterexample) | Annotation.MergeJoinParts |

=== FILE: alignment.dfy ===
/** Pairing the nodes of the chosen plan (QP) with those of one alternative
    plan (AQP): `join_mapper`, `scan_mapper` and the combined table of
    `node_mapper`.

    The pandas tables are sequences of rows. Every row enters its table by
    concatenating a one-row frame, so every row carries the index label 0.
    Two consequences follow and are modelled as such: putting the QP and
    AQP columns side by side pairs rows by position (and fails when the two
    tables differ in length), and dropping "the index of the offending rows"
    drops label 0, which is every row. */
module Alignment {
  import opened Wrappers
  import opened Text
  import opened Seqs
  import opened Fields
  import opened PlanTree

  /** One side of a mapping row: node number, kind and total cost. */
  datatype Side = Side(index: int, kind: string, cost: real)

  /** A side with the relation it scans (`QP source` / `AQP source`). */
  datatype Keyed = Keyed(side: Side, source: string)

  /** A row of a mapping table: a QP node and the AQP node paired with it. */
  datatype Row = Row(qp: Side, aqp: Side)

  /** Reading a node's "Node Type" (as text) and "Total Cost" (as a number). */
  function ReadSide(n: Node): (r: Result<Side, Error>)
    ensures r.Success? <==> HasKind(n.data) && TotalCostKey in n.data && n.data[TotalCostKey].Num?
    ensures r.Success? ==> r.value.index == n.index && r.value.kind == KindOf(n.data)
  {
    var kind :- GetStr(n.data, NodeTypeKey);
    var cost :- GetNum(n.data, TotalCostKey);
    Success(Side(n.index, kind, cost))
  }

  /** The relation a scan reads. A bitmap index scan names no relation, so
      its index name is split at `_` and must come apart into exactly two
      pieces, the first naming the relation; any other scan reads
      "Relation Name". */
  function ScanKey(data: FieldMap): (r: Result<string, Error>)
    requires HasKind(data)
    ensures !Contains(KindOf(data), "Bitmap Index Scan") ==>
      (r.Success? <==> RelationNameKey in data && data[RelationNameKey].Str?)
      && (r.Success? ==> r.value == data[RelationNameKey].s)
    ensures Contains(KindOf(data), "Bitmap Index Scan") ==>
      (r.Success? <==> IndexNameKey in data && data[IndexNameKey].Str? && Count(data[IndexNameKey].s, '_') == 1)
    ensures Contains(KindOf(data), "Bitmap Index Scan") && r.Success? ==>
      var name := data[IndexNameKey].s;
      && IsPrefix(r.value, name) && |r.value| < |name| && name[|r.value|] == '_' && '_' !in r.value
  {
    if Contains(KindOf(data), "Bitmap Index Scan") then
      var name :- GetStr(data, IndexNameKey);
      var pieces := SplitOn(name, '_');
      if |pieces| != 2 then Failure(BadUnpack) else Success(pieces[0])
    else
      GetStr(data, RelationNameKey)
  }

  /** A scan row of `scan_mapper`: its side and its relation. */
  function ReadKeyed(n: Node): (r: Result<Keyed, Error>)
    ensures r.Success? ==> ReadSide(n).Success? && r.value.side == ReadSide(n).value
  {
    var side :- ReadSide(n);
    var source :- ScanKey(n.data);
    Success(Keyed(side, source))
  }

  /** `vals` is what reading `nodes` one by one gives. */
  ghost predicate ReadsAs<T>(read: Node -> Result<T, Error>, nodes: seq<Node>, vals: seq<T>) {
    |nodes| == |vals| && forall i :: 0 <= i < |nodes| ==> read(nodes[i]) == Success(vals[i])
  }

  lemma ReadsAsAppend<T>(read: Node -> Result<T, Error>, nodes: seq<Node>, vals: seq<T>, n: Node, v: T)
    requires ReadsAs(read, nodes, vals) && read(n) == Success(v)
    ensures ReadsAs(read, nodes + [n], vals + [v])
  {
  }

  lemma ReadsAsReadAll<T>(read: Node -> Result<T, Error>, nodes: seq<Node>, vals: seq<T>)
    requires ReadsAs(read, nodes, vals)
    ensures ReadAll(read, nodes) == Success(vals)
  {
    assert ReadAll(read, nodes).Success?;
    assert ReadAll(read, nodes).value == vals;
  }

  predicate IsJoinNode(n: Node) {
    JoinTypeKey in n.data
  }

  predicate IsScanNode(n: Node) {
    HasKind(n.data) && Contains(KindOf(n.data), "Scan")
  }

  /** The joins of a node list, in order. */
  function Joins(s: seq<Node>): seq<Node> {
    Filter(IsJoinNode, s)
  }

  /** The scans of a node list, in order. */
  function Scans(s: seq<Node>): seq<Node> {
    Filter(IsScanNode, s)
  }

  /** Position of the first node whose "Node Type" cannot be read as text
      (the length when there is none). */
  function KindedLength(s: seq<Node>): (r: nat)
    ensures r <= |s| && AllKinded(s[..r])
    ensures r < |s| ==> !HasKind(s[r].data)
    decreases |s|
  {
    if |s| == 0 || !HasKind(s[0].data) then 0
    else
      var rest := KindedLength(s[1..]);
      assert forall i :: 0 <= i < rest ==> s[..1 + rest][i + 1] == s[1..][..rest][i];
      1 + rest
  }

  lemma {:induction false} KindedWithin(s: seq<Node>, i: nat)
    requires i <= |s| && AllKinded(s[..i])
    ensures i <= KindedLength(s)
    decreases i
  {
    if i > 0 {
      assert s[..i][0] == s[0];
      assert s[1..][..i - 1] == s[..i][1..];
      KindedWithin(s[1..], i - 1);
    }
  }

  /** The first node without a kind is the one at `i` when every node
      before it has one. */
  lemma KindedLengthAt(s: seq<Node>, i: nat)
    requires i <= |s| && AllKinded(s[..i]) && (i == |s| || !HasKind(s[i].data))
    ensures KindedLength(s) == i
  {
    KindedWithin(s, i);
    var n := KindedLength(s);
    forall j | 0 <= j < n ensures HasKind(s[j].data) {
      assert s[..n][j] == s[j];
    }
  }

  /** Extending a kinded prefix by one node that has a kind. */
  lemma KindedStep(s: seq<Node>, i: nat)
    requires i < |s| && AllKinded(s[..i]) && HasKind(s[i].data)
    ensures AllKinded(s[..i + 1])
  {
    assert forall j :: 0 <= j < i ==> s[..i + 1][j] == s[..i][j];
  }

  function Zip(a: seq<Side>, b: seq<Side>): (r: seq<Row>)
    requires |a| == |b|
    ensures |r| == |a| && forall i :: 0 <= i < |a| ==> r[i] == Row(a[i], b[i])
  {
    seq(|a|, i requires 0 <= i < |a| => Row(a[i], b[i]))
  }

  /** Dropping the index labels of the offending rows from a table whose
      rows all carry the label 0: one offending row drops them all. */
  function DropAllIfAny<T>(bad: T -> bool, s: seq<T>): (r: seq<T>)
    ensures (exists i :: 0 <= i < |s| && bad(s[i])) ==> r == []
    ensures (forall i :: 0 <= i < |s| ==> !bad(s[i])) ==> r == s
  {
    if exists i :: 0 <= i < |s| && bad(s[i]) then [] else s
  }

  /** What the drop means for the table: it is kept whole or emptied, no
      offending row survives, and rows are lost only because some row
      offends. */
  lemma DropAllIfAnyMeaning<T>(bad: T -> bool, s: seq<T>)
    ensures var r := DropAllIfAny(bad, s);
      && (r == s || r == [])
      && (forall k :: 0 <= k < |r| ==> !bad(r[k]))
      && (|r| < |s| ==> exists i :: 0 <= i < |s| && bad(s[i]))
  {
  }

  predicate SameKind(row: Row) {
    row.qp.kind == row.aqp.kind
  }

  predicate KindsDiffer(row: Row) {
    row.qp.kind != row.aqp.kind
  }

  predicate Cheaper(row: Row) {
    row.qp.cost > row.aqp.cost
  }

  // ---------------------------------------------------------------------
  // join_mapper

  /** The reads `join_mapper` performs all succeed and the AQP has at least
      as many joins as the QP. */
  predicate JoinsAlign(qp: seq<Node>, aqp: seq<Node>) {
    && |Joins(aqp)| >= |Joins(qp)|
    && (forall i :: 0 <= i < |Joins(qp)| ==> ReadSide(Joins(qp)[i]).Success?)
    && (forall i :: 0 <= i < |Joins(qp)| ==> ReadSide(Joins(aqp)[i]).Success?)
  }

  /** The QP join rows beside the AQP join rows, emptied entirely when any
      pair has equal kinds. */
  function JoinRows(qs: seq<Side>, alts: seq<Side>): (r: seq<Row>)
    requires |qs| == |alts|
    ensures r == [] || r == Zip(qs, alts)
    ensures forall k :: 0 <= k < |r| ==> KindsDiffer(r[k])
    ensures |qs| > 0 ==> (r == [] <==> exists k :: 0 <= k < |qs| && qs[k].kind == alts[k].kind)
  {
    var rows := Zip(qs, alts);
    assert forall k :: 0 <= k < |rows| ==> (SameKind(rows[k]) <==> qs[k].kind == alts[k].kind);
    DropAllIfAny(SameKind, rows)
  }

  /** The table `join_mapper` returns: the `k`th QP join beside the `k`th
      AQP join, emptied entirely when any pair has equal kinds. */
  function JoinMap(qp: seq<Node>, aqp: seq<Node>): (r: Result<seq<Row>, Error>)
    ensures r.Success? <==> JoinsAlign(qp, aqp)
    ensures r.Success? ==>
      && |Joins(aqp)| >= |Joins(qp)|
      && JoinRows(ReadAll(ReadSide, Joins(qp)).value, ReadAll(ReadSide, Joins(aqp)[..|Joins(qp)|]).value) == r.value
  {
    var qs :- ReadAll(ReadSide, Joins(qp));
    if |Joins(aqp)| < |qs| then Failure(Misaligned)
    else
      var prefix := Joins(aqp)[..|qs|];
      assert forall i :: 0 <= i < |qs| ==> prefix[i] == Joins(aqp)[i];
      var alts :- ReadAll(ReadSide, prefix);
      Success(JoinRows(qs, alts))
  }

  /** What the join table holds: either nothing or, for every `k`, the
      `k`th QP join beside the `k`th AQP join; never two equal kinds; and
      nothing exactly when some pair has equal kinds. */
  lemma JoinMapRows(qp: seq<Node>, aqp: seq<Node>)
    requires JoinMap(qp, aqp).Success?
    ensures var r := JoinMap(qp, aqp).value;
      && (|r| == 0 || |r| == |Joins(qp)|)
      && (forall k :: 0 <= k < |r| ==> r[k] == Row(ReadSide(Joins(qp)[k]).value, ReadSide(Joins(aqp)[k]).value))
      && (forall k :: 0 <= k < |r| ==> KindsDiffer(r[k]))
      && (|Joins(qp)| > 0 ==> (|r| == 0 <==>
            exists k :: 0 <= k < |Joins(qp)| && ReadSide(Joins(qp)[k]).value.kind == ReadSide(Joins(aqp)[k]).value.kind))
  {
    var qs := ReadAll(ReadSide, Joins(qp)).value;
    var prefix := Joins(aqp)[..|Joins(qp)|];
    var alts := ReadAll(ReadSide, prefix).value;
    assert forall k :: 0 <= k < |alts| ==> ReadSide(Joins(aqp)[k]) == Success(alts[k]) by {
      forall k | 0 <= k < |alts| ensures ReadSide(Joins(aqp)[k]) == Success(alts[k]) {
        assert prefix[k] == Joins(aqp)[k];
      }
    }
    JoinRowsRead(qs, alts, Joins(qp), Joins(aqp));
  }

  /** The join table built from the readings of two join lists, stated in
      terms of the lists themselves. */
  lemma JoinRowsRead(qs: seq<Side>, alts: seq<Side>, a: seq<Node>, b: seq<Node>)
    requires |qs| == |alts| == |a| <= |b|
    requires forall k :: 0 <= k < |qs| ==> ReadSide(a[k]) == Success(qs[k])
    requires forall k :: 0 <= k < |alts| ==> ReadSide(b[k]) == Success(alts[k])
    ensures var r := JoinRows(qs, alts);
      && (|r| == 0 || |r| == |a|)
      && (forall k :: 0 <= k < |r| ==> r[k] == Row(ReadSide(a[k]).value, ReadSide(b[k]).value))
      && (forall k :: 0 <= k < |r| ==> KindsDiffer(r[k]))
      && (|a| > 0 ==> (|r| == 0 <==>
            exists k :: 0 <= k < |a| && ReadSide(a[k]).value.kind == ReadSide(b[k]).value.kind))
  {
  }

  /** `join_mapper` as written: walk the QP list; at each join, record it
      and, while the AQP list is not used up, advance to the next AQP join
      (running off the end raises) and record that. A QP table longer than
      the AQP table cannot be put beside it. The AQP list is that of a built
      tree, so it is never empty. */
  method JoinMapper(qp: seq<Node>, aqp: seq<Node>) returns (r: Result<seq<Row>, Error>)
    requires |aqp| > 0
    ensures r.Success? <==> JoinMap(qp, aqp).Success?
    ensures r.Success? ==> r.value == JoinMap(qp, aqp).value
  {
    var df: seq<Side> := [];
    var qdf: seq<Side> := [];
    var l1, l2 := 0, 0;
    while l1 < |qp|
      invariant 0 <= l1 <= |qp| && 0 <= l2 <= |aqp|
      invariant ReadsAs(ReadSide, Joins(qp[..l1]), df)
      invariant ReadsAs(ReadSide, Joins(aqp[..l2]), qdf)
      invariant |qdf| <= |df| && (|qdf| < |df| ==> l2 == |aqp|)
    {
      FilterPrefixStep(IsJoinNode, qp, l1);
      if !IsJoinNode(qp[l1]) {
        assert Joins(qp[..l1 + 1]) == Joins(qp[..l1]);
      } else {
        assert Joins(qp[..l1 + 1]) == Joins(qp[..l1]) + [qp[l1]];
        var q := ReadSide(qp[l1]);
        if q.Failure? {
          JoinReadFails(qp, aqp, l1);
          r := Failure(q.error);
          return;
        }
        ReadsAsAppend(ReadSide, Joins(qp[..l1]), df, qp[l1], q.value);
        df := df + [q.value];
        if l2 < |aqp| {
          var next := NextJoin(aqp, l2);
          if next.Failure? {
            JoinsRunOut(qp, aqp, l1, |df|);
            r := Failure(next.error);
            return;
          }
          l2 := next.value;
          FilterPrefixStep(IsJoinNode, aqp, l2);
          var a := ReadSide(aqp[l2]);
          if a.Failure? {
            JoinAltReadFails(qp, aqp, l1, l2);
            r := Failure(a.error);
            return;
          }
          ReadsAsAppend(ReadSide, Joins(aqp[..l2]), qdf, aqp[l2], a.value);
          qdf := qdf + [a.value];
          l2 := l2 + 1;
        }
      }
      l1 := l1 + 1;
    }
    assert qp[..|qp|] == qp;
    if |qdf| < |df| {
      assert aqp[..l2] == aqp;
      r := Failure(Misaligned);
      return;
    }
    JoinMapFromReads(qp, aqp, l2, df, qdf);
    r := Success(DropAllIfAny(SameKind, Zip(df, qdf)));
  }

  /** When every QP join reads, and the joins of an AQP prefix read as many
      partners, the join table is built from those reads. */
  lemma JoinMapFromReads(qp: seq<Node>, aqp: seq<Node>, l2: nat, df: seq<Side>, qdf: seq<Side>)
    requires l2 <= |aqp| && |df| == |qdf|
    requires ReadsAs(ReadSide, Joins(qp), df) && ReadsAs(ReadSide, Joins(aqp[..l2]), qdf)
    ensures JoinMap(qp, aqp) == Success(DropAllIfAny(SameKind, Zip(df, qdf)))
  {
    FilterPrefixSplit(IsJoinNode, aqp, l2);
    ReadsAsReadAll(ReadSide, Joins(qp), df);
    assert Joins(aqp)[..|df|] == Joins(aqp[..l2]);
    ReadsAsReadAll(ReadSide, Joins(aqp)[..|df|], qdf);
  }

  /** The inner loop of `join_mapper`: from `start`, step along the AQP list
      to the next join, failing when the list runs out first. */
  method NextJoin(aqp: seq<Node>, start: nat) returns (r: Result<nat, Error>)
    requires start < |aqp|
    ensures r.Success? ==>
      && start <= r.value < |aqp|
      && IsJoinNode(aqp[r.value])
      && Joins(aqp[..r.value]) == Joins(aqp[..start])
    ensures r.Failure? ==> r.error == IndexOutOfRange && Joins(aqp) == Joins(aqp[..start])
  {
    var l2 := start;
    while JoinTypeKey !in aqp[l2].data
      invariant start <= l2 < |aqp|
      invariant Joins(aqp[..l2]) == Joins(aqp[..start])
      decreases |aqp| - l2
    {
      FilterPrefixStep(IsJoinNode, aqp, l2);
      l2 := l2 + 1;
      if l2 == |aqp| {
        assert aqp[..l2] == aqp;
        return Failure(IndexOutOfRange);
      }
    }
    return Success(l2);
  }

  /** The QP join at `l1` cannot be read: the whole mapping fails. */
  lemma JoinReadFails(qp: seq<Node>, aqp: seq<Node>, l1: nat)
    requires l1 < |qp| && IsJoinNode(qp[l1]) && ReadSide(qp[l1]).Failure?
    ensures !JoinsAlign(qp, aqp)
  {
    FilterPrefixStep(IsJoinNode, qp, l1);
    FilterPrefixSplit(IsJoinNode, qp, l1 + 1);
    var k := |Joins(qp[..l1])|;
    assert Joins(qp)[k] == qp[l1];
  }

  /** Fewer AQP joins than the `n` QP joins seen so far: the mapping fails. */
  lemma JoinsRunOut(qp: seq<Node>, aqp: seq<Node>, l1: nat, n: nat)
    requires l1 < |qp| && n == |Joins(qp[..l1 + 1])| && |Joins(aqp)| < n
    ensures !JoinsAlign(qp, aqp)
  {
    FilterPrefixSplit(IsJoinNode, qp, l1 + 1);
  }

  /** The AQP join at `l2` is needed (a QP join is waiting for it) but
      cannot be read: the mapping fails. */
  lemma JoinAltReadFails(qp: seq<Node>, aqp: seq<Node>, l1: nat, l2: nat)
    requires l1 < |qp| && l2 < |aqp| && IsJoinNode(aqp[l2]) && ReadSide(aqp[l2]).Failure?
    requires |Joins(aqp[..l2])| < |Joins(qp[..l1 + 1])|
    ensures !JoinsAlign(qp, aqp)
  {
    FilterPrefixSplit(IsJoinNode, qp, l1 + 1);
    JoinAt(aqp, l2);
  }

  /** A join at position `l` is the join numbered by how many joins
      precede it. */
  lemma JoinAt(s: seq<Node>, l: nat)
    requires l < |s| && IsJoinNode(s[l])
    ensures |Joins(s[..l])| < |Joins(s)| && Joins(s)[|Joins(s[..l])|] == s[l]
  {
    FilterPrefixStep(IsJoinNode, s, l);
    FilterPrefixSplit(IsJoinNode, s, l + 1);
    assert Joins(s)[|Joins(s[..l])|] == Joins(s[..l + 1])[|Joins(s[..l])|];
  }

  // ---------------------------------------------------------------------
  // scan_mapper

  /** `s` is in ascending order of relation name. */
  predicate SortedBySource(s: seq<Keyed>) {
    forall i :: 0 < i < |s| ==> LexLe(s[i - 1].source, s[i].source)
  }

  /** Insert `x` after every element whose relation name is at most its
      own, keeping the order of equal names. */
  function Insert(s: seq<Keyed>, x: Keyed): (r: seq<Keyed>)
    requires SortedBySource(s)
    ensures SortedBySource(r)
    ensures multiset(r) == multiset(s) + multiset{x}
    ensures |r| == |s| + 1
    ensures r[|r| - 1] == x || (|s| > 0 && r[|r| - 1] == s[|s| - 1])
    decreases |s|
  {
    if |s| == 0 then [x]
    else if LexLe(s[|s| - 1].source, x.source) then SortedSnoc(s, x); s + [x]
    else
      var init := s[..|s| - 1];
      var last := s[|s| - 1];
      assert s == init + [last];
      LexLeTotal(x.source, last.source);
      var front := Insert(init, x);
      assert |init| > 0 ==> LexLe(init[|init| - 1].source, last.source);
      SortedSnoc(front, last);
      front + [last]
  }

  /** A sorted list stays sorted when an element no smaller than its last
      one is appended. */
  lemma SortedSnoc(s: seq<Keyed>, y: Keyed)
    requires SortedBySource(s)
    requires |s| > 0 ==> LexLe(s[|s| - 1].source, y.source)
    ensures SortedBySource(s + [y])
  {
    forall i | 0 < i < |s + [y]| ensures LexLe((s + [y])[i - 1].source, (s + [y])[i].source) {
      if i < |s| {
        assert (s + [y])[i - 1] == s[i - 1] && (s + [y])[i] == s[i];
      }
    }
  }

  /** The sort of each scan table by relation name, modelled as a stable
      sort: scans of one relation keep their table order. */
  function SortBySource(s: seq<Keyed>): (r: seq<Keyed>)
    ensures SortedBySource(r)
    ensures multiset(r) == multiset(s)
    ensures |r| == |s|
    decreases |s|
  {
    if |s| == 0 then []
    else
      assert s == s[..|s| - 1] + [s[|s| - 1]];
      Insert(SortBySource(s[..|s| - 1]), s[|s| - 1])
  }

  /** The reads `scan_mapper` performs all succeed: every QP kind, every QP
      scan, and on the AQP side every kind up to and every scan among the
      first as many scans as the QP has. */
  predicate ScansAlign(qp: seq<Node>, aqp: seq<Node>) {
    var avail := Scans(aqp[..KindedLength(aqp)]);
    && AllKinded(qp)
    && |avail| >= |Scans(qp)|
    && ReadAll(ReadKeyed, Scans(qp)).Success?
    && ReadAll(ReadKeyed, avail[..|Scans(qp)|]).Success?
  }

  /** The QP scan rows and the AQP scan rows, each sorted by relation name
      and put side by side; emptied entirely when some QP scan costs more
      than its partner; then the rows with two equal kinds are dropped one
      by one. */
  function ScanRows(qs: seq<Keyed>, alts: seq<Keyed>): (r: seq<Row>)
    requires |qs| == |alts|
    ensures |r| <= |qs|
    ensures forall k :: 0 <= k < |r| ==> KindsDiffer(r[k]) && r[k].qp.cost <= r[k].aqp.cost
    ensures forall k :: 0 <= k < |r| ==> r[k].qp in Sides(qs) && r[k].aqp in Sides(alts)
  {
    var sq, sa := SortBySource(qs), SortBySource(alts);
    var paired := Zip(Sides(sq), Sides(sa));
    SidesPermuted(qs, sq);
    SidesPermuted(alts, sa);
    var kept := DropAllIfAny(Cheaper, paired);
    var r := Filter(KindsDiffer, kept);
    KeptPairs(Sides(qs), Sides(alts), paired, kept, r);
    r
  }

  /** The rows left after the cost drop and the kind selection are rows of
      the paired table that pass both tests. */
  lemma KeptPairs(qs: seq<Side>, alts: seq<Side>, paired: seq<Row>, kept: seq<Row>, r: seq<Row>)
    requires forall k :: 0 <= k < |paired| ==> paired[k].qp in qs && paired[k].aqp in alts
    requires kept == DropAllIfAny(Cheaper, paired) && r == Filter(KindsDiffer, kept)
    ensures forall k :: 0 <= k < |r| ==> KindsDiffer(r[k]) && r[k].qp.cost <= r[k].aqp.cost
    ensures forall k :: 0 <= k < |r| ==> r[k].qp in qs && r[k].aqp in alts
  {
    forall k | 0 <= k < |r|
      ensures KindsDiffer(r[k]) && r[k].qp.cost <= r[k].aqp.cost && r[k].qp in qs && r[k].aqp in alts
    {
      assert r[k] in kept;
      var j :| 0 <= j < |kept| && kept[j] == r[k];
      assert kept == paired;
    }
  }

  /** Scan rows sorted by relation name on each side: the pairing is
      positional between the two sorted sequences. */
  lemma ScanRowsPairSorted(qs: seq<Keyed>, alts: seq<Keyed>)
    requires |qs| == |alts|
    ensures SortedBySource(SortBySource(qs)) && SortedBySource(SortBySource(alts))
    ensures multiset(SortBySource(qs)) == multiset(qs) && multiset(SortBySource(alts)) == multiset(alts)
    ensures (forall k :: 0 <= k < |qs| ==> SortBySource(qs)[k].side.cost <= SortBySource(alts)[k].side.cost) ==>
      ScanRows(qs, alts) == Filter(KindsDiffer, Zip(Sides(SortBySource(qs)), Sides(SortBySource(alts))))
    ensures (exists k :: 0 <= k < |qs| && SortBySource(qs)[k].side.cost > SortBySource(alts)[k].side.cost) ==>
      ScanRows(qs, alts) == []
  {
    var sq, sa := SortBySource(qs), SortBySource(alts);
    var paired := Zip(Sides(sq), Sides(sa));
    assert forall k :: 0 <= k < |qs| ==> (Cheaper(paired[k]) <==> sq[k].side.cost > sa[k].side.cost);
    if exists k :: 0 <= k < |qs| && sq[k].side.cost > sa[k].side.cost {
      var k :| 0 <= k < |qs| && sq[k].side.cost > sa[k].side.cost;
      assert Cheaper(paired[k]);
      assert DropAllIfAny(Cheaper, paired) == [];
    } else {
      assert DropAllIfAny(Cheaper, paired) == paired;
    }
  }

  /** The sides of a permutation are sides of the original. */
  lemma SidesPermuted(s: seq<Keyed>, t: seq<Keyed>)
    requires multiset(t) == multiset(s)
    ensures forall k :: 0 <= k < |t| ==> t[k].side in Sides(s)
  {
    forall k | 0 <= k < |t| ensures t[k].side in Sides(s) {
      assert t[k] in multiset(s);
      var i :| 0 <= i < |s| && s[i] == t[k];
      assert Sides(s)[i] == t[k].side;
    }
  }

  function Sides(s: seq<Keyed>): (r: seq<Side>)
    ensures |r| == |s| && forall i :: 0 <= i < |s| ==> r[i] == s[i].side
  {
    seq(|s|, i requires 0 <= i < |s| => s[i].side)
  }

  /** The table `scan_mapper` returns, built from the scan reads. */
  function ScanMap(qp: seq<Node>, aqp: seq<Node>): (r: Result<seq<Row>, Error>)
    ensures r.Success? <==> ScansAlign(qp, aqp)
    ensures r.Success? ==>
      && |Scans(aqp[..KindedLength(aqp)])| >= |Scans(qp)|
      && r.value == ScanRows(ReadAll(ReadKeyed, Scans(qp)).value,
                             ReadAll(ReadKeyed, Scans(aqp[..KindedLength(aqp)])[..|Scans(qp)|]).value)
  {
    if !AllKinded(qp) then Failure(WrongType(NodeTypeKey))
    else
      var qs :- ReadAll(ReadKeyed, Scans(qp));
      var avail := Scans(aqp[..KindedLength(aqp)]);
      if |avail| < |qs| then Failure(IndexOutOfRange)
      else
        var alts :- ReadAll(ReadKeyed, avail[..|qs|]);
        Success(ScanRows(qs, alts))
  }

  /** Every row of the scan table has two different kinds, the alternative
      costing at least as much, and there are at most as many rows as QP
      scans (and the AQP has at least as many scans). */
  lemma ScanMapRows(qp: seq<Node>, aqp: seq<Node>)
    requires ScanMap(qp, aqp).Success?
    ensures var r := ScanMap(qp, aqp).value;
      && |r| <= |Scans(qp)| <= |Scans(aqp)|
      && (forall k :: 0 <= k < |r| ==> KindsDiffer(r[k]) && r[k].qp.cost <= r[k].aqp.cost)
  {
    FilterPrefixSplit(IsScanNode, aqp, KindedLength(aqp));
  }

  /** Row `k` of the scan table pairs one of the QP scans with one of the
      first as many AQP scans as the QP has, all of them before the first
      AQP node without a kind. */
  lemma ScanMapPartners(qp: seq<Node>, aqp: seq<Node>, k: nat)
    requires ScanMap(qp, aqp).Success? && k < |ScanMap(qp, aqp).value|
    ensures exists i :: 0 <= i < |Scans(qp)| && ReadSide(Scans(qp)[i]) == Success(ScanMap(qp, aqp).value[k].qp)
    ensures exists i :: (0 <= i < |Scans(qp)| &&
      ReadSide(Scans(aqp[..KindedLength(aqp)])[i]) == Success(ScanMap(qp, aqp).value[k].aqp))
  {
    var avail := Scans(aqp[..KindedLength(aqp)]);
    assert |avail| >= |Scans(qp)|;
    var qs := ReadAll(ReadKeyed, Scans(qp)).value;
    var alts := ReadAll(ReadKeyed, avail[..|Scans(qp)|]).value;
    var r := ScanRows(qs, alts);
    assert ScanMap(qp, aqp).value == r;
    assert r[k].qp in Sides(qs) && r[k].aqp in Sides(alts);
    SideRead(Scans(qp), qs, r[k].qp);
    PrefixSideRead(avail, |Scans(qp)|, alts, r[k].aqp);
  }

  /** The scans before the first node without a kind are the first scans of
      the whole list. */
  lemma AvailableScans(aqp: seq<Node>)
    ensures Scans(aqp[..KindedLength(aqp)]) <= Scans(aqp)
  {
    FilterPrefixSplit(IsScanNode, aqp, KindedLength(aqp));
  }

  /** A side among the scan reads of the first `n` nodes is the side read
      from one of them. */
  lemma PrefixSideRead(nodes: seq<Node>, n: nat, vals: seq<Keyed>, side: Side)
    requires n <= |nodes| && ReadAll(ReadKeyed, nodes[..n]) == Success(vals) && side in Sides(vals)
    ensures exists i :: 0 <= i < n && ReadSide(nodes[i]) == Success(side)
  {
    SideRead(nodes[..n], vals, side);
    var j :| 0 <= j < n && ReadSide(nodes[..n][j]) == Success(side);
    assert nodes[..n][j] == nodes[j];
  }

  /** A side among the scan reads of `nodes` is the side read from one of
      them. */
  lemma SideRead(nodes: seq<Node>, vals: seq<Keyed>, side: Side)
    requires ReadAll(ReadKeyed, nodes) == Success(vals) && side in Sides(vals)
    ensures exists i :: 0 <= i < |nodes| && ReadSide(nodes[i]) == Success(side)
  {
    var j :| 0 <= j < |vals| && Sides(vals)[j] == side;
    var k := ReadKeyed(nodes[j]);
    assert k.Success? && k.value == vals[j];
  }

  /** `scan_mapper` as written: walk the QP list reading every kind; at
      each scan, record it with its relation and advance along the AQP list
      (reading every kind on the way, running off the end raises) to the
      next AQP scan, which is recorded too. Then sort both tables by
      relation, put them side by side, drop everything if any QP scan costs
      more than its partner, and keep the rows of two different kinds. */
  method ScanMapper(qp: seq<Node>, aqp: seq<Node>) returns (r: Result<seq<Row>, Error>)
    ensures r.Success? <==> ScanMap(qp, aqp).Success?
    ensures r.Success? ==> r.value == ScanMap(qp, aqp).value
  {
    var df: seq<Keyed> := [];
    var qdf: seq<Keyed> := [];
    var l1, l2 := 0, 0;
    while l1 < |qp|
      invariant 0 <= l1 <= |qp| && 0 <= l2 <= |aqp|
      invariant AllKinded(qp[..l1]) && AllKinded(aqp[..l2])
      invariant ReadsAs(ReadKeyed, Scans(qp[..l1]), df)
      invariant ReadsAs(ReadKeyed, Scans(aqp[..l2]), qdf)
      invariant |df| == |qdf|
    {
      if !HasKind(qp[l1].data) {
        r := Failure(WrongType(NodeTypeKey));
        return;
      }
      if Contains(KindOf(qp[l1].data), "Scan") {
        var q := ReadKeyed(qp[l1]);
        if q.Failure? {
          ScanReadFails(qp, aqp, l1);
          r := Failure(q.error);
          return;
        }
        var next := NextScan(aqp, l2);
        if next.Failure? {
          AltScansExhausted(qp, aqp, l1, l2);
          r := Failure(next.error);
          return;
        }
        var a := ReadKeyed(aqp[next.value]);
        if a.Failure? {
          AltScanReadFails(qp, aqp, l1, next.value);
          r := Failure(a.error);
          return;
        }
        ScanTakeStep(qp, l1, df, q.value);
        AltScanTake(aqp, l2, next.value, qdf, a.value);
        df := df + [q.value];
        qdf := qdf + [a.value];
        l2 := next.value + 1;
        assert ReadsAs(ReadKeyed, Scans(aqp[..l2]), qdf);
      } else {
        ScanSkipStep(qp, l1, df);
      }
      l1 := l1 + 1;
    }
    assert qp[..|qp|] == qp;
    ScanMapFromReads(qp, aqp, l2, df, qdf);
    r := Success(ScanRows(df, qdf));
  }

  /** One more node of a kinded prefix, a scan that reads as `v`. */
  lemma ScanTakeStep(s: seq<Node>, l: nat, vals: seq<Keyed>, v: Keyed)
    requires l < |s| && AllKinded(s[..l]) && IsScanNode(s[l])
    requires ReadsAs(ReadKeyed, Scans(s[..l]), vals) && ReadKeyed(s[l]) == Success(v)
    ensures AllKinded(s[..l + 1]) && ReadsAs(ReadKeyed, Scans(s[..l + 1]), vals + [v])
  {
    KindedStep(s, l);
    FilterPrefixStep(IsScanNode, s, l);
    ReadsAsAppend(ReadKeyed, Scans(s[..l]), vals, s[l], v);
  }

  /** The AQP side of a pair: the scan found at `n`, after the non-scans
      from `l2` on, reads as `v`. */
  lemma AltScanTake(aqp: seq<Node>, l2: nat, n: nat, vals: seq<Keyed>, v: Keyed)
    requires l2 <= n < |aqp| && AllKinded(aqp[..n]) && IsScanNode(aqp[n])
    requires Scans(aqp[..n]) == Scans(aqp[..l2])
    requires ReadsAs(ReadKeyed, Scans(aqp[..l2]), vals) && ReadKeyed(aqp[n]) == Success(v)
    ensures AllKinded(aqp[..n + 1]) && ReadsAs(ReadKeyed, Scans(aqp[..n + 1]), vals + [v])
  {
    ScanTakeStep(aqp, n, vals, v);
  }

  /** One more node of a kinded prefix, one with a kind that is no scan. */
  lemma ScanSkipStep(s: seq<Node>, l: nat, vals: seq<Keyed>)
    requires l < |s| && AllKinded(s[..l]) && HasKind(s[l].data) && !IsScanNode(s[l])
    requires ReadsAs(ReadKeyed, Scans(s[..l]), vals)
    ensures AllKinded(s[..l + 1]) && ReadsAs(ReadKeyed, Scans(s[..l + 1]), vals)
  {
    KindedStep(s, l);
    FilterPrefixStep(IsScanNode, s, l);
  }

  /** When every QP kind and scan reads, and the scans of a fully kinded
      AQP prefix read as many partners, the scan table is built from those
      reads. */
  lemma ScanMapFromReads(qp: seq<Node>, aqp: seq<Node>, l2: nat, df: seq<Keyed>, qdf: seq<Keyed>)
    requires AllKinded(qp) && l2 <= |aqp| && AllKinded(aqp[..l2])
    requires ReadsAs(ReadKeyed, Scans(qp), df) && ReadsAs(ReadKeyed, Scans(aqp[..l2]), qdf)
    requires |df| == |qdf|
    ensures ScanMap(qp, aqp) == Success(ScanRows(df, qdf))
  {
    ReadsAsReadAll(ReadKeyed, Scans(qp), df);
    ReadsAsReadAll(ReadKeyed, Scans(aqp[..l2]), qdf);
    AltScansPrefix(aqp, l2);
    var avail := Scans(aqp[..KindedLength(aqp)]);
    assert avail[..|df|] == Scans(aqp[..l2]);
  }

  /** The scans of a fully kinded prefix of the AQP list are the first scans
      of those before its first node without a kind. */
  lemma AltScansPrefix(aqp: seq<Node>, l2: nat)
    requires l2 <= |aqp| && AllKinded(aqp[..l2])
    ensures l2 <= KindedLength(aqp)
    ensures Scans(aqp[..l2]) <= Scans(aqp[..KindedLength(aqp)])
  {
    KindedWithin(aqp, l2);
    FilterPrefixMono(IsScanNode, aqp, l2, KindedLength(aqp));
  }

  /** The QP scan at `l1` cannot be read: the whole mapping fails. */
  lemma ScanReadFails(qp: seq<Node>, aqp: seq<Node>, l1: nat)
    requires l1 < |qp| && IsScanNode(qp[l1]) && ReadKeyed(qp[l1]).Failure?
    ensures !ScansAlign(qp, aqp)
  {
    FilterPrefixStep(IsScanNode, qp, l1);
    FilterPrefixSplit(IsScanNode, qp, l1 + 1);
    var k := |Scans(qp[..l1])|;
    assert Scans(qp)[k] == qp[l1];
  }

  /** The inner loop of `scan_mapper`: from `start`, read kinds along the
      AQP list up to the next scan. It fails (running off the end, or on a
      kind that is not text) exactly when no scan remains before the first
      node without a kind. */
  method NextScan(aqp: seq<Node>, start: nat) returns (r: Result<nat, Error>)
    requires start <= |aqp| && AllKinded(aqp[..start])
    ensures r.Success? ==>
      && start <= r.value < |aqp|
      && AllKinded(aqp[..r.value])
      && IsScanNode(aqp[r.value])
      && Scans(aqp[..r.value]) == Scans(aqp[..start])
    ensures r.Failure? ==> Scans(aqp[..KindedLength(aqp)]) == Scans(aqp[..start])
  {
    var l2 := start;
    while true
      invariant start <= l2 <= |aqp|
      invariant AllKinded(aqp[..l2])
      invariant Scans(aqp[..l2]) == Scans(aqp[..start])
      decreases |aqp| - l2
    {
      if l2 == |aqp| {
        KindedLengthAt(aqp, l2);
        return Failure(IndexOutOfRange);
      }
      if !HasKind(aqp[l2].data) {
        KindedLengthAt(aqp, l2);
        return Failure(WrongType(NodeTypeKey));
      }
      KindedStep(aqp, l2);
      if Contains(KindOf(aqp[l2].data), "Scan") {
        return Success(l2);
      }
      FilterPrefixStep(IsScanNode, aqp, l2);
      l2 := l2 + 1;
    }
  }

  /** No AQP scan remains for a QP scan still waiting for a partner. */
  lemma AltScansExhausted(qp: seq<Node>, aqp: seq<Node>, l1: nat, start: nat)
    requires l1 < |qp| && start <= |aqp| && IsScanNode(qp[l1])
    requires Scans(aqp[..KindedLength(aqp)]) == Scans(aqp[..start])
    requires |Scans(aqp[..start])| == |Scans(qp[..l1])|
    ensures !ScansAlign(qp, aqp)
  {
    FilterPrefixStep(IsScanNode, qp, l1);
    FilterPrefixSplit(IsScanNode, qp, l1 + 1);
  }

  /** The AQP scan at `l2` is needed by a QP scan but cannot be read. */
  lemma AltScanReadFails(qp: seq<Node>, aqp: seq<Node>, l1: nat, l2: nat)
    requires l1 < |qp| && IsScanNode(qp[l1])
    requires l2 < |aqp| && AllKinded(aqp[..l2]) && IsScanNode(aqp[l2])
    requires ReadKeyed(aqp[l2]).Failure?
    requires |Scans(aqp[..l2])| == |Scans(qp[..l1])|
    ensures !ScansAlign(qp, aqp)
  {
    FilterPrefixStep(IsScanNode, qp, l1);
    KindedStep(aqp, l2);
    FilterPrefixSplit(IsScanNode, qp, l1 + 1);
    FilterPrefixStep(IsScanNode, aqp, l2);
    AltScansPrefix(aqp, l2 + 1);
    var avail := Scans(aqp[..KindedLength(aqp)]);
    var k := |Scans(aqp[..l2])|;
    assert Scans(aqp[..l2 + 1])[k] == aqp[l2];
    if |avail| >= |Scans(qp)| {
      assert avail[..|Scans(qp)|][k] == aqp[l2];
    }
  }
}

=== FILE: annotation.dfy ===
/** Per-node annotation selection: which template explains a node, which
    optional clauses that template adds, when the alternative-cost sentence
    appears, and which query-clause sections receive the node's text. The
    wording of the prose is not modelled: a template's output is the list of
    clauses it chose. */
module Annotation {
  import opened Wrappers
  import opened Text
  import opened Fields

  /** One entry of the template table, plus the fallback. */
  datatype Template =
    | Aggregate | Append | CteScan | FunctionScan | Group | GatherMerge
    | IndexScan | IndexOnlyScan | Limit | Materialize | Unique | MergeJoin
    | SetOp | SubqueryScan | ValuesScan | SeqScan | NestedLoop | Sort | Hash
    | HashJoin | Default

  /** The optional clauses a template may add to its sentence. */
  datatype Part =
    | SortedAggregation | HashedAggregation | PlainAggregation
    | GroupedBy | FilteredBy | IndexCondition | MergeCondition | SemiJoinNote
    | HashCondition | RelationNamed | AliasNoted
    | SortDescending | SortIncreasing | SortByKey
    | Differences | Similarities

  /** A template's output: the template used and the clauses it chose. */
  datatype Prose = Prose(template: Template, parts: seq<Part>)

  /** The alternative-cost sentence; each delta is alternative cost minus the
      node's own total cost. */
  datatype AltSentence =
    | NoAlternative
    | OneAlternative(kind: string, delta: real)
    | TwoAlternatives(kind0: string, delta0: real, kind1: string, delta1: real)

  /** The complete annotation of one node. */
  datatype NodeText = NodeText(kind: string, body: Prose, alternatives: AltSentence)

  /** The clause lists of the parsed query that annotation consults. */
  datatype Clauses = Clauses(fromJoin: seq<string>, whereJoin: seq<string>,
                             whereFilter: seq<string>, groupBy: seq<string>)

  type Section = map<string, NodeText>
  type Sections = map<string, Section>

  const FromJoinSection := "from_join"
  const WhereJoinSection := "where_join"
  const FromSection := "from"
  const WhereFilterSection := "where_filter"
  const GroupBySection := "group_by"

  /** The dispatch table, keyed by "Node Type". */
  const AnnotationDict: map<string, Template> := map[
    "Aggregate" := Aggregate,
    "Append" := Append,
    "CTE Scan" := CteScan,
    "Function Scan" := FunctionScan,
    "Group" := Group,
    "Gather Merge" := GatherMerge,
    "Index Scan" := IndexScan,
    "Index Only Scan" := IndexOnlyScan,
    "Limit" := Limit,
    "Materialize" := Materialize,
    "Unique" := Unique,
    "Merge Join" := MergeJoin,
    "SetOp" := SetOp,
    "Subquery Scan" := SubqueryScan,
    "Values Scan" := ValuesScan,
    "Seq Scan" := SeqScan,
    "Nested Loop" := NestedLoop,
    "Sort" := Sort,
    "Hash" := Hash,
    "Hash Join" := HashJoin
  ]

  /** The template registered for `kind`, or the default one. */
  function TemplateFor(kind: string): Template {
    if kind in AnnotationDict then AnnotationDict[kind] else Default
  }

  /** The node kind each listed template is registered under. */
  function TemplateName(t: Template): string
    requires t != Default
  {
    match t
    case Aggregate => "Aggregate"
    case Append => "Append"
    case CteScan => "CTE Scan"
    case FunctionScan => "Function Scan"
    case Group => "Group"
    case GatherMerge => "Gather Merge"
    case IndexScan => "Index Scan"
    case IndexOnlyScan => "Index Only Scan"
    case Limit => "Limit"
    case Materialize => "Materialize"
    case Unique => "Unique"
    case MergeJoin => "Merge Join"
    case SetOp => "SetOp"
    case SubqueryScan => "Subquery Scan"
    case ValuesScan => "Values Scan"
    case SeqScan => "Seq Scan"
    case NestedLoop => "Nested Loop"
    case Sort => "Sort"
    case Hash => "Hash"
    case HashJoin => "Hash Join"
  }

  /** Dispatch is exact: a kind gets a specific template only under the name
      that template is registered for, every specific template is reachable,
      and every other kind falls back to the default template. */
  lemma TemplateDispatch(kind: string, t: Template)
    ensures TemplateFor(kind) == Default || TemplateName(TemplateFor(kind)) == kind
    ensures t != Default ==> TemplateFor(TemplateName(t)) == t
    ensures TemplateFor(kind) == Default <==> kind !in AnnotationDict
  {
    RegisteredNames(kind);
    if t != Default {
      RegisteredTemplate(t);
    }
  }

  lemma RegisteredNames(kind: string)
    ensures TemplateFor(kind) == Default || TemplateName(TemplateFor(kind)) == kind
    ensures TemplateFor(kind) == Default <==> kind !in AnnotationDict
  {
  }

  lemma RegisteredTemplate(t: Template)
    requires t != Default
    ensures TemplateFor(TemplateName(t)) == t
  {
    if t in {Aggregate, Append, CteScan} {
      RegisteredRow1(t);
    } else if t in {FunctionScan, Group, GatherMerge, IndexScan} {
      RegisteredRow2(t);
    } else if t in {IndexOnlyScan, Limit, Materialize, Unique, MergeJoin} {
      RegisteredRow3(t);
    } else {
      RegisteredRow4(t);
    }
  }

  // The table's entries in four groups (in table order), one lemma each,
  // so that no single proof has to look up all twenty names.

  lemma RegisteredRow1(t: Template)
    requires t in {Aggregate, Append, CteScan}
    ensures TemplateFor(TemplateName(t)) == t
  {
  }

  lemma RegisteredRow2(t: Template)
    requires t in {FunctionScan, Group, GatherMerge, IndexScan}
    ensures TemplateFor(TemplateName(t)) == t
  {
  }

  lemma RegisteredRow3(t: Template)
    requires t in {IndexOnlyScan, Limit, Materialize, Unique, MergeJoin}
    ensures TemplateFor(TemplateName(t)) == t
  {
  }

  lemma RegisteredRow4(t: Template)
    requires t in {SetOp, SubqueryScan, ValuesScan, SeqScan, NestedLoop, Sort, Hash, HashJoin}
    ensures TemplateFor(TemplateName(t)) == t
  {
  }

  /** An optional text field: the clause when present, a type error when the
      value is not text (`.replace` on it), nothing when absent. */
  function OptionalText(plan: FieldMap, key: string, part: Part): (r: Result<seq<Part>, Error>)
    ensures r.Success? <==> TextOrAbsent(plan, key)
    ensures r.Success? ==> r.value == [] || r.value == [part]
    ensures r.Success? ==> (part in r.value <==> key in plan)
    ensures r.Failure? ==> r.error == WrongType(key)
  {
    if key !in plan then Success([])
    else if plan[key].Str? then Success([part])
    else Failure(WrongType(key))
  }

  /** A field that is either absent or text. */
  predicate TextOrAbsent(plan: FieldMap, key: string) {
    key !in plan || plan[key].Str?
  }

  /** Iterating over "Group Key": text iterates by character, a list by
      element, a number is not iterable. */
  function GroupKeys(plan: FieldMap): Result<seq<Part>, Error>
    requires GroupKeyKey in plan
  {
    if plan[GroupKeyKey].Num? then Failure(WrongType(GroupKeyKey)) else Success([GroupedBy])
  }

  /** `aggregate_annotate`: three strategies, anything else is rejected. */
  function AggregateParts(plan: FieldMap): (r: Result<seq<Part>, Error>)
    ensures StrategyKey !in plan ==> r.Failure?
    ensures r.Success? ==> plan[StrategyKey] in {Str("Sorted"), Str("Hashed"), Str("Plain")}
    ensures r.Success? && plan[StrategyKey] == Str("Sorted") ==>
      |r.value| > 0 && r.value[0] == SortedAggregation
      && (GroupedBy in r.value <==> GroupKeyKey in plan)
      && (FilteredBy in r.value <==> FilterKey in plan)
    ensures r.Success? && plan[StrategyKey] == Str("Hashed") ==> r.value == [HashedAggregation, GroupedBy]
    ensures r.Success? && plan[StrategyKey] == Str("Plain") ==> r.value == [PlainAggregation]
    ensures StrategyKey in plan && plan[StrategyKey] == Str("Plain") ==> r.Success?
    ensures StrategyKey in plan && plan[StrategyKey] == Str("Hashed") && GroupKeyKey !in plan ==> r.Failure?
    ensures StrategyKey in plan && plan[StrategyKey] == Str("Sorted") ==>
      (r.Success? <==> (GroupKeyKey in plan ==> !plan[GroupKeyKey].Num?) && TextOrAbsent(plan, FilterKey))
    ensures StrategyKey in plan && plan[StrategyKey] == Str("Hashed") ==>
      (r.Success? <==> GroupKeyKey in plan && !plan[GroupKeyKey].Num?)
  {
    var strategy :- Get(plan, StrategyKey);
    if strategy == Str("Sorted") then
      var grouped :- if GroupKeyKey in plan then GroupKeys(plan) else Success([]);
      var filtered :- OptionalText(plan, FilterKey, FilteredBy);
      Success([SortedAggregation] + grouped + filtered)
    else if strategy == Str("Hashed") then
      var _ :- Get(plan, GroupKeyKey);
      var grouped :- GroupKeys(plan);
      Success([HashedAggregation] + grouped)
    else if strategy == Str("Plain") then
      Success([PlainAggregation])
    else if strategy.Str? then
      Failure(UnsupportedStrategy(strategy.s))
    else
      Failure(WrongType(StrategyKey))
  }

  /** `merge_join_annotate` as written: the join-type test compares the
      literal "Join Type" with "Semi", so it can never hold. */
  function MergeJoinPartsAsWritten(plan: FieldMap): (r: Result<seq<Part>, Error>)
    ensures r.Success? <==> TextOrAbsent(plan, MergeCondKey)
    ensures r.Success? ==> (MergeCondition in r.value <==> MergeCondKey in plan)
    ensures r.Success? ==> SemiJoinNote !in r.value
  {
    var merge :- OptionalText(plan, MergeCondKey, MergeCondition);
    var semi := if JoinTypeKey == "Semi" then [SemiJoinNote] else [];
    Success(merge + semi)
  }

  /** `merge_join_annotate` with the evidently intended test of the node's
      own "Join Type". */
  function MergeJoinParts(plan: FieldMap): (r: Result<seq<Part>, Error>)
    ensures r.Success? <==> TextOrAbsent(plan, MergeCondKey)
    ensures r.Success? ==> (SemiJoinNote in r.value <==> JoinTypeKey in plan && plan[JoinTypeKey] == Str("Semi"))
    ensures r.Success? ==> (MergeCondition in r.value <==> MergeCondKey in plan)
  {
    var merge :- OptionalText(plan, MergeCondKey, MergeCondition);
    var semi := if JoinTypeKey in plan && plan[JoinTypeKey] == Str("Semi") then [SemiJoinNote] else [];
    Success(merge + semi)
  }

  /** A semi merge join shows the discrepancy: the written test drops the
      clause the corrected one adds. */
  const SemiMergeJoinNode: FieldMap := map[NodeTypeKey := Str("Merge Join"), JoinTypeKey := Str("Semi")]

  lemma SemiMergeJoinCounterexample()
    ensures MergeJoinPartsAsWritten(SemiMergeJoinNode) == Success([])
    ensures MergeJoinParts(SemiMergeJoinNode) == Success([SemiJoinNote])
  {
    var plan := SemiMergeJoinNode;
    assert MergeCondKey != NodeTypeKey && MergeCondKey != JoinTypeKey && JoinTypeKey != "Semi";
    assert MergeCondKey !in plan;
    assert OptionalText(plan, MergeCondKey, MergeCondition) == Success([]);
    assert JoinTypeKey in plan && plan[JoinTypeKey] == Str("Semi");
    assert MergeJoinParts(plan).value == [] + [SemiJoinNote];
    assert [] + [SemiJoinNote] == [SemiJoinNote];
    assert MergeJoinParts(plan) == Success([SemiJoinNote]);
    assert MergeJoinPartsAsWritten(plan).value == [] + [];
  }

  /** `seq_scan_annotate`: an alias different from the relation name is
      mentioned; an alias without a relation name is a KeyError. */
  function SeqScanParts(plan: FieldMap): (r: Result<seq<Part>, Error>)
    ensures AliasKey in plan && RelationNameKey !in plan ==> r.Failure?
    ensures r.Success? ==> (RelationNamed in r.value <==> RelationNameKey in plan)
    ensures r.Success? ==> (AliasNoted in r.value <==> AliasKey in plan && plan[AliasKey] != plan[RelationNameKey])
    ensures r.Success? ==> (FilteredBy in r.value <==> FilterKey in plan)
  {
    var named :- OptionalText(plan, RelationNameKey, RelationNamed);
    var aliased :- if AliasKey in plan then
                     var relation :- Get(plan, RelationNameKey);
                     Success(if relation != plan[AliasKey] then [AliasNoted] else [])
                   else Success([]);
    var filtered :- OptionalText(plan, FilterKey, FilteredBy);
    Success(named + aliased + filtered)
  }

  /** `sort_annotate`: "DESC", then "INC", then the plain key. On a list
      the tests are element membership, and a hit then fails on `.replace`;
      on a number the membership test itself raises. */
  function SortParts(plan: FieldMap): (r: Result<seq<Part>, Error>)
    ensures SortKeyKey !in plan ==> r == Failure(KeyMissing(SortKeyKey))
    ensures SortKeyKey in plan && plan[SortKeyKey].Num? ==> r == Failure(WrongType(SortKeyKey))
    ensures SortKeyKey in plan && plan[SortKeyKey].StrList? ==>
      && (r.Failure? <==> exists k :: 0 <= k < |plan[SortKeyKey].items| && plan[SortKeyKey].items[k] in {"DESC", "INC"})
      && (r.Failure? ==> r.error == WrongType(SortKeyKey))
      && (r.Success? ==> r.value == [SortByKey])
    ensures SortKeyKey in plan && plan[SortKeyKey].Str? ==>
      r == Success(if Contains(plan[SortKeyKey].s, "DESC") then [SortDescending]
                   else if Contains(plan[SortKeyKey].s, "INC") then [SortIncreasing]
                   else [SortByKey])
  {
    var key :- Get(plan, SortKeyKey);
    match key
    case Str(text) =>
      Success(if Contains(text, "DESC") then [SortDescending]
              else if Contains(text, "INC") then [SortIncreasing]
              else [SortByKey])
    case StrList(items) =>
      if "DESC" in items || "INC" in items then Failure(WrongType(SortKeyKey)) else Success([SortByKey])
    case Num(_) => Failure(WrongType(SortKeyKey))
  }

  /** `setop_annotate`: "Except"/"Except All" look for differences, every
      other command for similarities. */
  function SetOpParts(plan: FieldMap): (r: Result<seq<Part>, Error>)
    ensures r.Success? <==> CommandKey in plan
    ensures r.Failure? ==> r.error == KeyMissing(CommandKey)
    ensures r.Success? ==> |r.value| == 1
    ensures r.Success? ==> (Differences in r.value <==> plan[CommandKey] in {Str("Except"), Str("Except All")})
    ensures r.Success? ==> (Similarities in r.value <==> plan[CommandKey] !in {Str("Except"), Str("Except All")})
  {
    var command :- Get(plan, CommandKey);
    Success(if command == Str("Except") || command == Str("Except All") then [Differences] else [Similarities])
  }

  /** The templates whose sentence has no optional clause and reads no
      field beyond "Node Type". */
  predicate FixedText(t: Template) {
    t in {Append, FunctionScan, GatherMerge, Limit, Materialize, Unique, SubqueryScan, ValuesScan,
          NestedLoop, Hash, Default}
  }

  /** A rendering that succeeds exactly when its clause builder does, with
      the clauses that builder produced. */
  predicate DelegatesTo(r: Result<Prose, Error>, parts: Result<seq<Part>, Error>) {
    && (r.Success? <==> parts.Success?)
    && (r.Success? ==> r.value.parts == parts.value)
  }

  /** The clauses each template adds, and the fields whose absence or wrong
      type makes it raise. */
  function Render(t: Template, plan: FieldMap): (r: Result<Prose, Error>)
    ensures r.Success? ==> r.value.template == t
    ensures t in {CteScan, IndexScan, IndexOnlyScan} ==>
      && (r.Success? <==>
            && (t == CteScan ==> CteNameKey in plan) && (t == IndexOnlyScan ==> IndexNameKey in plan)
            && TextOrAbsent(plan, IndexCondKey) && TextOrAbsent(plan, FilterKey))
      && (r.Success? ==>
            && (IndexCondition in r.value.parts <==> IndexCondKey in plan)
            && (FilteredBy in r.value.parts <==> FilterKey in plan))
    ensures t == Group ==>
      (r.Success? <==> GroupKeyKey in plan && !plan[GroupKeyKey].Num?)
      && (r.Success? ==> r.value.parts == [GroupedBy])
    ensures t == HashJoin ==>
      (r.Success? <==> JoinTypeKey in plan && TextOrAbsent(plan, HashCondKey))
      && (r.Success? ==> (HashCondition in r.value.parts <==> HashCondKey in plan))
    ensures FixedText(t) ==> r == Success(Prose(t, []))
    ensures t == Aggregate ==> DelegatesTo(r, AggregateParts(plan))
    ensures t == MergeJoin ==> DelegatesTo(r, MergeJoinParts(plan))
    ensures t == SetOp ==> DelegatesTo(r, SetOpParts(plan))
    ensures t == SeqScan ==> DelegatesTo(r, SeqScanParts(plan))
    ensures t == Sort ==> DelegatesTo(r, SortParts(plan))
  {
    var parts :- match t
      case Aggregate => AggregateParts(plan)
      case CteScan =>
        var _ :- Get(plan, CteNameKey);
        var cond :- OptionalText(plan, IndexCondKey, IndexCondition);
        var filtered :- OptionalText(plan, FilterKey, FilteredBy);
        Success(cond + filtered)
      case Group =>
        var _ :- Get(plan, GroupKeyKey);
        GroupKeys(plan)
      case IndexScan =>
        var cond :- OptionalText(plan, IndexCondKey, IndexCondition);
        var filtered :- OptionalText(plan, FilterKey, FilteredBy);
        Success(cond + filtered)
      case IndexOnlyScan =>
        var _ :- Get(plan, IndexNameKey);
        var cond :- OptionalText(plan, IndexCondKey, IndexCondition);
        var filtered :- OptionalText(plan, FilterKey, FilteredBy);
        Success(cond + filtered)
      case MergeJoin => MergeJoinParts(plan)
      case SetOp => SetOpParts(plan)
      case SeqScan => SeqScanParts(plan)
      case Sort => SortParts(plan)
      case HashJoin =>
        var _ :- Get(plan, JoinTypeKey);
        OptionalText(plan, HashCondKey, HashCondition)
      case _ => Success([]);
    Success(Prose(t, parts))
  }

  /** Only scans, joins and loops get an alternative-cost sentence. */
  predicate MentionsAlternatives(kind: string) {
    Contains(kind, "Scan") || Contains(kind, "Join") || Contains(kind, "Loop")
  }

  /** The alternative-cost sentence: one alternative, or the first two. */
  function AltSentenceFor(node: FieldMap, altNode: seq<string>, altCost: seq<real>): (r: Result<AltSentence, Error>)
    ensures |altNode| == 0 ==> r == Success(NoAlternative)
    ensures |altNode| == 1 && r.Success? ==>
      |altCost| >= 1 && TotalCostKey in node && node[TotalCostKey].Num? && r.value == OneAlternative(altNode[0], altCost[0] - node[TotalCostKey].x)
    ensures |altNode| >= 2 && |altCost| >= 2 && r.Success? ==>
      TotalCostKey in node && node[TotalCostKey].Num? && r.value == TwoAlternatives(altNode[0], altCost[0] - node[TotalCostKey].x,
                                 altNode[1], altCost[1] - node[TotalCostKey].x)
    ensures |altNode| >= 2 && |altCost| < 2 ==> r == Success(NoAlternative)
    ensures |altNode| == |altCost| && (|altNode| == 0 || (TotalCostKey in node && node[TotalCostKey].Num?)) ==> r.Success?
  {
    if |altNode| == 1 then
      if |altCost| == 0 then Failure(IndexOutOfRange)
      else
        var cost :- GetNum(node, TotalCostKey);
        Success(OneAlternative(altNode[0], altCost[0] - cost))
    else if |altNode| >= 2 && |altCost| >= 2 then
      var cost :- GetNum(node, TotalCostKey);
      Success(TwoAlternatives(altNode[0], altCost[0] - cost, altNode[1], altCost[1] - cost))
    else Success(NoAlternative)
  }

  /** `NodeAnnotation`: the template chosen by "Node Type" and, for scans,
      joins and loops, the alternative-cost sentence. */
  function NodeAnnotation(node: FieldMap, altNode: seq<string>, altCost: seq<real>): (r: Result<NodeText, Error>)
    ensures !HasKind(node) ==> r.Failure?
    ensures r.Success? ==> HasKind(node) && r.value.kind == KindOf(node)
    ensures r.Success? ==> r.value.body.template == TemplateFor(KindOf(node))
    ensures r.Success? && !MentionsAlternatives(KindOf(node)) ==> r.value.alternatives == NoAlternative
    ensures r.Success? && MentionsAlternatives(KindOf(node)) ==>
      AltSentenceFor(node, altNode, altCost) == Success(r.value.alternatives)
    ensures r.Success? ==> Render(TemplateFor(KindOf(node)), node) == Success(r.value.body)
    ensures HasKind(node) && Render(TemplateFor(KindOf(node)), node).Failure? ==>
      r == Failure(Render(TemplateFor(KindOf(node)), node).error)
    ensures (&& HasKind(node) && Render(TemplateFor(KindOf(node)), node).Success?
             && (MentionsAlternatives(KindOf(node)) ==> AltSentenceFor(node, altNode, altCost).Success?))
            ==> r.Success?
  {
    var kind :- GetStr(node, NodeTypeKey);
    var body :- Render(TemplateFor(kind), node);
    var alternatives :- if MentionsAlternatives(kind) then AltSentenceFor(node, altNode, altCost)
                        else Success(NoAlternative);
    Success(NodeText(kind, body, alternatives))
  }

  /** Only the first two alternatives can ever reach the text. */
  lemma OnlyFirstTwoAlternativesMatter(node: FieldMap, altNode: seq<string>, altCost: seq<real>)
    requires |altNode| >= 2 && |altCost| >= 2
    ensures NodeAnnotation(node, altNode, altCost) == NodeAnnotation(node, altNode[..2], altCost[..2])
  {
    assert AltSentenceFor(node, altNode, altCost) == AltSentenceFor(node, altNode[..2], altCost[..2]);
  }

  /** A join condition, split at '=', matches field `key` when the field is
      present, holds the stripped left-hand side and holds the right-hand
      side without its first and last character. The right-hand side exists
      only when the condition contained '='. */
  function JoinCondMatches(node: FieldMap, key: string, cond: seq<string>): (r: Result<bool, Error>)
    requires |cond| >= 1
    ensures key !in node ==> r == Success(false)
    ensures key in node && node[key].Num? ==> r.Failure?
    ensures r == Success(true) ==> key in node && |cond| >= 2
    ensures key in node && node[key].Str? && |cond| >= 2 ==>
      r == Success(Contains(node[key].s, Strip(cond[0])) && Contains(node[key].s, Inner(cond[1])))
    ensures key in node && node[key].Str? && |cond| < 2 ==>
      (r.Failure? <==> Contains(node[key].s, Strip(cond[0])))
  {
    if key !in node then Success(false)
    else
      var first :- In(Strip(cond[0]), node[key], key);
      if !first then Success(false)
      else if |cond| < 2 then Failure(IndexOutOfRange)
      else In(Inner(cond[1]), node[key], key)
  }

  /** Whether clause item `i` is the join this node performs: its condition
      matches the node's "Join Filter", else its "Merge Cond", else its
      "Hash Cond", else the node is a nested loop (which takes any item). */
  function JoinItemMatches(node: FieldMap, i: string): (r: Result<bool, Error>)
    ensures NodeTypeKey in node && node[NodeTypeKey] == Str("Nested Loop") && r.Success? ==> r.value
    ensures r == Success(false) ==> NodeTypeKey in node && node[NodeTypeKey] != Str("Nested Loop")
  {
    var cond := SplitOn(i, '=');
    var byFilter :- JoinCondMatches(node, JoinFilterKey, cond);
    if byFilter then Success(true)
    else
      var byMerge :- JoinCondMatches(node, MergeCondKey, cond);
      if byMerge then Success(true)
      else
        var byHash :- JoinCondMatches(node, HashCondKey, cond);
        if byHash then Success(true)
        else
          var kind :- Get(node, NodeTypeKey);
          Success(kind == Str("Nested Loop"))
  }

  /** The outcome of `JoinItemMatches` in full: the item matches exactly
      when its condition matches "Join Filter", "Merge Cond" or "Hash Cond",
      or the node is a nested loop; it raises exactly when a test reached
      raises or, with no condition matching, "Node Type" is missing. */
  lemma JoinItemMatchesIff(node: FieldMap, i: string)
    ensures var r, cond := JoinItemMatches(node, i), SplitOn(i, '=');
      r.Success? ==>
        (r.value <==> || JoinCondMatches(node, JoinFilterKey, cond) == Success(true)
                      || JoinCondMatches(node, MergeCondKey, cond) == Success(true)
                      || JoinCondMatches(node, HashCondKey, cond) == Success(true)
                      || (NodeTypeKey in node && node[NodeTypeKey] == Str("Nested Loop")))
    ensures var r, cond := JoinItemMatches(node, i), SplitOn(i, '=');
      r.Failure? <==>
        || JoinCondMatches(node, JoinFilterKey, cond).Failure?
        || (&& JoinCondMatches(node, JoinFilterKey, cond) == Success(false)
            && (|| JoinCondMatches(node, MergeCondKey, cond).Failure?
                || (&& JoinCondMatches(node, MergeCondKey, cond) == Success(false)
                    && (|| JoinCondMatches(node, HashCondKey, cond).Failure?
                        || (JoinCondMatches(node, HashCondKey, cond) == Success(false) && NodeTypeKey !in node)))))
  {
  }

  /** A join section holds the first matching item, or is empty when no
      item matches. */
  predicate FirstMatchEntry(items: seq<string>, node: FieldMap, section: Section) {
    && (|section| == 1 ==>
          exists k :: 0 <= k < |items| && items[k] in section && JoinItemMatches(node, items[k]) == Success(true)
            && forall j :: 0 <= j < k ==> JoinItemMatches(node, items[j]) == Success(false))
    && (|section| == 0 ==> forall k :: 0 <= k < |items| ==> JoinItemMatches(node, items[k]) == Success(false))
  }

  /** The loop reaches item `k`: every earlier item was tried and did not
      match. */
  predicate Reached(items: seq<string>, node: FieldMap, k: nat)
    requires k <= |items|
  {
    forall j :: 0 <= j < k ==> JoinItemMatches(node, items[j]) == Success(false)
  }

  /** The join loop runs to its end without raising: every item it reaches
      is tested without raising, and the node's annotation can be formatted
      when one of them matches. */
  predicate JoinSectionOk(items: seq<string>, node: FieldMap, text: Result<NodeText, Error>) {
    forall k: nat :: k < |items| && Reached(items, node, k) ==>
      JoinItemMatches(node, items[k]).Success? && (JoinItemMatches(node, items[k]).value ==> text.Success?)
  }

  lemma ReachedShift(items: seq<string>, node: FieldMap, k: nat)
    requires k < |items| - 1 && JoinItemMatches(node, items[0]) == Success(false)
    ensures Reached(items, node, k + 1) <==> Reached(items[1..], node, k)
  {
    NoneBeforeShift(items, i => JoinItemMatches(node, i), k);
  }

  /** No item before `k + 1` matches exactly when, past a leading item
      that does not match, no item of the rest before `k` does. */
  lemma NoneBeforeShift(items: seq<string>, matches: string -> Result<bool, Error>, k: nat)
    requires k < |items| - 1 && matches(items[0]) == Success(false)
    ensures (forall j :: 0 <= j < k + 1 ==> matches(items[j]) == Success(false))
        <==> (forall j :: 0 <= j < k ==> matches(items[1..][j]) == Success(false))
  {
    var rest := items[1..];
    if forall j :: 0 <= j < k ==> matches(rest[j]) == Success(false) {
      forall j | 0 <= j < k + 1 ensures matches(items[j]) == Success(false) {
        if j > 0 { assert items[j] == rest[j - 1]; }
      }
    }
    if forall j :: 0 <= j < k + 1 ==> matches(items[j]) == Success(false) {
      forall j | 0 <= j < k ensures matches(rest[j]) == Success(false) {
        assert rest[j] == items[j + 1];
      }
    }
  }

  /** After a leading item that does not match, the loop over the whole
      list succeeds exactly when the loop over the rest does. */
  lemma JoinSectionOkShift(items: seq<string>, node: FieldMap, text: Result<NodeText, Error>)
    requires |items| > 0 && JoinItemMatches(node, items[0]) == Success(false)
    ensures JoinSectionOk(items, node, text) <==> JoinSectionOk(items[1..], node, text)
  {
    var rest := items[1..];
    forall k: nat | k < |rest|
      ensures Reached(items, node, k + 1) <==> Reached(rest, node, k)
    {
      ReachedShift(items, node, k);
    }
    if JoinSectionOk(items, node, text) {
      forall k: nat | k < |rest| && Reached(rest, node, k)
        ensures JoinItemMatches(node, rest[k]).Success? && (JoinItemMatches(node, rest[k]).value ==> text.Success?)
      {
        assert rest[k] == items[k + 1];
      }
    }
    if JoinSectionOk(rest, node, text) {
      forall k: nat | k < |items| && Reached(items, node, k)
        ensures JoinItemMatches(node, items[k]).Success? && (JoinItemMatches(node, items[k]).value ==> text.Success?)
      {
        if k > 0 { assert items[k] == rest[k - 1]; }
      }
    }
  }

  /** One pass of the `from_join` / `where_join` loop of `MapAnnotation`:
      the first item that matches gets the node's annotation and ends the
      loop. `created` records that the section dict already exists (it is
      then still empty, because every insertion ends the loop). */
  function JoinSection(items: seq<string>, node: FieldMap, text: Result<NodeText, Error>, created: bool)
    : (r: Result<Option<Section>, Error>)
    ensures r.Success? ==> (r.value.Some? <==> created || |items| > 0)
    ensures r.Success? && r.value.Some? ==>
      |r.value.value| <= 1
      && (forall i :: i in r.value.value ==> i in items && text == Success(r.value.value[i]))
    ensures r.Success? && r.value.Some? ==> FirstMatchEntry(items, node, r.value.value)
    ensures r.Success? <==> JoinSectionOk(items, node, text)
    decreases |items|
  {
    if |items| == 0 then Success(if created then Some(map[]) else None)
    else
      var i := items[0];
      assert Reached(items, node, 0);
      var matches :- JoinItemMatches(node, i);
      if matches then var t :- text; Success(Some(map[i := t]))
      else
        var r := JoinSection(items[1..], node, text, true);
        JoinSectionStep(items, node, r);
        JoinSectionOkShift(items, node, text);
        r
  }

  lemma JoinSectionStep(items: seq<string>, node: FieldMap, r: Result<Option<Section>, Error>)
    requires |items| > 0 && JoinItemMatches(node, items[0]) == Success(false)
    requires r.Success? && r.value.Some? ==> FirstMatchEntry(items[1..], node, r.value.value)
    ensures r.Success? && r.value.Some? ==> FirstMatchEntry(items, node, r.value.value)
  {
    if r.Success? && r.value.Some? {
      var section := r.value.value;
      if |section| == 1 {
        FoundLater(items, i => JoinItemMatches(node, i), section);
      }
      if |section| == 0 {
        NoneLater(items, node);
      }
    }
  }

  /** A first match found after a leading non-match is a first match of the
      whole list. */
  lemma FoundLater(items: seq<string>, matches: string -> Result<bool, Error>, section: Section)
    requires |items| > 0 && matches(items[0]) == Success(false)
    requires exists k :: 0 <= k < |items[1..]| && items[1..][k] in section
                           && matches(items[1..][k]) == Success(true)
                           && forall j :: 0 <= j < k ==> matches(items[1..][j]) == Success(false)
    ensures exists k :: 0 <= k < |items| && items[k] in section && matches(items[k]) == Success(true)
                          && forall j :: 0 <= j < k ==> matches(items[j]) == Success(false)
  {
    var rest := items[1..];
    var k :| 0 <= k < |rest| && rest[k] in section && matches(rest[k]) == Success(true)
      && forall j :: 0 <= j < k ==> matches(rest[j]) == Success(false);
    assert items[k + 1] == rest[k];
    forall j | 0 <= j < k + 1 ensures matches(items[j]) == Success(false) {
      if j > 0 { assert items[j] == rest[j - 1]; }
    }
  }

  lemma NoneLater(items: seq<string>, node: FieldMap)
    requires |items| > 0 && JoinItemMatches(node, items[0]) == Success(false)
    requires forall k :: 0 <= k < |items[1..]| ==> JoinItemMatches(node, items[1..][k]) == Success(false)
    ensures forall k :: 0 <= k < |items| ==> JoinItemMatches(node, items[k]) == Success(false)
  {
    forall k | 0 <= k < |items| ensures JoinItemMatches(node, items[k]) == Success(false) {
      if k > 0 { assert items[k] == items[1..][k - 1]; }
    }
  }

  /** One `where_filter` token against one filter string: a dotted token is
      compared by the part after its first '.', trimmed of its first and last
      character when the filter is a list. */
  predicate TokenMatches(token: string, filter: string, dotted: bool, fromList: bool) {
    if dotted && '.' in token then
      OccurrenceCounted(token, '.');
      var column := SplitOn(token, '.')[1];
      Contains(filter, if fromList then Inner(column) else column)
    else Contains(filter, token)
  }

  lemma OccurrenceCounted(s: string, c: char)
    requires c in s
    ensures Count(s, c) >= 1
  {
    if s[0] != c {
      assert c in s[1..];
      OccurrenceCounted(s[1..], c);
    }
  }

  predicate AllTokensMatch(tokens: seq<string>, filter: string, dotted: bool, fromList: bool) {
    forall k :: 0 <= k < |tokens| ==> TokenMatches(tokens[k], filter, dotted, fromList)
  }

  /** A filter that is a list with no element: the loop over its elements
      never runs, so no entry is made or removed. */
  predicate NoFilters(filter: Value) {
    filter.StrList? && |filter.items| == 0
  }

  /** Whether clause item `i` ends with an entry: every token of it occurs
      in the filter text, or, for a list filter, in its last element. */
  predicate FilterKeeps(filter: Value, i: string) {
    var tokens := SplitOn(i, ' ');
    match filter
    case Str(f) => AllTokensMatch(tokens, f, "." in tokens, false)
    case StrList(fs) => |fs| > 0 && AllTokensMatch(tokens, fs[|fs| - 1], "." in tokens, true)
    case Num(_) => false
  }

  /** One turn of the `where_filter` loop, for clause item `i`: the entry
      for `i` is set or removed according to `FilterKeeps`, every other
      entry stays. A filter that is an empty list changes nothing; one
      that is a number fails once the node text is formatted. */
  function FilterStep(i: string, filter: Value, text: Result<NodeText, Error>, section: Option<Section>)
    : (r: Result<Option<Section>, Error>)
    requires section.Some? ==> forall j :: j in section.value ==> text == Success(section.value[j])
    ensures filter.Num? ==> r.Failure?
    ensures NoFilters(filter) ==> r == Success(section)
    ensures !NoFilters(filter) ==> (r.Success? <==> text.Success? && !filter.Num?)
    ensures r.Success? && r.value.Some? ==> forall j :: j in r.value.value ==> text == Success(r.value.value[j])
    ensures r.Success? && !NoFilters(filter) ==> r.value.Some?
    ensures r.Success? && r.value.Some? && !NoFilters(filter) ==>
      forall j :: j in r.value.value <==>
        (section.Some? && j in section.value && j != i) || (j == i && FilterKeeps(filter, i))
  {
    match filter
    case StrList(filters) =>
      if |filters| == 0 then Success(section)
      else
        var t :- text;
        Success(Some(SetEntry(if section.Some? then section.value else map[], i, FilterKeeps(filter, i), t)))
    case Str(f) =>
      var t :- text;
      Success(Some(SetEntry(if section.Some? then section.value else map[], i, FilterKeeps(filter, i), t)))
    case Num(_) =>
      var _ :- text;
      Failure(WrongType(FilterKey))
  }

  /** The entry for `i` set to `t` when `keep` holds and removed otherwise;
      every other entry stays. */
  function SetEntry(s: Section, i: string, keep: bool, t: NodeText): (r: Section)
    ensures forall j :: j in r <==> (j in s && j != i) || (j == i && keep)
    ensures forall j :: j in r && j != i ==> r[j] == s[j]
    ensures keep ==> r[i] == t
  {
    if keep then s[i := t] else s - {i}
  }

  /** The `where_filter` loop: for a list filter only the last element
      decides whether item `i` keeps its entry (each element re-inserts it and
      pops it on a failing token). */
  function FilterSection(items: seq<string>, filter: Value, text: Result<NodeText, Error>, section: Option<Section>)
    : (r: Result<Option<Section>, Error>)
    requires section.Some? ==> forall i :: i in section.value ==> text == Success(section.value[i])
    ensures filter.Num? && |items| > 0 ==> r.Failure?
    ensures r.Success? && r.value.Some? ==> forall i :: i in r.value.value ==> text == Success(r.value.value[i])
    ensures NoFilters(filter) ==> r == Success(section)
    ensures !NoFilters(filter) && |items| > 0 ==> (r.Success? <==> text.Success? && !filter.Num?)
    ensures r.Success? && !NoFilters(filter) ==>
      (r.value.Some? <==> section.Some? || |items| > 0)
    ensures r.Success? && !NoFilters(filter) ==>
      forall i :: (r.value.Some? && i in r.value.value) <==>
        (section.Some? && i in section.value && i !in items) || (i in items && FilterKeeps(filter, i))
    decreases |items|
  {
    if |items| == 0 then Success(section)
    else
      var next :- FilterStep(items[0], filter, text, section);
      assert forall j :: j in items <==> j == items[0] || j in items[1..];
      FilterSection(items[1..], filter, text, next)
  }

  /** Clause item `i` belongs to a node's "Group Key" when it is a substring
      of the key text, or of some element when the key is a list. */
  predicate GroupMatches(groupKey: Value, i: string) {
    match groupKey
    case Str(s) => Contains(s, i)
    case StrList(keys) => exists j :: j in keys && Contains(j, i)
    case Num(_) => false
  }

  function GroupSection(items: seq<string>, groupKey: Value, text: Result<NodeText, Error>, section: Option<Section>)
    : (r: Result<Option<Section>, Error>)
    ensures r.Success? ==>
      forall i :: (r.value.Some? && i in r.value.value) <==>
        (section.Some? && i in section.value) || (i in items && GroupMatches(groupKey, i))
    requires section.Some? ==> forall i :: i in section.value ==> text == Success(section.value[i])
    ensures r.Success? ==> forall i :: r.value.Some? && i in r.value.value ==> text == Success(r.value.value[i])
    ensures r.Success? ==> (r.value.Some? <==> section.Some? || exists i :: i in items && GroupMatches(groupKey, i))
    ensures groupKey.Num? && |items| > 0 ==> r.Failure?
    ensures r.Success? <==>
      (|items| == 0 || !groupKey.Num?) && ((exists i :: i in items && GroupMatches(groupKey, i)) ==> text.Success?)
    decreases |items|
  {
    if |items| == 0 then Success(section)
    else
      assert forall j :: j in items <==> j == items[0] || j in items[1..];
      var i := items[0];
      var next :- if groupKey.Num? then Failure(WrongType(GroupKeyKey))
                  else if GroupMatches(groupKey, i) then
                    var t :- text;
                    Success(Some((if section.Some? then section.value else map[])[i := t]))
                  else Success(section);
      GroupSection(items[1..], groupKey, text, next)
  }

  /** Every entry of a section is the node's annotation. */
  predicate EntriesAre(section: Section, text: Result<NodeText, Error>) {
    forall i :: i in section ==> text == Success(section[i])
  }

  predicate SomeEntriesAre(section: Option<Section>, text: Result<NodeText, Error>) {
    section.Some? ==> EntriesAre(section.value, text)
  }

  lemma AssembledEntriesAre(fromJoin: Option<Section>, whereJoin: Option<Section>, from: Option<Section>,
                            whereFilter: Option<Section>, groupBy: Option<Section>, text: Result<NodeText, Error>)
    requires SomeEntriesAre(fromJoin, text) && SomeEntriesAre(whereJoin, text) && SomeEntriesAre(from, text)
    requires SomeEntriesAre(whereFilter, text) && SomeEntriesAre(groupBy, text)
    ensures var r := Assemble(fromJoin, whereJoin, from, whereFilter, groupBy);
            forall name :: name in r ==> EntriesAre(r[name], text)
  {
  }

  /** The `mapped_queries` dict: one entry per section that was created. */
  function Assemble(fromJoin: Option<Section>, whereJoin: Option<Section>, from: Option<Section>,
                    whereFilter: Option<Section>, groupBy: Option<Section>): (r: Sections)
    ensures FromJoinSection in r <==> fromJoin.Some?
    ensures WhereJoinSection in r <==> whereJoin.Some?
    ensures FromSection in r <==> from.Some?
    ensures WhereFilterSection in r <==> whereFilter.Some?
    ensures GroupBySection in r <==> groupBy.Some?
    ensures fromJoin.Some? ==> r[FromJoinSection] == fromJoin.value
    ensures whereJoin.Some? ==> r[WhereJoinSection] == whereJoin.value
    ensures from.Some? ==> r[FromSection] == from.value
    ensures whereFilter.Some? ==> r[WhereFilterSection] == whereFilter.value
    ensures groupBy.Some? ==> r[GroupBySection] == groupBy.value
    ensures forall name :: name in r ==>
      name in {FromJoinSection, WhereJoinSection, FromSection, WhereFilterSection, GroupBySection}
  {
    assert |FromJoinSection| == 9 && |WhereJoinSection| == 10 && |FromSection| == 4;
    assert |WhereFilterSection| == 12 && |GroupBySection| == 8;
    assert FromJoinSection[0] != GroupBySection[0];
    var none: Sections := map[];
    var withFromJoin := if fromJoin.Some? then none[FromJoinSection := fromJoin.value] else none;
    var withWhereJoin := if whereJoin.Some? then withFromJoin[WhereJoinSection := whereJoin.value] else withFromJoin;
    var withFrom := if from.Some? then withWhereJoin[FromSection := from.value] else withWhereJoin;
    var withFilter := if whereFilter.Some? then withFrom[WhereFilterSection := whereFilter.value] else withFrom;
    if groupBy.Some? then withFilter[GroupBySection := groupBy.value] else withFilter
  }

  /** A join section of `MapAnnotation`: made only for a join node. */
  function JoinEntries(items: seq<string>, node: FieldMap, text: Result<NodeText, Error>): (r: Result<Option<Section>, Error>)
    ensures r.Success? ==> JoinPartOk(items, node, r.value) && SomeEntriesAre(r.value, text)
    ensures r.Success? <==> (JoinTypeKey in node ==> JoinSectionOk(items, node, text))
  {
    if JoinTypeKey in node then JoinSection(items, node, text, false) else Success(None)
  }

  /** A join section exists exactly when the node is a join and the clause
      has items; it then holds at most one entry, the first matching item. */
  predicate JoinPartOk(items: seq<string>, node: FieldMap, c: Option<Section>) {
    && (c.Some? <==> JoinTypeKey in node && |items| > 0)
    && (c.Some? ==> |c.value| <= 1 && FirstMatchEntry(items, node, c.value))
  }

  /** A node with a kind has a `from` section exactly when it is a scan; the
      section maps the scan's relation to the node text. */
  predicate FromPartOk(node: FieldMap, text: Result<NodeText, Error>, c: Option<Section>) {
    && (HasKind(node) ==> (c.Some? <==> Contains(KindOf(node), "Scan")))
    && (c.Some? ==>
          RelationNameKey in node && node[RelationNameKey].Str? && text.Success?
          && c.value == map[node[RelationNameKey].s := text.value])
  }

  /** The `where_filter` section exists exactly when the node has a
      non-empty filter and the clause has items; it holds the items the
      filter keeps. */
  ghost predicate FilterPartOk(items: seq<string>, node: FieldMap, c: Option<Section>) {
    && (c.Some? <==> FilterKey in node && !NoFilters(node[FilterKey]) && |items| > 0)
    && (c.Some? ==> forall i :: i in c.value <==> i in items && FilterKeeps(node[FilterKey], i))
  }

  /** The `group_by` section exists exactly when some item matches the
      node's group key; it holds the matching items. */
  ghost predicate GroupPartOk(items: seq<string>, node: FieldMap, c: Option<Section>) {
    && (c.Some? <==> GroupKeyKey in node && exists i :: i in items && GroupMatches(node[GroupKeyKey], i))
    && (c.Some? ==> forall i :: i in c.value <==> i in items && GroupMatches(node[GroupKeyKey], i))
  }

  /** The `from` entry of a scan, keyed by its "Relation Name". */
  function FromEntry(node: FieldMap, text: Result<NodeText, Error>): (r: Result<Option<Section>, Error>)
    ensures RelationNameKey !in node ==> r.Failure?
    ensures r.Success? ==>
      RelationNameKey in node && node[RelationNameKey].Str? && text.Success?
      && r.value == Some(map[node[RelationNameKey].s := text.value])
  {
    var t :- text;
    var relation :- GetStr(node, RelationNameKey);
    Success(Some(map[relation := t]))
  }

  /** The `where_filter` entries of a node, when it has a "Filter". */
  function FilterEntries(items: seq<string>, node: FieldMap, text: Result<NodeText, Error>)
    : (r: Result<Option<Section>, Error>)
    ensures r.Success? ==> FilterPartOk(items, node, r.value) && SomeEntriesAre(r.value, text)
    ensures r.Success? <==> FilterOk(items, node, text)
  {
    if FilterKey in node then FilterSection(items, node[FilterKey], text, None) else Success(None)
  }

  /** The `group_by` entries of a node, when it has a "Group Key". */
  function GroupEntries(items: seq<string>, node: FieldMap, text: Result<NodeText, Error>)
    : (r: Result<Option<Section>, Error>)
    ensures r.Success? ==> GroupPartOk(items, node, r.value) && SomeEntriesAre(r.value, text)
    ensures r.Success? <==> GroupOk(items, node, text)
  {
    if GroupKeyKey in node then GroupSection(items, node[GroupKeyKey], text, None) else Success(None)
  }

  /** The five sections a node can contribute to, before they are gathered
      into one dict. */
  datatype Collected = Collected(fromJoin: Option<Section>, whereJoin: Option<Section>, from: Option<Section>,
                                 whereFilter: Option<Section>, groupBy: Option<Section>)

  predicate AllEntriesAre(c: Collected, text: Result<NodeText, Error>) {
    && SomeEntriesAre(c.fromJoin, text) && SomeEntriesAre(c.whereJoin, text) && SomeEntriesAre(c.from, text)
    && SomeEntriesAre(c.whereFilter, text) && SomeEntriesAre(c.groupBy, text)
  }

  /** `'Scan' in node["Node Type"]`: a substring test on a text kind,
      membership on a list; a number raises before the test. */
  predicate ScanKind(node: FieldMap)
    requires NodeTypeKey in node
  {
    In("Scan", node[NodeTypeKey], NodeTypeKey) == Success(true)
  }

  /** The `from` step raises exactly when "Node Type" is missing or a
      number, or when a scan lacks a text "Relation Name" or its annotation
      cannot be formatted. */
  predicate FromOk(node: FieldMap, text: Result<NodeText, Error>) {
    && NodeTypeKey in node && !node[NodeTypeKey].Num?
    && (ScanKind(node) ==> RelationNameKey in node && node[RelationNameKey].Str? && text.Success?)
  }

  /** The `where_filter` loop raises exactly when it runs (a "Filter" that
      is not an empty list, and some item) and either the filter is a number
      or the annotation cannot be formatted. */
  predicate FilterOk(items: seq<string>, node: FieldMap, text: Result<NodeText, Error>) {
    FilterKey in node && !NoFilters(node[FilterKey]) && |items| > 0 ==> text.Success? && !node[FilterKey].Num?
  }

  /** The `group_by` loop raises exactly when a number "Group Key" meets some
      item, or a matching item needs an annotation that cannot be formatted. */
  predicate GroupOk(items: seq<string>, node: FieldMap, text: Result<NodeText, Error>) {
    GroupKeyKey in node ==>
      && (|items| == 0 || !node[GroupKeyKey].Num?)
      && ((exists i :: i in items && GroupMatches(node[GroupKeyKey], i)) ==> text.Success?)
  }

  /** `MapAnnotation` returns, rather than raising, exactly when each of its
      five steps does. */
  predicate AnnotationOk(clauses: Clauses, node: FieldMap, text: Result<NodeText, Error>) {
    && (JoinTypeKey in node ==>
          JoinSectionOk(clauses.fromJoin, node, text) && JoinSectionOk(clauses.whereJoin, node, text))
    && FromOk(node, text)
    && FilterOk(clauses.whereFilter, node, text)
    && GroupOk(clauses.groupBy, node, text)
  }

  /** The body of `MapAnnotation`, section by section, in source order. */
  function CollectSections(clauses: Clauses, node: FieldMap, text: Result<NodeText, Error>): (r: Result<Collected, Error>)
    ensures NodeTypeKey !in node ==> r.Failure?
    ensures HasKind(node) && Contains(KindOf(node), "Scan") && RelationNameKey !in node ==> r.Failure?
    ensures r.Success? ==>
      && JoinPartOk(clauses.fromJoin, node, r.value.fromJoin)
      && JoinPartOk(clauses.whereJoin, node, r.value.whereJoin)
      && FromPartOk(node, text, r.value.from)
      && FilterPartOk(clauses.whereFilter, node, r.value.whereFilter)
      && GroupPartOk(clauses.groupBy, node, r.value.groupBy)
      && AllEntriesAre(r.value, text)
    ensures r.Success? <==> AnnotationOk(clauses, node, text)
  {
    var fromJoin :- JoinEntries(clauses.fromJoin, node, text);
    var whereJoin :- JoinEntries(clauses.whereJoin, node, text);
    var from :- FromPart(node, text);
    var whereFilter :- FilterEntries(clauses.whereFilter, node, text);
    var groupBy :- GroupEntries(clauses.groupBy, node, text);
    Success(Collected(fromJoin, whereJoin, from, whereFilter, groupBy))
  }

  /** The `from` step: the node's kind is read (it must be text), and a
      scan contributes its relation. */
  function FromPart(node: FieldMap, text: Result<NodeText, Error>): (r: Result<Option<Section>, Error>)
    ensures NodeTypeKey !in node ==> r.Failure?
    ensures HasKind(node) && Contains(KindOf(node), "Scan") && RelationNameKey !in node ==> r.Failure?
    ensures r.Success? ==> FromPartOk(node, text, r.value) && SomeEntriesAre(r.value, text)
    ensures r.Success? <==> FromOk(node, text)
  {
    var kind :- Get(node, NodeTypeKey);
    var isScan :- In("Scan", kind, NodeTypeKey);
    if isScan then FromEntry(node, text) else Success(None)
  }

  /** The sections a node contributes, given the outcome `text` of
      formatting its annotation. */
  function Gather(clauses: Clauses, node: FieldMap, text: Result<NodeText, Error>)
    : (r: Result<Sections, Error>)
    ensures r.Success? ==>
      (FromJoinSection in r.value <==> JoinTypeKey in node && |clauses.fromJoin| > 0)
      && (WhereJoinSection in r.value <==> JoinTypeKey in node && |clauses.whereJoin| > 0)
    ensures r.Success? && FromJoinSection in r.value ==> |r.value[FromJoinSection]| <= 1
    ensures r.Success? && WhereJoinSection in r.value ==> |r.value[WhereJoinSection]| <= 1
    ensures r.Success? && FromJoinSection in r.value ==>
      FirstMatchEntry(clauses.fromJoin, node, r.value[FromJoinSection])
    ensures r.Success? && WhereJoinSection in r.value ==>
      FirstMatchEntry(clauses.whereJoin, node, r.value[WhereJoinSection])
    ensures NodeTypeKey !in node ==> r.Failure?
    ensures HasKind(node) && Contains(KindOf(node), "Scan") && RelationNameKey !in node ==> r.Failure?
    ensures r.Success? && HasKind(node) ==>
      (FromSection in r.value <==> Contains(KindOf(node), "Scan"))
    ensures r.Success? && FromSection in r.value ==>
      RelationNameKey in node && node[RelationNameKey].Str? && text.Success?
      && r.value[FromSection] == map[node[RelationNameKey].s := text.value]
    ensures r.Success? ==>
      (GroupBySection in r.value <==>
        GroupKeyKey in node && exists i :: i in clauses.groupBy && GroupMatches(node[GroupKeyKey], i))
    ensures r.Success? && GroupBySection in r.value ==>
      forall i :: i in r.value[GroupBySection] <==> i in clauses.groupBy && GroupMatches(node[GroupKeyKey], i)
    ensures r.Success? ==>
      (WhereFilterSection in r.value <==>
        FilterKey in node && !NoFilters(node[FilterKey]) && |clauses.whereFilter| > 0)
    ensures r.Success? && WhereFilterSection in r.value ==>
      forall i :: i in r.value[WhereFilterSection] <==> i in clauses.whereFilter && FilterKeeps(node[FilterKey], i)
    ensures r.Success? ==>
      forall name :: name in r.value ==> EntriesAre(r.value[name], text)
    ensures r.Success? <==> AnnotationOk(clauses, node, text)
  {
    var c :- CollectSections(clauses, node, text);
    AssembledEntriesAre(c.fromJoin, c.whereJoin, c.from, c.whereFilter, c.groupBy, text);
    AssembledJoinsAndFrom(clauses, node, text, c);
    AssembledFilterAndGroup(clauses, node, c);
    Success(Assemble(c.fromJoin, c.whereJoin, c.from, c.whereFilter, c.groupBy))
  }

  /** `MapAnnotation`: the sections of the query a node explains, each entry
      holding the node's annotation. */
  function MapAnnotation(clauses: Clauses, node: FieldMap, altNode: seq<string>, altCost: seq<real>)
    : (r: Result<Sections, Error>)
    ensures r.Success? ==>
      (FromJoinSection in r.value <==> JoinTypeKey in node && |clauses.fromJoin| > 0)
      && (WhereJoinSection in r.value <==> JoinTypeKey in node && |clauses.whereJoin| > 0)
    ensures r.Success? && FromJoinSection in r.value ==> |r.value[FromJoinSection]| <= 1
    ensures r.Success? && WhereJoinSection in r.value ==> |r.value[WhereJoinSection]| <= 1
    ensures r.Success? && FromJoinSection in r.value ==>
      FirstMatchEntry(clauses.fromJoin, node, r.value[FromJoinSection])
    ensures r.Success? && WhereJoinSection in r.value ==>
      FirstMatchEntry(clauses.whereJoin, node, r.value[WhereJoinSection])
    ensures NodeTypeKey !in node ==> r.Failure?
    ensures HasKind(node) && Contains(KindOf(node), "Scan") && RelationNameKey !in node ==> r.Failure?
    ensures r.Success? && HasKind(node) ==>
      (FromSection in r.value <==> Contains(KindOf(node), "Scan"))
    ensures r.Success? && FromSection in r.value ==>
      RelationNameKey in node && node[RelationNameKey].Str? && NodeAnnotation(node, altNode, altCost).Success?
      && r.value[FromSection] == map[node[RelationNameKey].s := NodeAnnotation(node, altNode, altCost).value]
    ensures r.Success? ==>
      (GroupBySection in r.value <==>
        GroupKeyKey in node && exists i :: i in clauses.groupBy && GroupMatches(node[GroupKeyKey], i))
    ensures r.Success? && GroupBySection in r.value ==>
      forall i :: i in r.value[GroupBySection] <==> i in clauses.groupBy && GroupMatches(node[GroupKeyKey], i)
    ensures r.Success? ==>
      (WhereFilterSection in r.value <==>
        FilterKey in node && !NoFilters(node[FilterKey]) && |clauses.whereFilter| > 0)
    ensures r.Success? && WhereFilterSection in r.value ==>
      forall i :: i in r.value[WhereFilterSection] <==> i in clauses.whereFilter && FilterKeeps(node[FilterKey], i)
    ensures r.Success? ==>
      forall name :: name in r.value ==> EntriesAre(r.value[name], NodeAnnotation(node, altNode, altCost))
    ensures r.Success? <==> AnnotationOk(clauses, node, NodeAnnotation(node, altNode, altCost))
  {
    Gather(clauses, node, NodeAnnotation(node, altNode, altCost))
  }

  /** The join and `from` sections of the gathered dict, read back. */
  lemma AssembledJoinsAndFrom(clauses: Clauses, node: FieldMap, text: Result<NodeText, Error>, c: Collected)
    requires JoinPartOk(clauses.fromJoin, node, c.fromJoin) && JoinPartOk(clauses.whereJoin, node, c.whereJoin)
    requires FromPartOk(node, text, c.from)
    ensures var r := Assemble(c.fromJoin, c.whereJoin, c.from, c.whereFilter, c.groupBy);
      && (FromJoinSection in r <==> JoinTypeKey in node && |clauses.fromJoin| > 0)
      && (WhereJoinSection in r <==> JoinTypeKey in node && |clauses.whereJoin| > 0)
      && (FromJoinSection in r ==> |r[FromJoinSection]| <= 1 && FirstMatchEntry(clauses.fromJoin, node, r[FromJoinSection]))
      && (WhereJoinSection in r ==> |r[WhereJoinSection]| <= 1 && FirstMatchEntry(clauses.whereJoin, node, r[WhereJoinSection]))
      && (HasKind(node) ==> (FromSection in r <==> Contains(KindOf(node), "Scan")))
      && (FromSection in r ==>
            RelationNameKey in node && node[RelationNameKey].Str? && text.Success?
            && r[FromSection] == map[node[RelationNameKey].s := text.value])
  {
  }

  /** The `where_filter` and `group_by` sections of the gathered dict, read
      back. */
  lemma AssembledFilterAndGroup(clauses: Clauses, node: FieldMap, c: Collected)
    requires FilterPartOk(clauses.whereFilter, node, c.whereFilter)
    requires GroupPartOk(clauses.groupBy, node, c.groupBy)
    ensures var r := Assemble(c.fromJoin, c.whereJoin, c.from, c.whereFilter, c.groupBy);
      && (GroupBySection in r <==>
            GroupKeyKey in node && exists i :: i in clauses.groupBy && GroupMatches(node[GroupKeyKey], i))
      && (GroupBySection in r ==>
            forall i :: i in r[GroupBySection] <==> i in clauses.groupBy && GroupMatches(node[GroupKeyKey], i))
      && (WhereFilterSection in r <==>
            FilterKey in node && !NoFilters(node[FilterKey]) && |clauses.whereFilter| > 0)
      && (WhereFilterSection in r ==>
            forall i :: i in r[WhereFilterSection] <==> i in clauses.whereFilter && FilterKeeps(node[FilterKey], i))
  {
  }
}

=== FILE: attach.dfy ===
/** Attaching the alternatives found to the nodes of the chosen plan and
    annotating every node: `add_alt_attributes`, `node_mapper` and
    `Tree.generate_altnodes`. The nodes' alternative lists are the only
    state that survives from one alternative plan to the next. */
module Attach {
  import opened Wrappers
  import opened Seqs
  import opened Fields
  import opened Annotation
  import opened PlanTree
  import opened Planner
  import opened Alignment

  /** The rows of the combined table whose QP side is the node numbered
      `index`, in table order. */
  function Matches(rows: seq<Row>, index: int): (r: seq<Row>)
    ensures forall k :: 0 <= k < |r| ==> r[k] in rows && r[k].qp.index == index
    ensures forall row :: multiset(r)[row] == if row.qp.index == index then multiset(rows)[row] else 0
  {
    FilterCounts((row: Row) => row.qp.index == index, rows);
    Filter((row: Row) => row.qp.index == index, rows)
  }

  /** The `try` block of `add_alt_attributes`: when exactly one row maps
      the node, its AQP kind and cost are appended unless the kind is listed
      already. No row, or several (`.item()` raises), changes nothing. */
  function AttachAt(n: Node, rows: seq<Row>): (r: Node)
    ensures r.(altNode := n.altNode, altCost := n.altCost) == n
    ensures n.altNode <= r.altNode && n.altCost <= r.altCost
    ensures |r.altNode| - |n.altNode| == |r.altCost| - |n.altCost| <= 1
    ensures |r.altNode| > |n.altNode| <==>
      |Matches(rows, n.index)| == 1 && Matches(rows, n.index)[0].aqp.kind !in n.altNode
    ensures |r.altNode| > |n.altNode| ==>
      exists k :: 0 <= k < |rows| && rows[k].qp.index == n.index
        && r.altNode[|n.altNode|] == rows[k].aqp.kind && r.altCost[|n.altCost|] == rows[k].aqp.cost
    ensures |r.altNode| > |n.altNode| ==> r.altNode[|n.altNode|] !in n.altNode
  {
    var target := Matches(rows, n.index);
    if |target| == 1 && target[0].aqp.kind !in n.altNode then
      n.(altNode := n.altNode + [target[0].aqp.kind], altCost := n.altCost + [target[0].aqp.cost])
    else n
  }

  /** Attaching twice with the same table is attaching once. */
  lemma AttachIdempotent(n: Node, rows: seq<Row>)
    ensures AttachAt(AttachAt(n, rows), rows) == AttachAt(n, rows)
  {
    var once := AttachAt(n, rows);
    if |once.altNode| > |n.altNode| {
      assert once.altNode[|n.altNode|] in once.altNode;
    }
  }

  /** The order of the rows does not matter, only which rows there are:
      this is why the model may leave out the sort by QP index and the
      order in which the join and scan tables are stacked. */
  lemma AttachIgnoresRowOrder(n: Node, rows1: seq<Row>, rows2: seq<Row>)
    requires multiset(rows1) == multiset(rows2)
    ensures AttachAt(n, rows1) == AttachAt(n, rows2)
  {
    var m1, m2 := Matches(rows1, n.index), Matches(rows2, n.index);
    FilterMultiset((row: Row) => row.qp.index == n.index, rows1, rows2);
    assert |m1| == |multiset(m1)| == |multiset(m2)| == |m2|;
    if |m1| == 1 {
      assert m1 == [m1[0]] && m2 == [m2[0]];
      assert m1[0] in multiset(m2);
    }
  }

  /** The alternatives of a node are distinct, in lockstep with their
      costs, and never the node's own kind. */
  predicate NodeAltsSound(x: Node) {
    && NoDup(x.altNode)
    && |x.altNode| == |x.altCost|
    && (HasKind(x.data) ==> KindOf(x.data) !in x.altNode)
  }

  predicate AltsSound(nodes: seq<Node>) {
    forall i :: 0 <= i < |nodes| ==> NodeAltsSound(nodes[i])
  }

  /** Every row maps a node of `nodes` (its QP side is what reading that
      node gives) to a node of a different kind. */
  predicate RowsFrom(rows: seq<Row>, nodes: seq<Node>) {
    forall k :: 0 <= k < |rows| ==>
      && KindsDiffer(rows[k])
      && exists j :: 0 <= j < |nodes| && ReadSide(nodes[j]) == Success(rows[k].qp)
  }

  /** Attaching from rows that come from a numbered node list keeps a node
      of that list sound: the alternative found for a node is never its own
      kind, because the row's QP side is that very node. */
  lemma AttachSound(nodes: seq<Node>, start: int, i: nat, rows: seq<Row>)
    requires Numbered(nodes, start) && RowsFrom(rows, nodes)
    requires i < |nodes| && NodeAltsSound(nodes[i])
    ensures NodeAltsSound(AttachAt(nodes[i], rows))
  {
    var x := nodes[i];
    var y := AttachAt(x, rows);
    if |y.altNode| > |x.altNode| {
      var k :| 0 <= k < |rows| && rows[k].qp.index == x.index
        && y.altNode[|x.altNode|] == rows[k].aqp.kind && y.altCost[|x.altCost|] == rows[k].aqp.cost;
      var j :| 0 <= j < |nodes| && ReadSide(nodes[j]) == Success(rows[k].qp);
      assert nodes[j].index == start + j && x.index == start + i;
      assert j == i;
      GainedSound(x, y);
    }
  }

  /** A node that gains one alternative, new to it and not its own kind,
      stays sound. */
  lemma GainedSound(x: Node, y: Node)
    requires NodeAltsSound(x) && y.data == x.data
    requires x.altNode <= y.altNode && x.altCost <= y.altCost
    requires |y.altNode| == |x.altNode| + 1 && |y.altCost| == |x.altCost| + 1
    requires y.altNode[|x.altNode|] !in x.altNode
    requires HasKind(x.data) ==> y.altNode[|x.altNode|] != KindOf(x.data)
    ensures NodeAltsSound(y)
  {
    assert y.altNode == x.altNode + [y.altNode[|x.altNode|]];
    forall a, b | 0 <= a < b < |y.altNode| ensures y.altNode[a] != y.altNode[b] {
      if b == |x.altNode| {
        assert y.altNode[a] == x.altNode[a];
      }
    }
  }

  // ---------------------------------------------------------------------
  // add_alt_attributes

  /** The annotation of node `x` succeeds once the table has been applied
      to it. */
  predicate Annotates(x: Node, rows: seq<Row>, clauses: Clauses) {
    var y := AttachAt(x, rows);
    MapAnnotation(clauses, y.data, y.altNode, y.altCost).Success?
  }

  predicate AllAnnotate(nodes: seq<Node>, rows: seq<Row>, clauses: Clauses) {
    forall i :: 0 <= i < |nodes| ==> Annotates(nodes[i], rows, clauses)
  }

  /** `y` is node `x` after the pass: same number, fields and children
      slots, the alternatives attached, and annotation `ann`, which is
      what annotating the attached node gives. */
  predicate RevisitedNode(x: Node, y: Node, ann: Sections, rows: seq<Row>, clauses: Clauses) {
    var a := AttachAt(x, rows);
    && y.index == x.index && y.data == x.data
    && (y.left.Some? <==> x.left.Some?) && (y.right.Some? <==> x.right.Some?)
    && y.altNode == a.altNode && y.altCost == a.altCost
    && y.annotation == ann
    && MapAnnotation(clauses, x.data, a.altNode, a.altCost) == Success(ann)
  }

  /** Position by position, `after` is `before` after the pass, and `anns`
      are the annotations made, in the same order. */
  predicate Revisited(before: seq<Node>, after: seq<Node>, anns: seq<Sections>, rows: seq<Row>, clauses: Clauses) {
    && |after| == |before| && |anns| == |before|
    && forall i :: 0 <= i < |before| ==> RevisitedNode(before[i], after[i], anns[i], rows, clauses)
  }

  /** `add_alt_attributes` from node `n`: attach at the node, annotate it
      with its alternatives as they now stand (a failing annotation raises
      out of the pass), then do the left subtree, then the right one.
      Returns the new subtree and the annotations in the order they are
      appended to `all_annotations`. */
  function AddAltAttributes(n: Node, rows: seq<Row>, clauses: Clauses): (r: Result<(Node, seq<Sections>), Error>)
    ensures r.Success? <==> AllAnnotate(Preorder(n), rows, clauses)
    ensures r.Success? ==> Revisited(Preorder(n), Preorder(r.value.0), r.value.1, rows, clauses)
    decreases n
  {
    AllAnnotateSplit(n, rows, clauses);
    var here := AttachAt(n, rows);
    var ann :- MapAnnotation(clauses, here.data, here.altNode, here.altCost);
    var fromLeft :- if n.left.Some? then AddAltChild(n, n.left.value, rows, clauses) else Success((None, []));
    var fromRight :- if n.right.Some? then AddAltChild(n, n.right.value, rows, clauses) else Success((None, []));
    var y := here.(annotation := ann, left := fromLeft.0, right := fromRight.0);
    RevisitedJoined(n, y, ann, fromLeft.1, fromRight.1, rows, clauses);
    Success((y, [ann] + fromLeft.1 + fromRight.1))
  }

  /** The pass over child `c` of `p`, its result wrapped as a child slot. */
  function AddAltChild(p: Node, c: Node, rows: seq<Row>, clauses: Clauses): (r: Result<(Option<Node>, seq<Sections>), Error>)
    requires IsChild(p, c)
    ensures r.Success? <==> AllAnnotate(Preorder(c), rows, clauses)
    ensures r.Success? ==> r.value.0.Some? && Revisited(Preorder(c), Preorder(r.value.0.value), r.value.1, rows, clauses)
    decreases p, 0
  {
    var sub :- AddAltAttributes(c, rows, clauses);
    Success((Some(sub.0), sub.1))
  }

  lemma AllAnnotateConcat(a: seq<Node>, b: seq<Node>, rows: seq<Row>, clauses: Clauses)
    ensures AllAnnotate(a + b, rows, clauses) <==> AllAnnotate(a, rows, clauses) && AllAnnotate(b, rows, clauses)
  {
    if AllAnnotate(a + b, rows, clauses) {
      forall i | 0 <= i < |a| ensures Annotates(a[i], rows, clauses) {
        assert a[i] == (a + b)[i];
      }
      forall i | 0 <= i < |b| ensures Annotates(b[i], rows, clauses) {
        assert b[i] == (a + b)[|a| + i];
      }
    }
    if AllAnnotate(a, rows, clauses) && AllAnnotate(b, rows, clauses) {
      forall i | 0 <= i < |a + b| ensures Annotates((a + b)[i], rows, clauses) {
        if i >= |a| { assert (a + b)[i] == b[i - |a|]; }
      }
    }
  }

  /** The pass succeeds at every node of the subtree under `n` exactly when
      it does at `n` and in both subtrees. */
  lemma AllAnnotateSplit(n: Node, rows: seq<Row>, clauses: Clauses)
    ensures AllAnnotate(Preorder(n), rows, clauses) <==>
      && Annotates(n, rows, clauses)
      && (n.left.Some? ==> AllAnnotate(Preorder(n.left.value), rows, clauses))
      && (n.right.Some? ==> AllAnnotate(Preorder(n.right.value), rows, clauses))
  {
    var L := if n.left.Some? then Preorder(n.left.value) else [];
    var R := if n.right.Some? then Preorder(n.right.value) else [];
    assert Preorder(n) == [n] + L + R;
    AllAnnotateConcat([n] + L, R, rows, clauses);
    AllAnnotateConcat([n], L, rows, clauses);
  }

  lemma RevisitedConcat(a1: seq<Node>, b1: seq<Node>, c1: seq<Sections>,
                        a2: seq<Node>, b2: seq<Node>, c2: seq<Sections>, rows: seq<Row>, clauses: Clauses)
    requires Revisited(a1, b1, c1, rows, clauses) && Revisited(a2, b2, c2, rows, clauses)
    ensures Revisited(a1 + a2, b1 + b2, c1 + c2, rows, clauses)
  {
    forall i | 0 <= i < |a1 + a2|
      ensures RevisitedNode((a1 + a2)[i], (b1 + b2)[i], (c1 + c2)[i], rows, clauses)
    {
      if i >= |a1| {
        assert (a1 + a2)[i] == a2[i - |a1|];
        assert (b1 + b2)[i] == b2[i - |a1|];
        assert (c1 + c2)[i] == c2[i - |a1|];
      }
    }
  }

  /** Putting the revisited node in front of its revisited subtrees. */
  lemma RevisitedJoined(n: Node, y: Node, ann: Sections, left: seq<Sections>, right: seq<Sections>,
                        rows: seq<Row>, clauses: Clauses)
    requires RevisitedNode(n, y, ann, rows, clauses)
    requires n.left.None? ==> left == []
    requires n.right.None? ==> right == []
    requires n.left.Some? ==> Revisited(Preorder(n.left.value), Preorder(y.left.value), left, rows, clauses)
    requires n.right.Some? ==> Revisited(Preorder(n.right.value), Preorder(y.right.value), right, rows, clauses)
    ensures Revisited(Preorder(n), Preorder(y), [ann] + left + right, rows, clauses)
  {
    var L := if n.left.Some? then Preorder(n.left.value) else [];
    var R := if n.right.Some? then Preorder(n.right.value) else [];
    var L' := if y.left.Some? then Preorder(y.left.value) else [];
    var R' := if y.right.Some? then Preorder(y.right.value) else [];
    assert Preorder(n) == [n] + L + R;
    assert Preorder(y) == [y] + L' + R';
    assert Revisited([n], [y], [ann], rows, clauses);
    RevisitedConcat([n], [y], [ann], L, L', left, rows, clauses);
    RevisitedConcat([n] + L, [y] + L', [ann] + left, R, R', right, rows, clauses);
  }

  // ---------------------------------------------------------------------
  // node_mapper

  /** The join table stacked on the scan table of one alternative plan. */
  function MappedRows(qp: seq<Node>, aqp: seq<Node>): (r: Result<seq<Row>, Error>)
    ensures r.Success? <==> JoinMap(qp, aqp).Success? && ScanMap(qp, aqp).Success?
    ensures r.Success? ==> multiset(r.value) == multiset(JoinMap(qp, aqp).value) + multiset(ScanMap(qp, aqp).value)
    ensures r.Success? ==> RowsFrom(r.value, qp)
  {
    var joins :- JoinMap(qp, aqp);
    var scans :- ScanMap(qp, aqp);
    JoinRowsFrom(qp, aqp);
    ScanRowsFrom(qp, aqp);
    RowsFromConcat(joins, scans, qp);
    Success(joins + scans)
  }

  lemma JoinRowsFrom(qp: seq<Node>, aqp: seq<Node>)
    requires JoinMap(qp, aqp).Success?
    ensures RowsFrom(JoinMap(qp, aqp).value, qp)
  {
    JoinMapRows(qp, aqp);
    var r := JoinMap(qp, aqp).value;
    forall k | 0 <= k < |r| ensures exists j :: 0 <= j < |qp| && ReadSide(qp[j]) == Success(r[k].qp) {
      var m := Joins(qp)[k];
      assert ReadSide(m).Success?;
      var j :| 0 <= j < |qp| && qp[j] == m;
    }
  }

  lemma ScanRowsFrom(qp: seq<Node>, aqp: seq<Node>)
    requires ScanMap(qp, aqp).Success?
    ensures RowsFrom(ScanMap(qp, aqp).value, qp)
  {
    ScanMapRows(qp, aqp);
    var r := ScanMap(qp, aqp).value;
    forall k | 0 <= k < |r| ensures exists j :: 0 <= j < |qp| && ReadSide(qp[j]) == Success(r[k].qp) {
      ScanRowFrom(qp, aqp, k);
    }
  }

  lemma ScanRowFrom(qp: seq<Node>, aqp: seq<Node>, k: nat)
    requires ScanMap(qp, aqp).Success? && k < |ScanMap(qp, aqp).value|
    ensures exists j :: 0 <= j < |qp| && ReadSide(qp[j]) == Success(ScanMap(qp, aqp).value[k].qp)
  {
    ScanMapPartners(qp, aqp, k);
    var i :| 0 <= i < |Scans(qp)| && ReadSide(Scans(qp)[i]) == Success(ScanMap(qp, aqp).value[k].qp);
    ScanFrom(qp, i);
  }

  lemma ScanFrom(qp: seq<Node>, i: nat)
    requires i < |Scans(qp)|
    ensures exists j :: 0 <= j < |qp| && qp[j] == Scans(qp)[i]
  {
    assert Scans(qp)[i] in qp;
  }

  lemma RowsFromConcat(a: seq<Row>, b: seq<Row>, nodes: seq<Node>)
    requires RowsFrom(a, nodes) && RowsFrom(b, nodes)
    ensures RowsFrom(a + b, nodes)
  {
    forall k | 0 <= k < |a + b| ensures KindsDiffer((a + b)[k]) {
      if k >= |a| { assert (a + b)[k] == b[k - |a|]; }
    }
    forall k | 0 <= k < |a + b|
      ensures exists j :: 0 <= j < |nodes| && ReadSide(nodes[j]) == Success((a + b)[k].qp)
    {
      var row := (a + b)[k];
      if k >= |a| {
        assert row == b[k - |a|];
        var j :| 0 <= j < |nodes| && ReadSide(nodes[j]) == Success(b[k - |a|].qp);
      } else {
        assert row == a[k];
        var j :| 0 <= j < |nodes| && ReadSide(nodes[j]) == Success(a[k].qp);
      }
    }
  }

  /** `node_mapper`: the join table and the scan table of one alternative
      plan against the chosen one, then the pass over the chosen tree,
      whose annotations are appended to `all_annotations`. */
  function NodeMapper(t: Tree, aqp: Tree): (r: Result<Tree, Error>)
    ensures r.Success? <==>
      && MappedRows(FullNodes(t), FullNodes(aqp)).Success?
      && AllAnnotate(FullNodes(t), MappedRows(FullNodes(t), FullNodes(aqp)).value, t.clauses)
    ensures r.Success? ==>
      && r.value.operations == t.operations && r.value.clauses == t.clauses
      && t.allAnnotations <= r.value.allAnnotations
  {
    var rows :- MappedRows(FullNodes(t), FullNodes(aqp));
    var walked :- AddAltAttributes(t.root, rows, t.clauses);
    Success(t.(root := walked.0, allAnnotations := t.allAnnotations + walked.1))
  }

  /** What `node_mapper` leaves in the tree: every node revisited with the
      rows of this alternative plan, the new annotations appended in
      preorder. */
  lemma NodeMapperRevisits(t: Tree, aqp: Tree)
    requires NodeMapper(t, aqp).Success?
    ensures var t2 := NodeMapper(t, aqp).value;
      Revisited(FullNodes(t), FullNodes(t2), t2.allAnnotations[|t.allAnnotations|..],
                MappedRows(FullNodes(t), FullNodes(aqp)).value, t.clauses)
  {
    var rows := MappedRows(FullNodes(t), FullNodes(aqp)).value;
    var walked := AddAltAttributes(t.root, rows, t.clauses).value;
    var all := t.allAnnotations + walked.1;
    assert all[|t.allAnnotations|..] == walked.1;
  }

  /** Nodes `b` are nodes `a` with the same numbers and fields, and every
      alternative list of `a` extended by at most `m` entries. */
  predicate GrewBy(a: seq<Node>, b: seq<Node>, m: nat) {
    && |b| == |a|
    && forall i :: 0 <= i < |a| ==>
         && b[i].index == a[i].index && b[i].data == a[i].data
         && a[i].altNode <= b[i].altNode
         && |b[i].altNode| <= |a[i].altNode| + m
  }

  /** One alternative plan adds at most one alternative per node, and only
      sound ones. */
  lemma NodeMapperSound(t: Tree, aqp: Tree)
    requires Numbered(FullNodes(t), 0) && AltsSound(FullNodes(t))
    requires NodeMapper(t, aqp).Success?
    ensures Grown(t, NodeMapper(t, aqp).value, 1)
  {
    var t2 := NodeMapper(t, aqp).value;
    var rows := MappedRows(FullNodes(t), FullNodes(aqp)).value;
    NodeMapperRevisits(t, aqp);
    RevisitedSound(FullNodes(t), FullNodes(t2), t2.allAnnotations[|t.allAnnotations|..], rows, t.clauses);
    assert |t2.allAnnotations| == |t.allAnnotations| + 1 * |FullNodes(t)|;
  }

  /** The pass keeps numbers and fields, adds at most one alternative per
      node, and keeps every node sound when the rows come from the nodes. */
  lemma RevisitedSound(before: seq<Node>, after: seq<Node>, anns: seq<Sections>, rows: seq<Row>, clauses: Clauses)
    requires Numbered(before, 0) && AltsSound(before) && RowsFrom(rows, before)
    requires Revisited(before, after, anns, rows, clauses)
    ensures Numbered(after, 0) && AltsSound(after) && GrewBy(before, after, 1)
  {
    forall i | 0 <= i < |before| ensures NodeAltsSound(after[i]) {
      AttachSound(before, 0, i, rows);
    }
  }

  /** The loop of `generate_altnodes` over the alternative trees:
      `node_mapper` on each tree in turn, each call seeing the tree the
      previous one left, the first failure raising out of the loop. */
  function MapAllSpec(t: Tree, aqps: seq<Tree>): Result<Tree, Error>
    decreases |aqps|
  {
    if |aqps| == 0 then Success(t)
    else
      var next :- NodeMapper(t, aqps[0]);
      MapAllSpec(next, aqps[1..])
  }

  /** One more turn of the loop, seen from position `i`. */
  lemma MapAllSpecStep(cur: Tree, aqps: seq<Tree>, i: nat, next: Result<Tree, Error>)
    requires i < |aqps| && next == NodeMapper(cur, aqps[i])
    ensures next.Failure? ==> MapAllSpec(cur, aqps[i..]) == Failure(next.error)
    ensures next.Success? ==> MapAllSpec(cur, aqps[i..]) == MapAllSpec(next.value, aqps[i + 1..])
  {
    assert aqps[i..][0] == aqps[i] && aqps[i..][1..] == aqps[i + 1..];
  }

  /** One `node_mapper` call of the loop in `generate_altnodes`. */
  method MapOne(t: Tree, aqp: Tree) returns (r: Result<Tree, Error>)
    requires Numbered(FullNodes(t), 0) && AltsSound(FullNodes(t))
    ensures r == NodeMapper(t, aqp)
    ensures r.Success? ==> Grown(t, r.value, 1)
  {
    r := NodeMapper(t, aqp);
    if r.Success? {
      NodeMapperSound(t, aqp);
    }
  }

  /** `node_mapper` for each alternative tree in turn; the first failure
      raises out of the loop. */
  method MapAll(t: Tree, aqps: seq<Tree>) returns (r: Result<Tree, Error>)
    requires Numbered(FullNodes(t), 0) && AltsSound(FullNodes(t))
    ensures r == MapAllSpec(t, aqps)
    ensures r.Success? ==> Grown(t, r.value, |aqps|)
  {
    var cur := t;
    GrownByNothing(t);
    for i := 0 to |aqps|
      invariant Grown(t, cur, i)
      invariant MapAllSpec(t, aqps) == MapAllSpec(cur, aqps[i..])
    {
      var next := MapOne(cur, aqps[i]);
      MapAllSpecStep(cur, aqps, i, next);
      if next.Failure? {
        return Failure(next.error);
      }
      GrownStep(t, cur, next.value, i);
      cur := next.value;
    }
    return Success(cur);
  }

  /** `u` is `t` after `m` more alternative plans: the nodes keep their
      numbers and fields, each gains at most `m` alternatives, all sound; the
      inventory and clause lists are unchanged; and one annotation per node
      and plan has been appended. */
  ghost predicate Grown(t: Tree, u: Tree, m: nat) {
    && Numbered(FullNodes(u), 0)
    && AltsSound(FullNodes(u))
    && GrewBy(FullNodes(t), FullNodes(u), m)
    && u.operations == t.operations && u.clauses == t.clauses
    && t.allAnnotations <= u.allAnnotations
    && |u.allAnnotations| == |t.allAnnotations| + m * |FullNodes(t)|
  }

  lemma GrownByNothing(t: Tree)
    requires Numbered(FullNodes(t), 0) && AltsSound(FullNodes(t))
    ensures Grown(t, t, 0)
  {
  }

  /** Growth by `i` plans followed by growth by one more. */
  lemma GrownStep(t: Tree, cur: Tree, u: Tree, i: nat)
    requires Grown(t, cur, i) && Grown(cur, u, 1)
    ensures Grown(t, u, i + 1)
  {
    GrewByTrans(FullNodes(t), FullNodes(cur), FullNodes(u), i, 1);
    AnnotationCount(t, cur, u, i);
  }

  lemma AnnotationCount(t: Tree, cur: Tree, u: Tree, i: nat)
    requires |FullNodes(cur)| == |FullNodes(t)|
    requires |cur.allAnnotations| == |t.allAnnotations| + i * |FullNodes(t)|
    requires |u.allAnnotations| == |cur.allAnnotations| + 1 * |FullNodes(cur)|
    ensures |u.allAnnotations| == |t.allAnnotations| + (i + 1) * |FullNodes(t)|
  {
    var n := |FullNodes(t)|;
    assert i * n + n == (i + 1) * n;
  }

  lemma GrewByTrans(a: seq<Node>, b: seq<Node>, c: seq<Node>, m1: nat, m2: nat)
    requires GrewBy(a, b, m1) && GrewBy(b, c, m2)
    ensures GrewBy(a, c, m1 + m2)
  {
  }

  /** Building one tree per alternative plan, with the chosen query's
      clause lists; the first plan that cannot be built raises. */
  function AltTrees(plans: seq<RawPlan>, clauses: Clauses): (r: Result<seq<Tree>, Error>)
    ensures r.Success? <==> forall k :: 0 <= k < |plans| ==> NewTree(plans[k], clauses).Success?
    ensures r.Success? ==> |r.value| == |plans|
    ensures r.Success? ==> forall k :: 0 <= k < |plans| ==> NewTree(plans[k], clauses) == Success(r.value[k])
  {
    ReadAll((raw: RawPlan) => NewTree(raw, clauses), plans)
  }

  /** `Tree.generate_altnodes` for the chosen tree `t`: one alternative
      plan per kind of its inventory, one tree per plan, then `node_mapper`
      for each tree in turn. A failing plan request leaves the settings
      switched off so far. */
  method GenerateAltNodes(explain: Explain, session: Flags, t: Tree) returns (r: Result<Tree, Error>, flags: Flags)
    requires Numbered(FullNodes(t), 0) && AltsSound(FullNodes(t))
    ensures RequestsSucceed(explain, session, t.operations, |t.operations|) ==> flags == AllOn
    ensures RequestsSucceed(explain, session, t.operations, |t.operations|) ==>
      var trees := AltTrees(RequestedPlans(explain, session, t.operations), t.clauses);
      r == if trees.Success? then MapAllSpec(t, trees.value) else Failure(trees.error)
    ensures !RequestsSucceed(explain, session, t.operations, |t.operations|) ==>
      && r == Failure(PlannerFailed)
      && exists k :: 0 <= k < |t.operations| && flags == FlagsForRequest(session, t.operations, k) && explain(flags).None?
    ensures r.Success? ==>
      && AltsSound(FullNodes(r.value))
      && GrewBy(FullNodes(t), FullNodes(r.value), |t.operations|)
      && r.value.operations == t.operations && r.value.clauses == t.clauses
      && t.allAnnotations <= r.value.allAnnotations
      && |r.value.allAnnotations| == |t.allAnnotations| + |t.operations| * |FullNodes(t)|
  {
    var plans;
    plans, flags := GetMultipleAqp(explain, session, t.operations);
    if plans.Failure? {
      r := Failure(plans.error);
      return;
    }
    var trees := AltTrees(plans.value, t.clauses);
    if trees.Failure? {
      r := Failure(trees.error);
      return;
    }
    r := MapAll(t, trees.value);
  }

  /** A freshly built tree meets the requirements of the pass. */
  lemma FreshTreeReady(raw: RawPlan, clauses: Clauses)
    requires NewTree(raw, clauses).Success?
    ensures Numbered(FullNodes(NewTree(raw, clauses).value), 0)
    ensures AltsSound(FullNodes(NewTree(raw, clauses).value))
  {
  }
}

=== FILE: fields.dfy ===
/** The field map of one planner node (the JSON object EXPLAIN emits for an
    operator, minus its "Plans" list) and the exceptions that reading it can
    raise. */
module Fields {
  import opened Wrappers
  import opened Text

  /** The JSON values the code reads: text, numbers and lists of text. */
  datatype Value = Str(s: string) | Num(x: real) | StrList(items: seq<string>)

  type FieldMap = map<string, Value>

  /** The Python exceptions the modelled code can raise. `WrongType` stands
      for the TypeError/AttributeError of a text operation on a non-text
      value (or arithmetic on a non-number). */
  datatype Error =
    | KeyMissing(key: string)
    | WrongType(key: string)
    | IndexOutOfRange
    | BadUnpack
    | Misaligned
    | UnsupportedStrategy(strategy: string)
    | PlannerFailed

  const NodeTypeKey := "Node Type"
  const JoinTypeKey := "Join Type"
  const TotalCostKey := "Total Cost"
  const RelationNameKey := "Relation Name"
  const IndexNameKey := "Index Name"
  const StrategyKey := "Strategy"
  const GroupKeyKey := "Group Key"
  const FilterKey := "Filter"
  const JoinFilterKey := "Join Filter"
  const MergeCondKey := "Merge Cond"
  const HashCondKey := "Hash Cond"
  const IndexCondKey := "Index Cond"
  const CteNameKey := "CTE Name"
  const CommandKey := "Command"
  const SortKeyKey := "Sort Key"
  const AliasKey := "Alias"

  /** `data[key]`: a KeyError when the key is absent. */
  function Get(data: FieldMap, key: string): (r: Result<Value, Error>)
    ensures r.Success? <==> key in data
    ensures r.Success? ==> r.value == data[key]
  {
    if key in data then Success(data[key]) else Failure(KeyMissing(key))
  }

  /** `data[key]` used as text. */
  function GetStr(data: FieldMap, key: string): (r: Result<string, Error>)
    ensures r.Success? <==> key in data && data[key].Str?
    ensures r.Success? ==> data[key] == Str(r.value)
  {
    if key !in data then Failure(KeyMissing(key))
    else if data[key].Str? then Success(data[key].s)
    else Failure(WrongType(key))
  }

  /** `data[key]` used as a number. */
  function GetNum(data: FieldMap, key: string): (r: Result<real, Error>)
    ensures r.Success? <==> key in data && data[key].Num?
    ensures r.Success? ==> data[key] == Num(r.value)
  {
    if key !in data then Failure(KeyMissing(key))
    else if data[key].Num? then Success(data[key].x)
    else Failure(WrongType(key))
  }

  /** Python's `sub in v`: a substring test on text, a membership test on a
      list, a TypeError on a number. */
  function In(sub: string, v: Value, key: string): (r: Result<bool, Error>)
    ensures r.Success? <==> !v.Num?
    ensures v.Str? ==> r == Success(Contains(v.s, sub))
    ensures v.StrList? ==> r == Success(sub in v.items)
  {
    match v
    case Str(s) => Success(Contains(s, sub))
    case StrList(items) => Success(sub in items)
    case Num(_) => Failure(WrongType(key))
  }

  /** The typed reads are the plain read followed by a type test: they
      yield exactly the payload `Get` finds, raise the same KeyError on a
      missing key and a TypeError on a value of the other kind, so no field
      reads both as text and as a number. */
  lemma TypedReads(data: FieldMap, key: string, s: string, x: real)
    ensures GetStr(data, key) == Success(s) <==> Get(data, key) == Success(Str(s))
    ensures GetNum(data, key) == Success(x) <==> Get(data, key) == Success(Num(x))
    ensures key !in data ==> GetStr(data, key) == Failure(KeyMissing(key)) && GetNum(data, key) == Failure(KeyMissing(key))
    ensures key in data && GetStr(data, key).Failure? ==> GetStr(data, key) == Failure(WrongType(key))
    ensures key in data && GetNum(data, key).Failure? ==> GetNum(data, key) == Failure(WrongType(key))
    ensures !(GetStr(data, key).Success? && GetNum(data, key).Success?)
  {
  }

  /** Python's `in`, characterised without reference to how it is computed:
      on text it holds exactly when `sub` occurs at some position, on a list
      exactly when some element equals `sub`, and on a number it raises. */
  lemma InIff(sub: string, v: Value, key: string)
    ensures v.Str? ==> (In(sub, v, key) == Success(true) <==> exists i: nat :: OccursAt(v.s, sub, i))
    ensures v.Str? ==> (In(sub, v, key) == Success(false) <==> forall i: nat :: !OccursAt(v.s, sub, i))
    ensures v.StrList? ==> (In(sub, v, key) == Success(true) <==> exists k :: 0 <= k < |v.items| && v.items[k] == sub)
    ensures v.Num? ==> In(sub, v, key) == Failure(WrongType(key))
  {
    if v.Str? {
      ContainsIff(v.s, sub);
    }
  }

  /** A node whose "Node Type" is present and is text. */
  predicate HasKind(data: FieldMap) {
    NodeTypeKey in data && data[NodeTypeKey].Str?
  }

  function KindOf(data: FieldMap): string
    requires HasKind(data)
  {
    data[NodeTypeKey].s
  }
}

=== FILE: plan_tree.dfy ===
/** The plan tree: the nested EXPLAIN (FORMAT JSON) plan turned into a binary
    tree of numbered nodes, the preorder node list that every later step
    walks, the node/edge lists handed to the graph drawing, and the
    inventory of join and scan kinds the tree uses. */
module PlanTree {
  import opened Wrappers
  import opened Text
  import opened Seqs
  import opened Fields
  import opened Annotation

  /** One operator of the planner's JSON output, with its "Plans" entry
      split out: `fields` is the object without "Plans" (the copy `Node`
      keeps after popping it), and `plans` is that entry, when present. */
  datatype RawPlan = RawPlan(fields: FieldMap, plans: SubPlans)

  /** The "Plans" entry of an operator: absent, or a list (possibly empty). */
  datatype SubPlans = NoPlans | PlansList(children: seq<RawPlan>)

  /** A tree node: its preorder number, its fields without "Plans", at most
      two children, the alternative kinds and costs found for it so far (kept
      in lockstep) and the clause annotations made for it. */
  datatype Node = Node(index: int, data: FieldMap, left: Option<Node>, right: Option<Node>,
                       altNode: seq<string>, altCost: seq<real>, annotation: Sections)

  /** The node, then its left subtree, then its right subtree: the order in
      which the tree is built, walked and listed. */
  function Preorder(n: Node): (r: seq<Node>)
    ensures |r| >= 1 && r[0] == n
    decreases n
  {
    [n] + (if n.left.Some? then Preorder(n.left.value) else [])
        + (if n.right.Some? then Preorder(n.right.value) else [])
  }

  /** The nodes of `s` carry the consecutive numbers `start`, `start + 1`, … */
  predicate Numbered(s: seq<Node>, start: int) {
    forall i :: 0 <= i < |s| ==> s[i].index == start + i
  }

  /** No node has an alternative or an annotation yet. */
  predicate Unannotated(s: seq<Node>) {
    forall i :: 0 <= i < |s| ==> s[i].altNode == [] && s[i].altCost == [] && s[i].annotation == map[]
  }

  /** A raw plan the builder can walk: every "Plans" list it reaches (through
      the first two children) is non-empty. */
  predicate WellShaped(raw: RawPlan)
    decreases raw
  {
    match raw.plans
    case NoPlans => true
    case PlansList(ps) =>
      |ps| > 0 && WellShaped(ps[0]) && (|ps| > 1 ==> WellShaped(ps[1]))
  }

  /** The field maps of a raw plan in preorder, following only the first two
      children of each operator. */
  function RawPreorder(raw: RawPlan): seq<FieldMap>
    decreases raw
  {
    [raw.fields]
      + (if raw.plans.PlansList? && |raw.plans.children| > 0 then RawPreorder(raw.plans.children[0]) else [])
      + (if raw.plans.PlansList? && |raw.plans.children| > 1 then RawPreorder(raw.plans.children[1]) else [])
  }

  /** `n` mirrors `raw` at every level: each node carries its operator's
      fields, has no child when the operator has no "Plans", a left child
      mirroring `Plans[0]`, and a right child, mirroring `Plans[1]`, exactly
      when there is a second child. */
  predicate SameShape(raw: RawPlan, n: Node)
    decreases raw
  {
    && n.data == raw.fields
    && match raw.plans
       case NoPlans => n.left.None? && n.right.None?
       case PlansList(ps) =>
         && |ps| > 0 && n.left.Some? && SameShape(ps[0], n.left.value)
         && (n.right.Some? <==> |ps| > 1)
         && (|ps| > 1 ==> n.right.Some? && SameShape(ps[1], n.right.value))
  }

  /** `n` is what building `raw` with the counter at `next` yields, and the
      counter ends at `after`. */
  predicate BuiltFrom(raw: RawPlan, next: int, n: Node, after: int) {
    && n.index == next && n.data == raw.fields
    && (n.left.None? <==> raw.plans.NoPlans?)
    && (n.right.Some? <==> raw.plans.PlansList? && |raw.plans.children| > 1)
    && SameShape(raw, n)
    && Numbered(Preorder(n), next)
    && after == next + |Preorder(n)|
    && Unannotated(Preorder(n))
    && CarriesFields(Preorder(n), RawPreorder(raw))
  }

  /** `Tree.build_tree` started with the counter at `next`: the built subtree
      and the counter after it. An empty "Plans" list raises at `Plans[0]`. */
  function Build(raw: RawPlan, next: int): (r: Result<(Node, int), Error>)
    ensures r.Success? <==> WellShaped(raw)
    ensures r.Success? ==> BuiltFrom(raw, next, r.value.0, r.value.1)
    decreases raw
  {
    var leaf := Node(next, raw.fields, None, None, [], [], map[]);
    match raw.plans
    case NoPlans => Success((leaf, next + 1))
    case PlansList(ps) =>
      if |ps| == 0 then Failure(IndexOutOfRange)
      else
        var builtLeft :- Build(ps[0], next + 1);
        if |ps| > 1 then
          var builtRight :- Build(ps[1], builtLeft.1);
          var n := leaf.(left := Some(builtLeft.0), right := Some(builtRight.0));
          BuiltTwo(raw, next, n, builtLeft, builtRight);
          Success((n, builtRight.1))
        else
          var n := leaf.(left := Some(builtLeft.0));
          BuiltOne(raw, next, n, builtLeft);
          Success((n, builtLeft.1))
  }

  /** The nodes of `s` carry the field maps `fields`, position by position. */
  predicate CarriesFields(s: seq<Node>, fields: seq<FieldMap>) {
    |s| == |fields| && forall i :: 0 <= i < |s| ==> s[i].data == fields[i]
  }

  lemma ConcatBuilt(a: seq<Node>, b: seq<Node>, fa: seq<FieldMap>, fb: seq<FieldMap>, start: int)
    requires Numbered(a, start) && Numbered(b, start + |a|)
    requires Unannotated(a) && Unannotated(b)
    requires CarriesFields(a, fa) && CarriesFields(b, fb)
    ensures Numbered(a + b, start) && Unannotated(a + b) && CarriesFields(a + b, fa + fb)
  {
    forall i | |a| <= i < |a + b| ensures (a + b)[i] == b[i - |a|] && (fa + fb)[i] == fb[i - |a|] {
    }
  }

  lemma BuiltOne(raw: RawPlan, next: int, n: Node, l: (Node, int))
    requires raw.plans.PlansList? && |raw.plans.children| == 1
    requires BuiltFrom(raw.plans.children[0], next + 1, l.0, l.1)
    requires n == Node(next, raw.fields, Some(l.0), None, [], [], map[])
    ensures BuiltFrom(raw, next, n, l.1)
  {
    assert Preorder(n) == [n] + Preorder(l.0);
    assert RawPreorder(raw) == [raw.fields] + RawPreorder(raw.plans.children[0]);
    ConcatBuilt([n], Preorder(l.0), [raw.fields], RawPreorder(raw.plans.children[0]), next);
  }

  lemma BuiltTwo(raw: RawPlan, next: int, n: Node, l: (Node, int), r: (Node, int))
    requires raw.plans.PlansList? && |raw.plans.children| > 1
    requires BuiltFrom(raw.plans.children[0], next + 1, l.0, l.1)
    requires BuiltFrom(raw.plans.children[1], l.1, r.0, r.1)
    requires n == Node(next, raw.fields, Some(l.0), Some(r.0), [], [], map[])
    ensures BuiltFrom(raw, next, n, r.1)
  {
    var L, R := Preorder(l.0), Preorder(r.0);
    var FL, FR := RawPreorder(raw.plans.children[0]), RawPreorder(raw.plans.children[1]);
    assert Preorder(n) == [n] + L + R;
    assert RawPreorder(raw) == [raw.fields] + FL + FR;
    ConcatBuilt([n], L, [raw.fields], FL, next);
    ConcatBuilt([n] + L, R, [raw.fields] + FL, FR, next);
  }

  /** The subtrees of a numbered, unannotated tree are numbered and
      unannotated too: the left one from the next number, the right one
      after the left subtree. */
  lemma SubtreesNumbered(n: Node, start: int)
    requires Numbered(Preorder(n), start) && Unannotated(Preorder(n))
    ensures n.left.Some? ==> Numbered(Preorder(n.left.value), start + 1) && Unannotated(Preorder(n.left.value))
    ensures n.right.Some? ==>
      var skip := if n.left.Some? then |Preorder(n.left.value)| else 0;
      Numbered(Preorder(n.right.value), start + 1 + skip) && Unannotated(Preorder(n.right.value))
  {
    var L, R := PreorderBlocks(n);
    SliceNumbered(Preorder(n), start, 1, L);
    SliceNumbered(Preorder(n), start, 1 + |L|, R);
  }

  /** Where the two subtrees sit in a node's preorder list. */
  lemma PreorderBlocks(n: Node) returns (L: seq<Node>, R: seq<Node>)
    ensures L == if n.left.Some? then Preorder(n.left.value) else []
    ensures R == if n.right.Some? then Preorder(n.right.value) else []
    ensures 1 + |L| + |R| == |Preorder(n)|
    ensures Preorder(n)[1..1 + |L|] == L && Preorder(n)[1 + |L|..1 + |L| + |R|] == R
  {
    L := if n.left.Some? then Preorder(n.left.value) else [];
    R := if n.right.Some? then Preorder(n.right.value) else [];
    assert Preorder(n) == [n] + L + R;
  }

  /** A block of consecutive nodes of a numbered, unannotated list is
      numbered from its offset and unannotated. */
  lemma SliceNumbered(P: seq<Node>, start: int, off: nat, B: seq<Node>)
    requires Numbered(P, start) && Unannotated(P)
    requires off + |B| <= |P| && P[off..off + |B|] == B
    ensures Numbered(B, start + off) && Unannotated(B)
  {
    forall i | 0 <= i < |B| ensures B[i] == P[off + i] {
      assert B[i] == P[off..off + |B|][i];
    }
  }

  /** What a successful build yields is fully determined: two trees that
      both mirror `raw`, are numbered in preorder from the same start and
      carry no alternatives or annotations are the same tree. */
  lemma {:induction false} ShapeUnique(raw: RawPlan, start: int, a: Node, b: Node)
    requires SameShape(raw, a) && SameShape(raw, b)
    requires Numbered(Preorder(a), start) && Unannotated(Preorder(a))
    requires Numbered(Preorder(b), start) && Unannotated(Preorder(b))
    ensures a == b
    decreases raw
  {
    SubtreesNumbered(a, start);
    SubtreesNumbered(b, start);
    assert a.index == start == b.index;
    if raw.plans.PlansList? {
      var ps := raw.plans.children;
      ShapeUnique(ps[0], start + 1, a.left.value, b.left.value);
      if |ps| > 1 {
        ShapeUnique(ps[1], start + 1 + |Preorder(a.left.value)|, a.right.value, b.right.value);
      }
    }
  }

  /** Building is deterministic in the strong sense: any tree and counter
      that satisfy `BuiltFrom` are the ones `Build` returns. */
  lemma BuiltFromUnique(raw: RawPlan, next: int, n: Node, after: int)
    requires BuiltFrom(raw, next, n, after)
    ensures Build(raw, next) == Success((n, after))
  {
    var r := Build(raw, next);
    assert r.Success? by {
      ShapeWellShaped(raw, n);
    }
    ShapeUnique(raw, next, n, r.value.0);
  }

  /** A tree can mirror only a plan that builds. */
  lemma {:induction false} ShapeWellShaped(raw: RawPlan, n: Node)
    requires SameShape(raw, n)
    ensures WellShaped(raw)
    decreases raw
  {
    if raw.plans.PlansList? {
      var ps := raw.plans.children;
      ShapeWellShaped(ps[0], n.left.value);
      if |ps| > 1 {
        ShapeWellShaped(ps[1], n.right.value);
      }
    }
  }

  /** Operators beyond the second child are never visited. */
  lemma BuildIgnoresExtraChildren(fields: FieldMap, ps: seq<RawPlan>, next: int)
    requires |ps| > 2
    ensures Build(RawPlan(fields, PlansList(ps)), next) == Build(RawPlan(fields, PlansList(ps[..2])), next)
  {
    assert ps[..2][0] == ps[0] && ps[..2][1] == ps[1];
  }

  /** A whole plan tree: the root, the join and scan kinds it uses, the
      clause lists of the parsed query, and the annotations collected so far
      (one per node visited by the attachment pass). */
  datatype Tree = Tree(root: Node, operations: seq<string>, clauses: Clauses, allAnnotations: seq<Sections>)

  /** `Tree.fullNodesList`: every node once, in preorder. The list holds the
      node objects themselves, so it always agrees with the tree. */
  function FullNodes(t: Tree): seq<Node> {
    Preorder(t.root)
  }

  /** A node whose kind is inventoried: a join (it has "Join Type") or a
      kind whose name contains "Scan". */
  predicate IsOperation(data: FieldMap)
    requires HasKind(data)
  {
    JoinTypeKey in data || Contains(KindOf(data), "Scan")
  }

  predicate AllKinded(nodes: seq<Node>) {
    forall i :: 0 <= i < |nodes| ==> HasKind(nodes[i].data)
  }

  /** Some node among `nodes` is an operation of kind `k`. */
  predicate UsesKind(nodes: seq<Node>, k: string) {
    exists i :: 0 <= i < |nodes| && HasKind(nodes[i].data) && IsOperation(nodes[i].data) && KindOf(nodes[i].data) == k
  }

  /** `Tree.get_operations_list` from position `acc` on: each node's kind is
      looked up first (a missing "Node Type" raises here, not while
      building), then a new join or scan kind is appended. */
  function InventoryFrom(nodes: seq<Node>, acc: seq<string>): (r: Result<seq<string>, Error>)
    requires NoDup(acc)
    ensures r.Success? <==> AllKinded(nodes)
    ensures r.Success? ==> NoDup(r.value) && acc <= r.value
    ensures r.Success? ==> forall k :: k in r.value <==> k in acc || UsesKind(nodes, k)
    decreases |nodes|
  {
    if |nodes| == 0 then Success(acc)
    else
      var kind :- GetStr(nodes[0].data, NodeTypeKey);
      var acc' := if kind !in acc && IsOperation(nodes[0].data) then acc + [kind] else acc;
      var r := InventoryFrom(nodes[1..], acc');
      InventoryStep(nodes, acc, acc', r);
      r
  }

  lemma InventoryStep(nodes: seq<Node>, acc: seq<string>, acc': seq<string>, r: Result<seq<string>, Error>)
    requires |nodes| > 0 && HasKind(nodes[0].data)
    requires acc' == if KindOf(nodes[0].data) !in acc && IsOperation(nodes[0].data)
                     then acc + [KindOf(nodes[0].data)] else acc
    requires r.Success? <==> AllKinded(nodes[1..])
    requires r.Success? ==> forall k :: k in r.value <==> k in acc' || UsesKind(nodes[1..], k)
    ensures r.Success? <==> AllKinded(nodes)
    ensures r.Success? ==> forall k :: k in r.value <==> k in acc || UsesKind(nodes, k)
  {
    if AllKinded(nodes[1..]) {
      forall i | 0 <= i < |nodes| ensures HasKind(nodes[i].data) {
        if i > 0 { assert nodes[i] == nodes[1..][i - 1]; }
      }
    }
    if r.Success? {
      forall k ensures k in r.value <==> k in acc || UsesKind(nodes, k) {
        if UsesKind(nodes[1..], k) {
          var i :| 0 <= i < |nodes[1..]| && HasKind(nodes[1..][i].data) && IsOperation(nodes[1..][i].data)
                   && KindOf(nodes[1..][i].data) == k;
          assert nodes[i + 1] == nodes[1..][i];
        }
        if UsesKind(nodes, k) && k !in acc {
          var i :| 0 <= i < |nodes| && HasKind(nodes[i].data) && IsOperation(nodes[i].data) && KindOf(nodes[i].data) == k;
          if i > 0 {
            assert nodes[1..][i - 1] == nodes[i];
          }
        }
      }
    }
  }

  /** `Tree.get_operations_list`. The source ends by rebuilding the list from
      a set, which keeps the same kinds in an unspecified order; the model
      keeps first-seen order. */
  function Inventory(nodes: seq<Node>): (r: Result<seq<string>, Error>)
    ensures r.Success? <==> AllKinded(nodes)
    ensures r.Success? ==> NoDup(r.value)
    ensures r.Success? ==> forall k :: k in r.value <==> UsesKind(nodes, k)
  {
    InventoryFrom(nodes, [])
  }

  /** `Tree.__init__`: build from the root with the counter at 0, then take
      the inventory. */
  function NewTree(raw: RawPlan, clauses: Clauses): (r: Result<Tree, Error>)
    ensures r.Success? <==> WellShaped(raw) && forall m :: m in RawPreorder(raw) ==> HasKind(m)
    ensures r.Success? ==>
      && r.value.root.data == raw.fields
      && Numbered(FullNodes(r.value), 0)
      && AllKinded(FullNodes(r.value))
      && Unannotated(FullNodes(r.value))
      && r.value.allAnnotations == []
      && r.value.clauses == clauses
      && NoDup(r.value.operations)
      && (forall k :: k in r.value.operations <==> UsesKind(FullNodes(r.value), k))
    ensures r.Success? ==>
      && SameShape(raw, r.value.root)
      && CarriesFields(FullNodes(r.value), RawPreorder(raw))
      && Build(raw, 0) == Success((r.value.root, |FullNodes(r.value)|))
  {
    var built :- Build(raw, 0);
    var ops :- InventoryKinded(built.0, raw);
    Success(Tree(built.0, ops, clauses, []))
  }

  /** The inventory of a freshly built tree, whose nodes carry the raw
      plan's field maps in preorder. */
  function InventoryKinded(root: Node, raw: RawPlan): (r: Result<seq<string>, Error>)
    requires CarriesFields(Preorder(root), RawPreorder(raw))
    ensures r.Success? <==> forall m :: m in RawPreorder(raw) ==> HasKind(m)
    ensures r == Inventory(Preorder(root))
  {
    var r := Inventory(Preorder(root));
    assert AllKinded(Preorder(root)) <==> forall m :: m in RawPreorder(raw) ==> HasKind(m) by {
      if !AllKinded(Preorder(root)) {
        var i :| 0 <= i < |Preorder(root)| && !HasKind(Preorder(root)[i].data);
        assert RawPreorder(raw)[i] in RawPreorder(raw);
      }
    }
    r
  }

  /** The per-node tuple handed to the graph drawing. */
  datatype NodeInfo = NodeInfo(index: int, cost: Value, kind: Value, altNode: seq<string>, altCost: seq<real>)

  /** `n` is a direct child of `p`. */
  predicate IsChild(p: Node, n: Node) {
    p.left == Some(n) || p.right == Some(n)
  }

  predicate DescribesNodes(infos: seq<NodeInfo>, nodes: seq<Node>) {
    && |infos| == |nodes|
    && forall i :: 0 <= i < |nodes| ==>
         && TotalCostKey in nodes[i].data && NodeTypeKey in nodes[i].data
         && infos[i] == NodeInfo(nodes[i].index, nodes[i].data[TotalCostKey], nodes[i].data[NodeTypeKey],
                                 nodes[i].altNode, nodes[i].altCost)
  }

  /** Edge `k` leads to the node after the `k`th in preorder, from a parent
      listed no later than the `k`th. */
  predicate DescribesEdges(edges: seq<(int, int)>, nodes: seq<Node>) {
    && |edges| + 1 == |nodes|
    && forall k :: 0 <= k < |edges| ==>
         && edges[k].1 == nodes[k + 1].index
         && exists j :: 0 <= j <= k && IsChild(nodes[j], nodes[k + 1]) && edges[k].0 == nodes[j].index
  }

  predicate HasInfoFields(nodes: seq<Node>) {
    forall i :: 0 <= i < |nodes| ==> TotalCostKey in nodes[i].data && NodeTypeKey in nodes[i].data
  }

  /** Edge list and tuples of the subtree under child `c` of `p`, as
      `get_networkx_info` lists them: the edge into `c` first. */
  predicate ChildBlock(p: Node, c: Node, infos: seq<NodeInfo>, edges: seq<(int, int)>) {
    && IsChild(p, c)
    && DescribesNodes(infos, Preorder(c))
    && |edges| == |Preorder(c)|
    && edges[0] == (p.index, c.index)
    && DescribesEdges(edges[1..], Preorder(c))
  }

  /** `Tree.get_networkx_info`: one tuple per node in preorder and one
      (parent, child) edge per non-root node, the edge listed just before
      the child's own tuple. A node without "Total Cost" or "Node Type"
      raises. */
  function NetworkxInfo(n: Node): (r: Result<(seq<NodeInfo>, seq<(int, int)>), Error>)
    ensures r.Success? <==> HasInfoFields(Preorder(n))
    ensures r.Success? ==> DescribesNodes(r.value.0, Preorder(n)) && DescribesEdges(r.value.1, Preorder(n))
    decreases n
  {
    InfoFieldsSplit(n);
    var cost :- Get(n.data, TotalCostKey);
    var kind :- Get(n.data, NodeTypeKey);
    var here := NodeInfo(n.index, cost, kind, n.altNode, n.altCost);
    var fromLeft :- if n.left.Some? then ChildInfo(n, n.left.value) else Success(([], []));
    var fromRight :- if n.right.Some? then ChildInfo(n, n.right.value) else Success(([], []));
    NodesJoined(n, here, fromLeft.0, fromRight.0);
    EdgesJoined(n, fromLeft, fromRight);
    Success(([here] + fromLeft.0 + fromRight.0, fromLeft.1 + fromRight.1))
  }

  /** The edge to child `c` of `p`, then everything `c`'s subtree lists. */
  function ChildInfo(p: Node, c: Node): (r: Result<(seq<NodeInfo>, seq<(int, int)>), Error>)
    requires IsChild(p, c)
    ensures r.Success? <==> HasInfoFields(Preorder(c))
    ensures r.Success? ==> ChildBlock(p, c, r.value.0, r.value.1)
    decreases p, 0
  {
    var sub :- NetworkxInfo(c);
    var edges := [(p.index, c.index)] + sub.1;
    assert edges[1..] == sub.1;
    Success((sub.0, edges))
  }

  lemma InfoFieldsSplit(n: Node)
    ensures HasInfoFields(Preorder(n)) <==>
      && TotalCostKey in n.data && NodeTypeKey in n.data
      && (n.left.Some? ==> HasInfoFields(Preorder(n.left.value)))
      && (n.right.Some? ==> HasInfoFields(Preorder(n.right.value)))
  {
    var L := if n.left.Some? then Preorder(n.left.value) else [];
    var R := if n.right.Some? then Preorder(n.right.value) else [];
    assert Preorder(n) == [n] + L + R;
    InfoFieldsConcat([n] + L, R);
    InfoFieldsConcat([n], L);
  }

  lemma InfoFieldsConcat(a: seq<Node>, b: seq<Node>)
    ensures HasInfoFields(a + b) <==> HasInfoFields(a) && HasInfoFields(b)
  {
    if HasInfoFields(a + b) {
      forall i | 0 <= i < |a| ensures TotalCostKey in a[i].data && NodeTypeKey in a[i].data {
        assert (a + b)[i] == a[i];
      }
      forall i | 0 <= i < |b| ensures TotalCostKey in b[i].data && NodeTypeKey in b[i].data {
        assert (a + b)[|a| + i] == b[i];
      }
    }
  }

  lemma NodesJoined(n: Node, here: NodeInfo, left: seq<NodeInfo>, right: seq<NodeInfo>)
    requires TotalCostKey in n.data && NodeTypeKey in n.data
    requires here == NodeInfo(n.index, n.data[TotalCostKey], n.data[NodeTypeKey], n.altNode, n.altCost)
    requires n.left.None? ==> left == []
    requires n.right.None? ==> right == []
    requires n.left.Some? ==> DescribesNodes(left, Preorder(n.left.value))
    requires n.right.Some? ==> DescribesNodes(right, Preorder(n.right.value))
    ensures DescribesNodes([here] + left + right, Preorder(n))
  {
    var L, R := PreorderSplit(n);
    assert DescribesNodes([here], [n]);
    DescribesConcat([here], left, [n], L);
    DescribesConcat([here] + left, right, [n] + L, R);
  }

  /** A node's preorder list is the node, its left block, its right block. */
  lemma PreorderSplit(n: Node) returns (L: seq<Node>, R: seq<Node>)
    ensures L == if n.left.Some? then Preorder(n.left.value) else []
    ensures R == if n.right.Some? then Preorder(n.right.value) else []
    ensures Preorder(n) == [n] + L + R
  {
    L := if n.left.Some? then Preorder(n.left.value) else [];
    R := if n.right.Some? then Preorder(n.right.value) else [];
  }

  lemma DescribesConcat(a: seq<NodeInfo>, b: seq<NodeInfo>, x: seq<Node>, y: seq<Node>)
    requires DescribesNodes(a, x) && DescribesNodes(b, y)
    ensures DescribesNodes(a + b, x + y)
  {
    forall i | |x| <= i < |x + y| ensures (x + y)[i] == y[i - |x|] && (a + b)[i] == b[i - |x|] {
    }
  }

  lemma EdgesJoined(n: Node, fromLeft: (seq<NodeInfo>, seq<(int, int)>), fromRight: (seq<NodeInfo>, seq<(int, int)>))
    requires n.left.None? ==> fromLeft == ([], [])
    requires n.right.None? ==> fromRight == ([], [])
    requires n.left.Some? ==> ChildBlock(n, n.left.value, fromLeft.0, fromLeft.1)
    requires n.right.Some? ==> ChildBlock(n, n.right.value, fromRight.0, fromRight.1)
    ensures DescribesEdges(fromLeft.1 + fromRight.1, Preorder(n))
  {
    var P := Preorder(n);
    var E := fromLeft.1 + fromRight.1;
    var L := if n.left.Some? then Preorder(n.left.value) else [];
    var R := if n.right.Some? then Preorder(n.right.value) else [];
    assert P == [n] + L + R;
    assert |fromLeft.1| == |L| && |fromRight.1| == |R|;
    forall k | 0 <= k < |E|
      ensures E[k].1 == P[k + 1].index
      ensures exists j :: 0 <= j <= k && IsChild(P[j], P[k + 1]) && E[k].0 == P[j].index
    {
      if k < |fromLeft.1| {
        EdgeInLeft(n, fromLeft.0, fromLeft.1, fromRight.1, k);
      } else {
        EdgeInRight(n, fromLeft.1, fromRight.0, fromRight.1, k);
      }
    }
  }

  /** An edge of the left child's block, listed first. */
  lemma EdgeInLeft(n: Node, infos: seq<NodeInfo>, left: seq<(int, int)>, right: seq<(int, int)>, k: int)
    requires n.left.Some? && ChildBlock(n, n.left.value, infos, left)
    requires 0 <= k < |left|
    ensures k + 1 < |Preorder(n)|
    ensures (left + right)[k].1 == Preorder(n)[k + 1].index
    ensures exists j :: 0 <= j <= k && IsChild(Preorder(n)[j], Preorder(n)[k + 1])
                && (left + right)[k].0 == Preorder(n)[j].index
  {
    var P := Preorder(n);
    var L := Preorder(n.left.value);
    assert P[1..1 + |L|] == L;
    assert (left + right)[..|left|] == left;
    EdgeInBlock(P, left + right, 0, n, n.left.value, left, k);
  }

  /** An edge of the right child's block, listed after the `|left|` edges
      of the left child's. */
  lemma EdgeInRight(n: Node, left: seq<(int, int)>, infos: seq<NodeInfo>, right: seq<(int, int)>, k: int)
    requires n.right.Some? && ChildBlock(n, n.right.value, infos, right)
    requires |left| + |right| + 1 == |Preorder(n)|
    requires |left| <= k < |left| + |right|
    ensures (left + right)[k].1 == Preorder(n)[k + 1].index
    ensures exists j :: 0 <= j <= k && IsChild(Preorder(n)[j], Preorder(n)[k + 1])
                && (left + right)[k].0 == Preorder(n)[j].index
  {
    var P := Preorder(n);
    var R := Preorder(n.right.value);
    assert P[|left| + 1..] == R;
    assert (left + right)[|left|..] == right;
    EdgeInBlock(P, left + right, |left|, n, n.right.value, right, k);
  }

  /** Edge `k` of a listing falls inside the block of child `c` of the root
      `p`, whose nodes follow position `off` and whose edges start at
      position `off`: it leads to the node after the `k`th, from a parent
      no later. */
  lemma EdgeInBlock(P: seq<Node>, E: seq<(int, int)>, off: nat, p: Node, c: Node, edges: seq<(int, int)>, k: int)
    requires IsChild(p, c) && |edges| == |Preorder(c)| && edges[0] == (p.index, c.index)
    requires DescribesEdges(edges[1..], Preorder(c))
    requires |P| > off + |edges| && |E| >= off + |edges| && P[0] == p
    requires P[off + 1..off + 1 + |edges|] == Preorder(c)
    requires E[off..off + |edges|] == edges
    requires off <= k < off + |edges|
    ensures E[k].1 == P[k + 1].index
    ensures exists j :: 0 <= j <= k && IsChild(P[j], P[k + 1]) && E[k].0 == P[j].index
  {
    var C := Preorder(c);
    var Ps, Es := P[off + 1..off + 1 + |edges|], E[off..off + |edges|];
    var m := k - off;
    assert E[k] == Es[m] == edges[m];
    assert P[k + 1] == Ps[m] == C[m];
    if m == 0 {
      assert IsChild(P[0], P[k + 1]);
    } else {
      var sub := edges[1..];
      assert edges[m] == sub[m - 1];
      var j :| 0 <= j <= m - 1 && IsChild(C[j], C[m]) && sub[m - 1].0 == C[j].index;
      assert P[off + 1 + j] == Ps[j] == C[j];
    }
  }
}

=== FILE: planner.dfy ===
/** Alternative-plan generation as a state machine over the six planner
    settings `enable_nestloop`, `enable_hashjoin`, `enable_mergejoin`,
    `enable_indexonlyscan`, `enable_indexscan` and `enable_bitmapscan`.
    Asking PostgreSQL for a plan is an oracle from the current settings to
    a plan (or to a failure of the request). */
module Planner {
  import opened Wrappers
  import opened Fields
  import opened PlanTree

  /** One planner setting the code switches. */
  datatype Setting = NestLoop | HashJoin | MergeJoin | IndexOnlyScan | IndexScan | BitmapScan

  /** The session's six settings, `true` meaning enabled. */
  datatype Flags = Flags(nestLoop: bool, hashJoin: bool, mergeJoin: bool,
                         indexOnlyScan: bool, indexScan: bool, bitmapScan: bool)

  const AllOn := Flags(true, true, true, true, true, true)

  function Enabled(f: Flags, s: Setting): bool {
    match s
    case NestLoop => f.nestLoop
    case HashJoin => f.hashJoin
    case MergeJoin => f.mergeJoin
    case IndexOnlyScan => f.indexOnlyScan
    case IndexScan => f.indexScan
    case BitmapScan => f.bitmapScan
  }

  /** The six-branch table of `get_multiple_aqp`: the setting a node kind
      switches off, if any. "Bitmap Scan" is the kind name the table uses. */
  function SettingFor(kind: string): Option<Setting> {
    if kind == "Nested Loop" then Some(NestLoop)
    else if kind == "Hash Join" then Some(HashJoin)
    else if kind == "Merge Join" then Some(MergeJoin)
    else if kind == "Index Only Scan" then Some(IndexOnlyScan)
    else if kind == "Index Scan" then Some(IndexScan)
    else if kind == "Bitmap Scan" then Some(BitmapScan)
    else None
  }

  /** One `SET ENABLE_… TO OFF` for `kind`, or nothing for a kind outside
      the table. */
  function SwitchOff(f: Flags, kind: string): (r: Flags)
    ensures forall s :: Enabled(r, s) <==> Enabled(f, s) && SettingFor(kind) != Some(s)
  {
    match SettingFor(kind)
    case None => f
    case Some(NestLoop) => f.(nestLoop := false)
    case Some(HashJoin) => f.(hashJoin := false)
    case Some(MergeJoin) => f.(mergeJoin := false)
    case Some(IndexOnlyScan) => f.(indexOnlyScan := false)
    case Some(IndexScan) => f.(indexScan := false)
    case Some(BitmapScan) => f.(bitmapScan := false)
  }

  /** The settings after switching off the kinds of `ops` one after another. */
  function SwitchedOff(f: Flags, ops: seq<string>): Flags
    decreases |ops|
  {
    if |ops| == 0 then f else SwitchOff(SwitchedOff(f, ops[..|ops| - 1]), ops[|ops| - 1])
  }

  /** A setting is on after the kinds `ops` have been switched off exactly
      when it was on before and no kind of `ops` maps to it. */
  lemma {:induction false} SwitchedOffExactly(f: Flags, ops: seq<string>, s: Setting)
    ensures Enabled(SwitchedOff(f, ops), s) <==>
      Enabled(f, s) && forall k :: 0 <= k < |ops| ==> SettingFor(ops[k]) != Some(s)
    decreases |ops|
  {
    if |ops| > 0 {
      var init := ops[..|ops| - 1];
      SwitchedOffExactly(f, init, s);
      assert forall k :: 0 <= k < |init| ==> init[k] == ops[k];
    }
  }

  /** `g` has every setting off that `f` has off. */
  predicate AtMost(g: Flags, f: Flags) {
    forall s :: Enabled(g, s) ==> Enabled(f, s)
  }

  /** No setting is switched back on while kinds are being switched off: the
      settings after a longer prefix of the kinds are at most those after a
      shorter one. */
  lemma {:induction false} SwitchingOnlyClears(f: Flags, ops: seq<string>, i: nat, j: nat)
    requires i <= j <= |ops|
    ensures AtMost(SwitchedOff(f, ops[..j]), SwitchedOff(f, ops[..i]))
  {
    forall s | Enabled(SwitchedOff(f, ops[..j]), s) ensures Enabled(SwitchedOff(f, ops[..i]), s) {
      SwitchedOffExactly(f, ops[..j], s);
      SwitchedOffExactly(f, ops[..i], s);
      forall k | 0 <= k < |ops[..i]| ensures SettingFor(ops[..i][k]) != Some(s) {
        assert ops[..i][k] == ops[..j][k];
      }
    }
  }

  /** A kind outside the table (a sequential scan, say) leaves every setting
      as it was, although a plan is still requested for it. */
  lemma UnlistedKindChangesNothing(f: Flags, kind: string)
    requires SettingFor(kind).None?
    ensures SwitchOff(f, kind) == f
  {
  }

  /** Fetching a plan with the given settings: the plan, or `None` when the
      request or the unpacking of its JSON result fails. */
  type Explain = Flags -> Option<RawPlan>

  /** The settings in force for the `k`th request. */
  function FlagsForRequest(session: Flags, ops: seq<string>, k: nat): Flags
    requires k < |ops|
  {
    SwitchedOff(session, ops[..k + 1])
  }

  /** Every request up to (not including) the `n`th returns a plan. */
  predicate RequestsSucceed(explain: Explain, session: Flags, ops: seq<string>, n: nat)
    requires n <= |ops|
  {
    forall k :: 0 <= k < n ==> explain(FlagsForRequest(session, ops, k)).Some?
  }

  /** The plans the requests return when every one of them succeeds. */
  function RequestedPlans(explain: Explain, session: Flags, ops: seq<string>): (r: seq<RawPlan>)
    requires RequestsSucceed(explain, session, ops, |ops|)
    ensures |r| == |ops|
    ensures forall k :: 0 <= k < |ops| ==> explain(FlagsForRequest(session, ops, k)) == Some(r[k])
  {
    seq(|ops|, k requires 0 <= k < |ops| => explain(FlagsForRequest(session, ops, k)).value)
  }

  /** `Tree.get_multiple_aqp`: for each kind in turn, switch its setting off
      (earlier kinds stay off) and request a plan; after the loop switch all
      six settings back on. Returns the plans and the session settings left
      behind; a failed request leaves the settings switched off so far. */
  method GetMultipleAqp(explain: Explain, session: Flags, ops: seq<string>)
    returns (r: Result<seq<RawPlan>, Error>, flags: Flags)
    ensures r.Success? <==> RequestsSucceed(explain, session, ops, |ops|)
    ensures r.Success? ==>
      && |r.value| == |ops|
      && (forall k :: 0 <= k < |ops| ==> explain(FlagsForRequest(session, ops, k)) == Some(r.value[k]))
      && flags == AllOn
    ensures r.Success? ==> r.value == RequestedPlans(explain, session, ops)
    ensures r.Failure? ==> r.error == PlannerFailed
    ensures r.Failure? ==>
      exists k :: 0 <= k < |ops| && RequestsSucceed(explain, session, ops, k)
        && flags == FlagsForRequest(session, ops, k) && explain(flags).None?
  {
    var plans: seq<RawPlan> := [];
    flags := session;
    var i := 0;
    while i < |ops|
      invariant 0 <= i <= |ops|
      invariant flags == SwitchedOff(session, ops[..i])
      invariant |plans| == i
      invariant forall k :: 0 <= k < i ==> explain(FlagsForRequest(session, ops, k)) == Some(plans[k])
    {
      assert ops[..i + 1][..i] == ops[..i];
      flags := SwitchOff(flags, ops[i]);
      var plan := explain(flags);
      if plan.None? {
        assert flags == FlagsForRequest(session, ops, i);
        assert RequestsSucceed(explain, session, ops, i);
        assert !explain(FlagsForRequest(session, ops, i)).Some?;
        r := Failure(PlannerFailed);
        return;
      }
      plans := plans + [plan.value];
      i := i + 1;
    }
    flags := AllOn;
    r := Success(plans);
  }
}

=== FILE: seqs.dfy ===
/** Generic sequence vocabulary shared by the tree, the alignment and the
    attachment modules. */
module Seqs {

  /** No element occurs twice. */
  predicate NoDup<T(==)>(s: seq<T>) {
    forall i, j :: 0 <= i < j < |s| ==> s[i] != s[j]
  }

  /** The elements of `s` satisfying `keep`, in their original order. */
  function Filter<T>(keep: T -> bool, s: seq<T>): (r: seq<T>)
    ensures |r| <= |s|
    ensures forall i :: 0 <= i < |r| ==> r[i] in s && keep(r[i])
  {
    if |s| == 0 then []
    else (if keep(s[0]) then [s[0]] else []) + Filter(keep, s[1..])
  }

  lemma {:induction false} FilterConcat<T>(keep: T -> bool, a: seq<T>, b: seq<T>)
    ensures Filter(keep, a + b) == Filter(keep, a) + Filter(keep, b)
  {
    if |a| == 0 {
      assert a + b == b;
    } else {
      assert (a + b)[1..] == a[1..] + b;
      FilterConcat(keep, a[1..], b);
    }
  }

  /** Filtering keeps the multiset of kept elements, so two orderings of one
      multiset filter to two orderings of one multiset. */
  lemma {:induction false} FilterMultiset<T>(keep: T -> bool, a: seq<T>, b: seq<T>)
    requires multiset(a) == multiset(b)
    ensures multiset(Filter(keep, a)) == multiset(Filter(keep, b))
  {
    forall x ensures multiset(Filter(keep, a))[x] == multiset(Filter(keep, b))[x] {
      FilterCount(keep, a, x);
      FilterCount(keep, b, x);
    }
  }

  lemma {:induction false} FilterCount<T>(keep: T -> bool, s: seq<T>, x: T)
    ensures multiset(Filter(keep, s))[x] == if keep(x) then multiset(s)[x] else 0
  {
    if |s| > 0 {
      assert s == [s[0]] + s[1..];
      FilterCount(keep, s[1..], x);
    }
  }

  /** `FilterCount` for every element at once. */
  lemma FilterCounts<T>(keep: T -> bool, s: seq<T>)
    ensures forall x :: multiset(Filter(keep, s))[x] == if keep(x) then multiset(s)[x] else 0
  {
    forall x {
      FilterCount(keep, s, x);
    }
  }

  /** Filtering a prefix one element longer adds that element when kept. */
  lemma FilterPrefixStep<T>(keep: T -> bool, s: seq<T>, i: nat)
    requires i < |s|
    ensures Filter(keep, s[..i + 1]) == Filter(keep, s[..i]) + (if keep(s[i]) then [s[i]] else [])
  {
    assert s[..i + 1] == s[..i] + [s[i]];
    FilterConcat(keep, s[..i], [s[i]]);
    assert [s[i]][1..] == [];
  }

  /** What a prefix keeps is a prefix of what the whole sequence keeps. */
  lemma FilterPrefixSplit<T>(keep: T -> bool, s: seq<T>, i: nat)
    requires i <= |s|
    ensures Filter(keep, s) == Filter(keep, s[..i]) + Filter(keep, s[i..])
  {
    assert s == s[..i] + s[i..];
    FilterConcat(keep, s[..i], s[i..]);
  }

  /** What a shorter prefix keeps is a prefix of what a longer one keeps. */
  lemma FilterPrefixMono<T>(keep: T -> bool, s: seq<T>, i: nat, n: nat)
    requires i <= n <= |s|
    ensures Filter(keep, s[..i]) <= Filter(keep, s[..n])
  {
    var head := s[..n];
    assert head[..i] == s[..i];
    FilterPrefixSplit(keep, head, i);
    PrefixOfConcat(Filter(keep, s[..i]), Filter(keep, head[i..]));
  }

  lemma PrefixOfConcat<T>(a: seq<T>, b: seq<T>)
    ensures a <= a + b
  {
    assert (a + b)[..|a|] == a;
  }
}

=== FILE: text.dfy ===
/** The handful of Python `str` operations the plan code relies on:
    `sub in s`, `s.split(c)`, `s.strip()`, `s[1:-1]` and the code-point
    ordering `<=` that `sort_values` uses on text columns. */
module Text {

  predicate IsPrefix(p: string, s: string) {
    |p| <= |s| && p == s[..|p|]
  }

  /** Python's `sub in s` for two strings. */
  predicate Contains(s: string, sub: string)
    decreases |s|
  {
    IsPrefix(sub, s) || (|s| > 0 && Contains(s[1..], sub))
  }

  /** `sub` occurs in `s` starting at position `i`. */
  predicate OccursAt(s: string, sub: string, i: nat) {
    i + |sub| <= |s| && s[i..i + |sub|] == sub
  }

  lemma ContainsAt(s: string, sub: string, i: nat)
    requires OccursAt(s, sub, i)
    ensures Contains(s, sub)
    decreases i
  {
    if i > 0 {
      assert s[1..][i - 1..i - 1 + |sub|] == sub;
      ContainsAt(s[1..], sub, i - 1);
    }
  }

  /** The converse of `ContainsAt`: `sub in s` holds only when `sub`
      occurs at some position of `s`. */
  lemma {:induction false} ContainsOccurs(s: string, sub: string)
    requires Contains(s, sub)
    ensures exists i: nat :: OccursAt(s, sub, i)
    decreases |s|
  {
    if IsPrefix(sub, s) {
      assert OccursAt(s, sub, 0);
    } else {
      ContainsOccurs(s[1..], sub);
      var j: nat :| OccursAt(s[1..], sub, j);
      assert s[1..][j..j + |sub|] == s[j + 1..j + 1 + |sub|];
      assert OccursAt(s, sub, j + 1);
    }
  }

  /** Python's `sub in s` holds exactly when `sub` occurs somewhere in `s`. */
  lemma ContainsIff(s: string, sub: string)
    ensures Contains(s, sub) <==> exists i: nat :: OccursAt(s, sub, i)
  {
    if Contains(s, sub) {
      ContainsOccurs(s, sub);
    }
    forall i: nat | OccursAt(s, sub, i) {
      ContainsAt(s, sub, i);
    }
  }

  /** Number of occurrences of `c` in `s`. */
  function Count(s: string, c: char): (n: nat)
    ensures n == 0 <==> c !in s
  {
    if |s| == 0 then 0 else (if s[0] == c then 1 else 0) + Count(s[1..], c)
  }

  /** Python's `s.split(c)` for a one-character separator: every occurrence
      splits, empty pieces are kept, so there is always at least one piece. */
  function SplitOn(s: string, c: char): (r: seq<string>)
    ensures |r| == Count(s, c) + 1
    ensures forall k :: 0 <= k < |r| ==> c !in r[k]
    ensures IsPrefix(r[0], s)
    ensures |r[0]| < |s| ==> s[|r[0]|] == c
  {
    if |s| == 0 then [""]
    else
      var rest := SplitOn(s[1..], c);
      if s[0] == c then [""] + rest
      else [[s[0]] + rest[0]] + rest[1..]
  }

  /** The whitespace set of Python's `str.isspace`. */
  predicate IsSpace(ch: char) {
    ch == ' ' || ('\t' <= ch <= '\r') || ('\U{1c}' <= ch <= '\U{1f}')
    || ch == '\U{85}' || ch == '\U{a0}' || ch == '\U{1680}'
    || ('\U{2000}' <= ch <= '\U{200a}') || ch == '\U{2028}' || ch == '\U{2029}'
    || ch == '\U{202f}' || ch == '\U{205f}' || ch == '\U{3000}'
  }

  function StripLeft(s: string): (r: string)
    ensures |r| <= |s| && r == s[|s| - |r|..]
    ensures forall i :: 0 <= i < |s| - |r| ==> IsSpace(s[i])
    ensures |r| > 0 ==> !IsSpace(r[0])
  {
    if |s| > 0 && IsSpace(s[0]) then StripLeft(s[1..]) else s
  }

  function StripRight(s: string): (r: string)
    ensures IsPrefix(r, s)
    ensures forall i :: |r| <= i < |s| ==> IsSpace(s[i])
    ensures |r| > 0 ==> !IsSpace(r[|r| - 1])
  {
    if |s| > 0 && IsSpace(s[|s| - 1]) then StripRight(s[..|s| - 1]) else s
  }

  /** The pieces put back together with `c` between neighbours. */
  function JoinWith(pieces: seq<string>, c: char): string
    requires |pieces| > 0
  {
    if |pieces| == 1 then pieces[0] else pieces[0] + [c] + JoinWith(pieces[1..], c)
  }

  /** Splitting loses nothing: joining the pieces with the separator gives
      back the text. */
  lemma {:induction false} SplitOnJoin(s: string, c: char)
    ensures JoinWith(SplitOn(s, c), c) == s
    decreases |s|
  {
    if |s| > 0 {
      var rest := SplitOn(s[1..], c);
      SplitOnJoin(s[1..], c);
      if s[0] == c {
        JoinWithEmptyFirst(rest, c);
      } else {
        JoinWithCons(s[0], rest, c);
      }
      assert s == [s[0]] + s[1..];
    }
  }

  /** An empty first piece puts a separator in front of the joined text. */
  lemma JoinWithEmptyFirst(pieces: seq<string>, c: char)
    requires |pieces| > 0
    ensures JoinWith([""] + pieces, c) == [c] + JoinWith(pieces, c)
  {
    assert ([""] + pieces)[1..] == pieces;
  }

  /** Putting `x` in front of the first piece puts it in front of the
      joined text. */
  lemma JoinWithCons(x: char, pieces: seq<string>, c: char)
    requires |pieces| > 0
    ensures JoinWith([[x] + pieces[0]] + pieces[1..], c) == [x] + JoinWith(pieces, c)
  {
    var r := [[x] + pieces[0]] + pieces[1..];
    assert r[0] == [x] + pieces[0];
    if |pieces| > 1 {
      assert r[1..] == pieces[1..];
    }
  }

  /** Python's `s.strip()`. */
  function Strip(s: string): string {
    StripRight(StripLeft(s))
  }

  /** Python's `s[1:-1]`: drops the first and the last character. */
  function Inner(s: string): (r: string)
    ensures |s| >= 2 ==> [s[0]] + r + [s[|s| - 1]] == s
    ensures |s| < 2 ==> r == ""
  {
    if |s| < 2 then "" else s[1..|s| - 1]
  }

  /** Python's `a <= b` on strings: code-point lexicographic order. */
  predicate LexLe(a: string, b: string)
    decreases |a|
  {
    |a| == 0 || (|b| > 0 && (a[0] < b[0] || (a[0] == b[0] && LexLe(a[1..], b[1..]))))
  }

  lemma LexLeTotal(a: string, b: string)
    ensures LexLe(a, b) || LexLe(b, a)
    decreases |a|
  {
    if |a| > 0 && |b| > 0 && a[0] == b[0] {
      LexLeTotal(a[1..], b[1..]);
    }
  }

  lemma LexLeTransitive(a: string, b: string, c: string)
    requires LexLe(a, b) && LexLe(b, c)
    ensures LexLe(a, c)
    decreases |a|
  {
    if |a| > 0 && a[0] == b[0] && b[0] == c[0] {
      LexLeTransitive(a[1..], b[1..], c[1..]);
    }
  }
}

=== FILE: wrappers.dfy ===
/** Failure-compatible Option and Result types. A Python exception raised by the
    modelled code becomes a `Failure`; `:-` propagates it the way an uncaught
    exception unwinds the caller. */
module Wrappers {

  datatype Option<+T> = None | Some(value: T)

  datatype Result<+R, +E> = Success(value: R) | Failure(error: E) {

    predicate IsFailure() {
      Failure?
    }

    function PropagateFailure<U>(): Result<U, E>
      requires Failure?
    {
      Failure(error)
    }

    function Extract(): R
      requires Success?
    {
      value
    }
  }

  /** Applying a step that may raise to each element of `s` in order: the
      results in order, or the failure of the first step that raises. */
  function ReadAll<A, B, E>(read: A -> Result<B, E>, s: seq<A>): (r: Result<seq<B>, E>)
    ensures r.Success? <==> forall i :: 0 <= i < |s| ==> read(s[i]).Success?
    ensures r.Success? ==> |r.value| == |s| && forall i :: 0 <= i < |s| ==> r.value[i] == read(s[i]).value
    decreases |s|
  {
    if |s| == 0 then Success([])
    else
      var init :- ReadAll(read, s[..|s| - 1]);
      var last :- read(s[|s| - 1]);
      Success(init + [last])
  }
}
